=== FILE: README.md ===
# Snack-bar till and stock keeping, modelled in Dafny

The program is a browser point-of-sale and inventory tool for a snack bar.
Attendants build orders at the till, take cash, Pix or card payments, and
print an order slip to which a payment receipt file can be attached. Every
sale takes the ingredients of the products' recipes out of stock. The back
office keeps the product catalogue and the ingredient list, logs daily
ingredient usage as reports, and charts costs and low-stock alerts. Nothing
is ever deleted at once. Products, ingredients, sales, reports and receipts
are soft-deleted into a recycle bin, from where they are restored or purged,
and every such move is written to an action log.

The model covers the data-access layer (`services/api.ts`) and the pure
logic of the screens that drive it.

- The data layer's state is one immutable value, `Stores.Store`. It holds
  the five collections in the order the program keeps them, the action log
  and the order-number counter. Every operation is a function from one
  store to the next, with the clock and the attendant's name passed in as
  a `Stores.Context`.
- The five kinds of record share one lifecycle. `Kinds.Record` wraps any of
  them, and `Lifecycle` defines soft-delete, restore and purge once for all
  five. Each kind's visible listing and recycle bin are in `Views`.
- Sales (`Sales.AddSale`) issue the next order number (`3IR001`,
  `3IR002`, …) and deduct recipe quantities from the first ingredient with
  each id (`Stock`). Daily reports (`Reports.SaveDailyReport`) price each
  usage line and deduct it. Products and ingredients are created or
  updated by `Catalog`, and receipts are kept per sale by `ReceiptStore`.
- Each screen is a module of its own: the till (`RegisterSale`), the sales
  dashboard (`SalesDashboard`), the order history (`RecentSales`), the order
  slip with its receipt panel (`OrderSlip`), the product form
  (`ProductManager`), the usage logger (`UsageLogger`), the report history
  (`ReportHistoryTable`), the recycle bin (`RecycleBinDashboard`), the charts
  (`VisualDashboard`) and the inventory cards (`InventoryDashboard`).
- `Invariants` proves that order numbers stay distinct and never exceed
  the counter through every operation that touches sales.
- `Seed` holds the catalogue a fresh installation starts from and works
  one sale through the model by hand.

Money and quantities are mathematical reals. Order-line quantities are
integers. A text field parsed to a number is an `Option`, with `None`
standing for `NaN`. Instants are integers, standing for milliseconds since
the epoch.

One behaviour of the code is modelled as written. `saveDailyReport` takes
each line's quantity out of the in-memory stock before it looks up the next
line's ingredient. A report that names a missing ingredient therefore
fails after the earlier lines' stock has already been taken. The failed
outcome of `Reports.SaveDailyReport` states exactly that partial deduction.

## Model

| member | source | states |
|---|---|---|
| Stores.NextOrderNumber | services/api.ts:138-143 | The counter goes up by one and nothing else in the store changes; the number issued starts with `3IR`, has at least three digits after it, and reads back to the new counter value |
| Stores.OrderNumberRoundTrip | services/api.ts:138-143 | Parsing an issued order number gives back exactly the counter it was made from |
| Stores.OrderNumberInjective | services/api.ts:138-143 | Two counter values give the same order number only when they are equal, so zero padding never makes two numbers collide |
| Stores.MakeId | services/api.ts:97 | A generated id is the kind's prefix, a hyphen and then decimal digits only |
| Stores.MakeIdInjective | services/api.ts:97 | The digits after the prefix read back as the instant, so ids of one kind made at different instants never collide |
| Stores.ActingUser | services/api.ts:68 | The user logged is never empty: the stored attendant's name when it is set and non-empty, "Sistema" otherwise |
| Stores.AppendLogEntry | services/api.ts:67-79 | Logging puts exactly one new entry in front of the log, with the action, item, current instant and acting user, and changes nothing else in the store |
| Text.Decimal | services/api.ts:142 | A counter's decimal text is non-empty, all digits, and has no leading zero unless the value is zero |
| Text.PadStart | services/api.ts:142 | Padding keeps the text as a suffix, fills only with the pad character, and reaches the width unless the text is already longer |
| Text.ToLower | components/RecentSales.tsx:41-44 | Lower-casing keeps the length and maps every character on its own |
| Text.Contains | components/RecentSales.tsx:43-44 | A text contains a term exactly when the term occurs at some position of it |
| Kinds.MarkDeleted | services/api.ts:104-113 | Soft-deleting a record keeps its kind, id and display name, marks it deleted, stamps the deletion time, and restoring it afterwards gives the same record as restoring the original |
| Kinds.MarkRestored | services/api.ts:115-124 | Restoring a record keeps its kind, id and name, clears the deleted mark and the deletion time, and brings a product back as active |
| Lifecycle.AppendLogKeepsRecordsAll | services/api.ts:67-80 | Writing a log entry changes none of the five collections and not the order counter |
| Lifecycle.SoftDelete | services/api.ts:104-113 | An unknown id leaves the store as it was; otherwise the first record with the id, and only it, is marked deleted at the current instant, one soft-delete entry with the record's name goes in front of the log, and the other kinds are untouched (the same for sales, receipts, ingredients and reports at 209-218, 276-285, 328-337 and 407-416) |
| Lifecycle.Restore | services/api.ts:115-124 | An unknown id leaves the store as it was; otherwise the first record with the id, and only it, is brought back live, one restore entry goes in front of the log, and the other kinds are untouched (also 220-229, 287-296, 339-348, 418-427) |
| Lifecycle.Purge | services/api.ts:126-136 | An unknown id leaves the store as it was; otherwise every record with the id is removed from its kind, a purge entry naming the first one goes in front of the log, and only that kind and the receipts can change (also 231-241, 298-305, 350-358, 429-437) |
| Lifecycle.PurgeReceipt | services/api.ts:231-241 | Purging a sale also removes every receipt stored under the sale's id and changes nothing else |
| Lifecycle.SoftDeleteKeepsPosition | services/api.ts:104-113 | After a soft-delete the id still finds the same position, and the record there keeps its name |
| Lifecycle.SoftDeleteThenRestore | services/api.ts:104-124 | Soft-deleting and then restoring a record leaves its collection as if the record had only been restored: every other record is as before |
| Lifecycle.SoftDeleteThenRestoreActive | services/api.ts:104-124 | For a record that was live, a soft-delete followed by a restore gives back the collection exactly as it was |
| Lifecycle.SoftDeleteThenRestoreLog | services/api.ts:67-124 | The round trip leaves two log entries in front of the old log, the restore newest, both naming the record |
| Lifecycle.SoftDeleteThenRestoreOthers | services/api.ts:104-124 | The round trip changes no other kind's collection and not the order counter |
| Lifecycle.SoftDeleteThenPurge | services/api.ts:104-136 | Soft-deleting and then purging a record leaves no record with its id, and logs exactly two entries, the purge newest |
| Views.ViewsPartition | services/api.ts:441-466 | Each kind's listing and recycle bin together are a permutation of its collection: the listing holds only live records, the bin only deleted ones, and every record is in one of them |
| Views.GetProducts | services/api.ts:85-88 | The product listing is the collection's live part in store order; every listed product is stored and not deleted |
| Views.GetIngredients | services/api.ts:309-312 | The ingredient listing is a permutation of the live ingredients, ordered by name |
| Views.IngredientsListed | services/api.ts:309-312 | Any name-ordered permutation of the live ingredients is a valid listing |
| Views.GetDailyReports | services/api.ts:361-366 | The report listing holds every live report and nothing else, latest date first |
| Views.ReportsComplete | services/api.ts:361-366 | A permutation of the live reports contains each live report |
| Views.ReportsListed | services/api.ts:361-366 | Any latest-first permutation of the live reports is a valid listing |
| Views.GetSales | services/api.ts:146-171 | The sales listing is a permutation of the live sales since the window's start, newest first, each marked with whether a live receipt is stored for it and otherwise unchanged |
| Views.SalesListed | services/api.ts:146-171 | Any newest-first permutation of the window's live sales, marked with their receipts, is a valid listing |
| Stock.DeductOne | services/api.ts:195-198 | Only stock changes, and only on the first ingredient with the deduction's id, by exactly the deducted amount |
| Stock.DeductAll | services/api.ts:190-202 | Only stock changes; each first-of-its-id ingredient loses the sum of the deductions naming it and the others keep theirs |
| Stock.RecipeDeductions | services/api.ts:194-197 | One deduction per recipe line, for the line's ingredient, of the recipe quantity times the units sold |
| Stock.DeductItems | services/api.ts:190-202 | After a sale's deductions, each first-of-its-id ingredient has lost the total its recipes demand for the items sold, and nothing but stock changes |
| Sales.SaleTotal | services/api.ts:174 | A sale's total is the sum of its lines' unit price times quantity |
| Sales.AddSale | services/api.ts:173-207 | The new sale is live, carries the items, payment and cash details it was given, the id and time of the current instant, the line total and the next order number; it goes in front of the sales, the counter goes up by one, each first-of-its-id ingredient loses what the items' recipes demand, and nothing else changes |
| Catalog.MergeProduct | services/api.ts:93-94 | An edit takes the id, name, price and category from the input, the status and recipe from the input when given and from the stored product otherwise, and keeps the deletion time |
| Catalog.SaveProduct | services/api.ts:90-102 | A product without an id is appended as a new active product with a fresh id; an edit of an unknown id changes nothing; an edit of a known id merges the input over the first product with that id, writes the result over every product with that id and leaves the others |
| Catalog.SaveProductIdempotent | services/api.ts:90-102 | Saving the same edit a second time returns the same product and store as the first save |
| Catalog.ProductEditSettled | services/api.ts:90-102 | An edit that changes nothing in a product stored under a unique id leaves the store as it was |
| Catalog.SaveProductThenFind | services/api.ts:90-102 | After a save, looking the returned product up by its id finds exactly that product, given a fresh id is not already taken |
| Catalog.MergeIngredient | services/api.ts:317-318 | An edit takes id, name, unit, stock and price from the input, supplier, category and minimum stock from the input when given, and keeps status and deletion time |
| Catalog.SaveIngredient | services/api.ts:314-326 | The same create-or-update as for products: a new ingredient is appended live with a fresh id, an unknown id changes nothing, a known id merges the input over the first ingredient with that id and writes the result in place |
| Catalog.SaveIngredientIdempotent | services/api.ts:314-326 | Saving the same ingredient edit twice changes nothing the second time |
| Catalog.IngredientEditSettled | services/api.ts:314-326 | An edit that changes nothing in an ingredient stored under a unique id leaves the store as it was |
| Reports.FindIngredient | services/api.ts:372 | The lookup returns the first stored ingredient with the id, and returns nothing exactly when no ingredient has it |
| Reports.FindAfterDeduction | services/api.ts:372-381 | Deducting stock neither adds nor removes a lookup result, and the ingredient found differs only in its stock |
| Reports.DetailLines | services/api.ts:371-389 | The priced lines stop at the first usage whose ingredient is missing; each line before it carries the ingredient's name and unit and costs the quantity times the price |
| Reports.SaveDailyReport | services/api.ts:368-405 | The report is saved exactly when every usage names a known ingredient. A saved report is live, has one priced line per usage and the sum of line costs as its total, and is appended; each first-of-its-id ingredient loses the quantities used. A failed save names the first missing id, keeps the reports, and leaves the lines before it deducted |
| ReceiptStore.StoredReceipt | services/api.ts:265-266 | Reading a sale's receipt key returns a stored receipt of that sale, or nothing when none is stored |
| ReceiptStore.GetReceipt | services/api.ts:265-269 | A sale's receipt is returned exactly when one is stored and not soft-deleted |
| ReceiptStore.HasReceipt | services/api.ts:271-274 | The receipt flag is set exactly when the receipt can be fetched |
| ReceiptStore.SaveReceipt | services/api.ts:244-263 | The new receipt is live, stamped now, and fetched back for its sale; no other sale's receipt changes, and receipts stay one per sale |
| ReceiptStore.PutReceiptFound | services/api.ts:261 | Writing a receipt under its sale's key makes that key read back to it and keeps keys unique |
| ReceiptStore.PutReceiptElsewhere | services/api.ts:261 | Writing one sale's receipt does not move the receipt another sale's key reads back |
| Invariants.NoSalesOk | services/api.ts:47 | A store without sales satisfies the order-number invariant, whatever its counter |
| Invariants.AddSaleKeepsNumbers | services/api.ts:173-207 | A new sale's order number differs from every earlier one, and the sales' numbers stay distinct and issued by the counter |
| Invariants.SoftDeleteKeepsNumbers | services/api.ts:209-218 | Soft-deleting any record keeps the order-number invariant |
| Invariants.RestoreKeepsNumbers | services/api.ts:220-229 | Restoring any record keeps the order-number invariant |
| Invariants.PurgeKeepsNumbers | services/api.ts:231-241 | Purging any record keeps the order-number invariant |
| Seed.InitialStoreStartsLikeSeed | services/api.ts:22-61 | The store of a fresh installation has the classic burger first, the four first ingredients with their initial stock, and the counter at zero |
| Seed.TwoClassicBurgers | services/api.ts:22-58 | Two classic burgers paid in cash on a fresh store become order 3IR001 with a total of 51.00; bread drops from 100 to 98, beef from 5000 to 4700 and cheddar from 2000 to 1940, while lettuce stays at 2 |
| Seed.BurgerDemand | services/api.ts:29-33 | The burger's recipe makes two burgers demand 2 buns, 300 g of beef, 60 g of cheddar and no lettuce |
| Seed.SeedStock | services/api.ts:49-53 | The first four seed ingredients are ing-1 to ing-4 with stock 100, 5000, 2000 and 2 |
| Seed.TwoBurgersTotal | services/api.ts:174 | Two burgers at 25.50 come to 51.00 |
| Seed.OrderNumberDigits | services/api.ts:142 | The first order number is 3IR001 |
| RegisterSale.AddToOrder | components/RegisterSale.tsx:46-56 | Adding a product already in the cart adds one unit to its line and changes no other line; a new product is appended as a line of one unit at its price; a well-formed cart stays well-formed |
| RegisterSale.AddToOrderTotal | components/RegisterSale.tsx:46-66 | Adding a product raises the order total by exactly one unit price: that of the existing line, or the product's price for a new line |
| RegisterSale.BumpIsUpdate | components/RegisterSale.tsx:50-52 | On a cart with one line per product, adding a product already in it is the same as setting that one line's quantity one higher |
| RegisterSale.UpdateQuantity | components/RegisterSale.tsx:58-64 | A quantity of zero or less removes the product's lines and keeps the rest in order; a positive quantity sets it on the product's lines only; a well-formed cart stays well-formed |
| RegisterSale.RemoveLineTotal | components/RegisterSale.tsx:58-66 | Removing a line deletes just that line, and the total drops by exactly its subtotal |
| RegisterSale.QuantityFromInput | components/RegisterSale.tsx:149 | A quantity field that does not parse counts as zero, which removes the line; otherwise the parsed value is used |
| RegisterSale.ChangeGiven | components/RegisterSale.tsx:68-75 | Change is never negative; it is positive only for cash received above the total, and then received equals total plus change |
| RegisterSale.GenerateNote | components/RegisterSale.tsx:83-98 | The request carries the cart, payment, attendant and notes; the amount received goes with it only for cash with a parsed amount, and the change only for cash, as the amount received less the total or zero when the amount is missing or short; the form clears the cart, notes, search, category and amount but keeps the payment and attendant |
| RegisterSale.EnabledSubmitPaysInFull | components/RegisterSale.tsx:198 | A cash order the button lets through has items, and its amount received equals the total plus the change |
| RegisterSale.EmptyCashFieldBlocks | components/RegisterSale.tsx:100 | A cash sale with an empty amount field cannot be submitted |
| RegisterSale.FilteredProducts | components/RegisterSale.tsx:77-81 | The products shown are exactly those of the chosen category, or of any when none is chosen, whose name contains the search term ignoring case |
| RegisterSale.CashPaymentInvalid | components/RegisterSale.tsx:100 | Only a cash payment can be invalid; for cash with a well-formed field it is invalid exactly when the amount is missing or below the total |
| RegisterSale.SubmitDisabled | components/RegisterSale.tsx:198 | An enabled button means a non-empty order and a named attendant; for a card or Pix payment those two decide it; for cash the amount is present and covers the total |
| SalesDashboard.OfferedProducts | components/SalesDashboard.tsx:135 | The till is offered exactly the active products |
| SalesDashboard.OfferedAreActive | components/SalesDashboard.tsx:135 | A product is offered exactly when it is stored and active; inactive and deleted products never reach the till |
| SalesDashboard.TodaySales | components/SalesDashboard.tsx:51-55 | Today's sales are exactly the listed sales stamped at or after midnight |
| SalesDashboard.RevenueToday | components/SalesDashboard.tsx:57-59 | The revenue card is the sum of today's sale totals |
| SalesDashboard.CardsMatchStore | components/SalesDashboard.tsx:51-59 | The revenue and count cards equal the sum and count of the live sales stored since midnight, whatever order the listing came in |
| SalesDashboard.SaleRaisesCards | components/SalesDashboard.tsx:51-59 | A sale made today raises the revenue card by its total and the count card by one |
| SalesDashboard.HandleGenerateNote | components/SalesDashboard.tsx:61-81 | An empty order records nothing; any other order becomes a sale with the request's items, line total, payment, attendant, notes and cash details, in front of the sales |
| SalesDashboard.TillToStore | components/RegisterSale.tsx:83-98 | A cash order the till lets through is recorded with an amount received equal to the recorded total plus the change |
| RecentSales.PaymentLabel | components/RecentSales.tsx:20-30 | Every payment method has a non-empty label |
| RecentSales.PaymentLabelsDistinct | components/RecentSales.tsx:20-30 | Two methods share a label only when they are the same method |
| RecentSales.FilteredSales | components/RecentSales.tsx:39-46 | An empty box shows every sale; otherwise a sale is shown exactly when its order number or non-empty attendant name contains the term, ignoring case, in the given order |
| RecentSales.SearchIgnoresCase | components/RecentSales.tsx:39-46 | Searching for the lower-cased term shows the same sales as searching for the term |
| RecentSales.SearchFindsOwnNumber | components/RecentSales.tsx:39-46 | Searching for a sale's own order number shows that sale |
| RecentSales.TypingNarrows | components/RecentSales.tsx:39-46 | Typing more characters after a non-empty term never brings a sale back |
| ReportHistoryTable.ToggleExpand | components/ReportHistoryTable.tsx:27-29 | Clicking a row opens it unless it was the open one, which closes |
| ReportHistoryTable.ToggleTwice | components/ReportHistoryTable.tsx:27-29 | Clicking a row twice restores the previous state when no other row was open, and closes everything when another was |
| ReportHistoryTable.FilteredReports | components/ReportHistoryTable.tsx:40-60 | Empty boxes show every report; otherwise the two steps are one order-keeping filter that shows a report exactly when it passes both boxes |
| ReportHistoryTable.FilteredIsOneFilter | components/ReportHistoryTable.tsx:40-60 | Narrowing by date and then by ingredient gives the same rows as one filter with both tests |
| ReportHistoryTable.IngredientBoxNarrows | components/ReportHistoryTable.tsx:50-57 | Filling in the ingredient box never adds rows |
| OrderSlip.CashSlipShowsChange | components/OrderSlip.tsx:209-220 | A cash order the till lets through prints its amount received and change, and they differ by exactly the printed total |
| OrderSlip.HandleFileChange | components/OrderSlip.tsx:34-55 | No file changes nothing; a file over 5 MB is refused first and a disallowed type next, each with its message and without touching the waiting file; an accepted file waits with its preview and clears the error |
| OrderSlip.PreviewOfAllowed | components/OrderSlip.tsx:50-54 | Of the accepted types, JPEG and PNG get an image preview and a PDF gets the icon |
| OrderSlip.FileChangeKeepsPanelOk | components/OrderSlip.tsx:34-55 | Picking files never leaves a too large or disallowed file waiting for upload |
| OrderSlip.HandleSave | components/OrderSlip.tsx:57-72 | With no waiting file nothing happens; a failed read keeps the store and shows the upload error; otherwise the receipt is fetched back for the sale, no other sale's receipt changes, and the panel clears |
| OrderSlip.SavedReceiptAcceptable | components/OrderSlip.tsx:57-72 | A receipt saved from a well-formed panel has an allowed file type, and the panel stays well-formed |
| OrderSlip.HandleRemoveSaved | components/OrderSlip.tsx:74-81 | Without confirmation nothing changes; with it the sale no longer shows a receipt, and a stored one stays stored, marked deleted at the current instant |
| OrderSlip.RemoveHidesReceipt | services/api.ts:265-285 | Soft-deleting a sale's receipt hides it from the fetch and keeps it in storage, marked deleted now |
| ProductManager.OpenForm | components/ProductManager.tsx:20-28 | A new product opens blank, as an active snack with no recipe; an existing one opens with its fields and recipe, a missing recipe as empty, and a deleted product opens as active |
| ProductManager.AddRecipeItem | components/ProductManager.tsx:37-43 | A chosen ingredient with a positive quantity is appended to the recipe and the fields clear; anything else leaves the form as it was |
| ProductManager.AvailableIngredients | components/ProductManager.tsx:49 | The offered ingredients are exactly those the recipe does not use yet |
| ProductManager.OpenFormOk | components/ProductManager.tsx:20-28 | The form opens well-formed on a new product and on one whose recipe is well-formed |
| ProductManager.ChooseKeepsFormOk | components/ProductManager.tsx:49 | Choosing from the offered ingredients keeps the form well-formed |
| ProductManager.AddKeepsFormOk | components/ProductManager.tsx:37-43 | Adding a line never gives the recipe a line without an ingredient, a quantity of zero or less, or a second line for one ingredient |
| ProductManager.RemoveKeepsFormOk | components/ProductManager.tsx:45-47 | Removing a line keeps the recipe and the waiting ingredient well-formed |
| ProductManager.SubmitInput | components/ProductManager.tsx:30-35 | The form submits the edited product's id (none for a new one), its fields, its status and its recipe |
| ProductManager.NewProductListed | components/ProductManager.tsx:30-35 | A new product is stored as active whatever the status list says, with the edited recipe, and the product listing shows it |
| ProductManager.OpenAndSaveUnchanged | components/ProductManager.tsx:19-35 | Opening a listed product with a recipe and saving it unchanged leaves the store as it was, when no other product shares its id |
| ProductManager.OpenAndSaveFillsRecipe | components/ProductManager.tsx:24-33 | Opening a product stored without a recipe and saving it unchanged stores it with an empty recipe |
| ProductManager.DeleteMovesToBin | components/ProductManager.tsx:159-166 | Deleting a listed product takes it off the listing and into the recycle bin, unchanged but for its status and deletion time; no other product changes |
| ProductManager.RemoveRecipeItem | components/ProductManager.tsx:45-47 | The trash button drops exactly the chosen recipe line, keeps the others in order, ignores an index out of range and changes no other field |
| ProductManager.ChooseIngredient | components/ProductManager.tsx:92-95 | Picking an ingredient sets the waiting ingredient to it and changes nothing else |
| ProductManager.HandleSubmit | components/ProductManager.tsx:30-35 | Saving touches only the products. A new product, or one without an id, is appended as active. An edit succeeds exactly when the id is stored and keeps the id and the chosen status. The saved product carries the form's name, price, category and recipe |
| ProductManager.FormValid | components/ProductManager.tsx:52-55 | The browser's checks before submission: a name, and a price of at least zero in whole cents; a negative quantity in the add-ingredient box also blocks |
| ProductManager.SubmitForm | components/ProductManager.tsx:52-55 | The save button does nothing exactly when the browser's checks fail, and a product saved from the form always has a name and a non-negative price |
| ProductManager.NewFormNeedsName | components/ProductManager.tsx:19-20 | The blank new-product form cannot be saved; typing a name and a price in whole cents makes it savable |
| ProductManager.ConfirmDelete | components/ProductManager.tsx:159-166 | With nothing pending or an unknown id, nothing changes; otherwise the first product with the id is marked deleted in place, the others are untouched and one log entry is added |
| UsageLogger.ValidUsages | components/UsageLogger.tsx:68 | The submitted lines are exactly the rows with an ingredient and a quantity above zero: every such row is submitted, every submitted line comes from such a row, and there are never more lines than rows |
| UsageLogger.ValidUsagesConcat | components/UsageLogger.tsx:68 | The lines keep the form's order: the lines of two blocks of rows are the lines of the first block followed by those of the second, and a single row gives its own line when valid and none otherwise |
| UsageLogger.SetIngredient | components/UsageLogger.tsx:41-49 | Choosing an ingredient changes that row's ingredient only |
| UsageLogger.SetQuantity | components/UsageLogger.tsx:41-49 | Typing a quantity changes that row's quantity only |
| UsageLogger.AddRowKeepsUsages | components/UsageLogger.tsx:51-53 | Adding a blank row does not change what is submitted |
| UsageLogger.RemoveRowUsages | components/UsageLogger.tsx:55-57 | Removing a row drops its line from what is submitted, if it had one, and keeps every other line in order |
| UsageLogger.EditRowCount | components/UsageLogger.tsx:41-49 | Editing one row changes the number of submitted lines by at most one, as the row's validity changes |
| UsageLogger.AvailableIngredients | components/UsageLogger.tsx:84 | The offered ingredients are exactly those no row has chosen |
| UsageLogger.ChooseAvailableKeepsDistinct | components/UsageLogger.tsx:84 | Choosing from the offered ingredients keeps the rows' ingredients distinct |
| UsageLogger.Submit | components/UsageLogger.tsx:59-82 | A date already listed is refused; otherwise a form without a valid row is refused; otherwise the valid rows are saved as a live report of the date with the notes, one positive line per row, appended, with the stock deducted, or the save fails on a missing id the rows name |
| UsageLogger.SubmitKeepsDatesDistinct | components/UsageLogger.tsx:63-66 | With the listed reports' dates as the known dates, a saved report never gives a date a second live report |
| UsageLogger.SavedReportKeepsAlerts | components/UsageLogger.tsx:75-77 | Saving a report only takes stock out, so no low-stock alert clears and the alert count never falls |
| UsageLogger.AddUsageRow | components/UsageLogger.tsx:51-53 | The add button appends one empty, not yet valid row and keeps the others |
| UsageLogger.RemoveUsageRow | components/UsageLogger.tsx:55-57 | The trash button drops exactly the chosen row, keeps the rest in order and ignores an index out of range |
| UsageLogger.FormValidSubmitsEveryRow | components/UsageLogger.tsx:114-129 | When the browser lets the form through, every row is valid, so every row is submitted, in order |
| UsageLogger.SubmitForm | components/UsageLogger.tsx:88-129 | The save button does nothing exactly when the date is empty or some row lacks an ingredient or a positive quantity; otherwise the saved report has one line per row, and "nothing to save" happens only on a form with no rows |
| RecycleBinDashboard.KindOfItemType | components/RecycleBinDashboard.tsx:40-49 | The action tables send a tab's label back to the kind the label names |
| RecycleBinDashboard.ItemTypeRoundTrip | components/RecycleBinDashboard.tsx:108-116 | Every kind's label leads back to that kind, so no tab's buttons act on another kind |
| RecycleBinDashboard.TabData | components/RecycleBinDashboard.tsx:79-116 | A tab lists a permutation of its kind's recycle bin, each entry a deleted record of that kind with its label and display name, most recently deleted first |
| RecycleBinDashboard.EntriesOfBin | components/RecycleBinDashboard.tsx:110-116 | Any permutation of the bin's entries shows the bin's records, each deleted and labelled with its kind |
| RecycleBinDashboard.OnConfirm | components/RecycleBinDashboard.tsx:68-77 | Confirming with nothing pending changes nothing; otherwise the pending restore or purge runs |
| RecycleBinDashboard.TabEntry | components/RecycleBinDashboard.tsx:40-66 | The buttons of a tab's entry restore or purge that entry's kind under the entry's id |
| RecycleBinDashboard.RestoreFromTab | components/RecycleBinDashboard.tsx:40-52 | Restoring a tab's entry makes its id find a live record; when ids are unique the record reappears in the listing and the bin shrinks by one |
| RecycleBinDashboard.PurgeFromTab | components/RecycleBinDashboard.tsx:54-66 | Purging a tab's entry leaves no record with its id, shrinks its collection, removes a purged sale's receipts, and touches no other kind |
| RecycleBinDashboard.HandleRestore | components/RecycleBinDashboard.tsx:40-52 | An unknown label or id changes nothing; otherwise the first record of the label's kind with the entry's id is live again in place, and one log entry is added |
| RecycleBinDashboard.HandlePermanentDelete | components/RecycleBinDashboard.tsx:54-66 | An unknown label or id changes nothing; otherwise no record of that kind keeps the id, the collection shrinks, and one log entry is added |
| VisualDashboard.LowStockItems | components/VisualDashboard.tsx:29-31 | The alerts list exactly the ingredients with a positive minimum at or above their stock, as many as the inventory card counts |
| VisualDashboard.SaveKeepsReportsConsistent | services/api.ts:368-405 | Saving a report keeps every stored report's total equal to the sum of its lines' costs |
| VisualDashboard.CategoryOf | components/VisualDashboard.tsx:38-39 | A usage line is charted under its ingredient's category when that is non-empty, and under "Sem Categoria" when the ingredient is missing or has no or an empty category |
| VisualDashboard.CostByCategory | components/VisualDashboard.tsx:34-44 | The pie has one slice per category that occurs, holding that category's total cost, largest first, and the slices add up to the cost of all lines |
| VisualDashboard.PieMatchesReportTotals | components/VisualDashboard.tsx:34-44 | On consistent reports the pie's slices add up to the sum of the reports' totals |
| VisualDashboard.LastSevenDays | components/VisualDashboard.tsx:47-53 | The bar chart shows at most seven reports, oldest first, and every report left out is no later than every one shown |
| VisualDashboard.LatestShown | components/VisualDashboard.tsx:48 | Taking the first seven of the latest-first order keeps them latest first and leaves out only reports no later than those shown |
| VisualDashboard.OldestFirst | components/VisualDashboard.tsx:52 | Reversing the latest-first bars shows the same reports oldest first |
| VisualDashboard.TopExpensive | components/VisualDashboard.tsx:56-67 | At most five ingredients are ranked, each once with its total cost over all reports, most expensive first. Every ingredient left out costs no more than any shown, and when fewer than five are shown every ingredient used is shown |
| VisualDashboard.TopGroups | components/VisualDashboard.tsx:56-67 | Cutting the ranked per-ingredient totals to five keeps each ranked total right and leaves out only the cheaper ingredients |
| VisualDashboard.LeftOutCostsLess | components/VisualDashboard.tsx:66 | An ingredient cut from the top five costs no more than any shown |
| InventoryDashboard.Metrics | components/InventoryDashboard.tsx:51-59 | The cards count the ingredients, add up stock value, and count the low ones: none exactly when no ingredient is low, all exactly when every one is |
| InventoryDashboard.LowCountAppend | components/InventoryDashboard.tsx:53 | The low-stock card counts one per low ingredient: appending an ingredient raises the count by one exactly when it is low, which with the count of zero on no ingredients fixes the count for every list |
| InventoryDashboard.DeductionKeepsAlerts | components/InventoryDashboard.tsx:53 | Taking non-negative amounts out of stock keeps every low ingredient low and never lowers the alert count |

## Left out

- Persistence: local storage, JSON encoding and the swallowed read and write errors are not modelled. The store holds the program's in-memory collections together with two pieces of state the program keeps only in local storage: the order counter (`lastOrderNumber`) and the receipts (one `receipt_<saleId>` key each). Every write is modelled as succeeding.
- Stores.NextOrderNumber: the program writes the advanced counter with a `setItem` whose failure (a full storage quota) is caught and ignored. After such a failure the counter stays where it was, and every later sale gets the same `3IR…` number. The model always advances the counter, so `Invariants.AddSaleKeepsNumbers` holds only while storage writes succeed.
- ReceiptStore.SaveReceipt: the receipt is stored as a base64 data URL, about 4/3 of the file's size, and the panel accepts files of up to 5 MB, so one receipt can exceed the storage quota. The program then silently stores nothing but still reports the receipt as saved. The model stores it, so `OrderSlip.HandleSave` reads it back only under successful writes.
- The artificial 300 ms latency of every call and all asynchrony are left out. Every operation is one atomic step.
- The clock and the attendant's name are passed in as a `Context`. Instants are integers, not ISO strings.
- Views.GetSales: the start of the time window (midnight, seven or thirty days back) is a parameter, because calendar arithmetic is outside the model.
- `StrLe` orders strings by code unit (lexicographic on `char`): it agrees with `localeCompare` on `YYYY-MM-DD` dates, not on names with accents or mixed case, so name sorting follows code-unit order rather than the locale's collation.
- Lower-casing covers ASCII and Latin-1 capitals only, with no Unicode case folding.
- `formatDateLocal` and `formatDateTimeLocal` are function parameters. Currency and chart-label formatting and CSV export are left out.
- Sorting is a proved insertion sort. The model claims a sorted permutation, not the stability of the browser's sort.
- Numbers are reals. Float rounding is not modelled, and `NaN` is `None`.
- Stores.Store: a stored counter that does not parse as a number makes the program issue `3IRNaN`. The model keeps the counter as a natural number.
- Catalog.SaveProduct: an edit of an id that is not stored returns the input unchanged in the program. The model returns no product; the store is unchanged in both.
- RecycleBinDashboard.TabData: a record without a deletion time sorts as instant 0. Deletion times are compared as integers.
- Receipts in the recycle bin come from a scan of the storage keys. The model lists them in stored order.
- ReceiptStore.SaveReceipt: reading the file into a data URL is a given string. A failed read is the `readFailed` flag of `OrderSlip.HandleSave`.
- Restoring a report whose date has been reused by a newer live report gives that date two live reports. The model allows this as the program does, and `UsageLogger.SubmitKeepsDatesDistinct` covers new saves only.
- Seed.TwoClassicBurgers: stated for any store that still starts like the seed (`Seed.StartsLikeSeed`), not only for the exact initial store.
- Rendering, toasts, sounds, modals and the scroll lock of the usage logger are left out.
- Duplicate ids after an edit: `saveProduct` and `saveIngredient` write one shared object into every position with the id, so a later soft delete, restore or stock deduction through `find` changes all of them in the program. The model stores values, and Lifecycle.SoftDelete, Lifecycle.Restore and Stock.DeductOne change only the first position. The two agree whenever ids are unique, which is how the program issues them.
- The product form's price is a real number: clearing the price box gives `NaN` in the program, which the browser's `required` check then blocks; the model has no `NaN` price.
- VisualDashboard.CostByCategory: the program totals categories in a plain JavaScript object keyed by the free-text category name. A category named after an inherited member of `Object.prototype` (`constructor`, `toString`, `valueOf`, `hasOwnProperty`, …) starts from that function instead of 0 and yields a string-valued slice, which then sorts as `NaN`. A category named `__proto__` is dropped from the pie. Integer-like names are listed before the others, which matters only among slices of equal cost. The model gives every category a numeric slice and keeps first-seen order before sorting.
- Auction and bid types and their components are not part of this model.

=== FILE: catalog.dfy ===
/** Creating and editing products and ingredients. An input with a non-empty
    id edits every stored record with that id, field by field over the first
    one; an input without an id (or with the empty id) creates an active
    record with a fresh time-based id. */
module Catalog {
  import opened Options
  import opened Types
  import opened Collections
  import opened Stores
  import opened Stock

  /** What the product form submits. `None` marks a field the caller leaves
      out, which the update keeps from the stored product. */
  datatype ProductInput = ProductInput(
    id: Option<string>,
    name: string,
    price: real,
    category: Category,
    status: Option<ProductStatus>,
    recipe: Option<seq<RecipeItem>>)

  /** JavaScript treats the empty id as absent. */
  predicate IsCreate(id: Option<string>) {
    id.None? || id.value == ""
  }

  /** `{ ...existing, ...input }`. */
  function MergeProduct(existing: Product, input: ProductInput): (r: Product)
    requires input.id.Some?
    ensures r.id == input.id.value && r.name == input.name && r.price == input.price && r.category == input.category
    ensures r.status == input.status.GetOr(existing.status) && r.recipe == (if input.recipe.Some? then input.recipe else existing.recipe)
    ensures r.deletedAt == existing.deletedAt
  {
    Product(input.id.value, input.name, input.price, input.category, input.status.GetOr(existing.status),
      if input.recipe.Some? then input.recipe else existing.recipe, existing.deletedAt)
  }

  /** The store after `saveProduct`, and the product it returns; `None` when
      the id names no stored product, where the program returns the input
      itself and changes nothing. */
  datatype SavedProduct = SavedProduct(store: Store, product: Option<Product>)

  /** `saveProduct`. On create the status is always `active`, whatever the
      input says: the program's `status: 'active'` comes after the spread.
      An edit merges the input over the first product `find` returns for the
      id, and writes the result over every product with that id. */
  function SaveProduct(st: Store, input: ProductInput, ctx: Context): (r: SavedProduct)
    ensures r.store == st.(products := r.store.products)
    ensures IsCreate(input.id) ==>
      && r.product == Some(Product(MakeId("prod", ctx.now), input.name, input.price, input.category,
                                   ProductActive, input.recipe, None))
      && r.store.products == st.products + [r.product.value]
    ensures !IsCreate(input.id) ==>
      (r.product.None? <==> forall k :: 0 <= k < |st.products| ==> st.products[k].id != input.id.value)
    ensures !IsCreate(input.id) && r.product.None? ==> r.store == st
    ensures !IsCreate(input.id) && r.product.Some? ==>
      && |r.store.products| == |st.products|
      && (forall k :: 0 <= k < |st.products| ==>
            r.store.products[k] == if st.products[k].id == input.id.value then r.product.value else st.products[k])
      && (exists k :: 0 <= k < |st.products| && st.products[k].id == input.id.value
            && r.product.value == MergeProduct(st.products[k], input))
    ensures !IsCreate(input.id) && IndexOf(st.products, ProductId, input.id.value).Some? ==>
      var k := IndexOf(st.products, ProductId, input.id.value).value;
      r.product == Some(MergeProduct(st.products[k], input))
  {
    if IsCreate(input.id) then
      var p := Product(MakeId("prod", ctx.now), input.name, input.price, input.category, ProductActive, input.recipe, None);
      SavedProduct(st.(products := st.products + [p]), Some(p))
    else
      var id := input.id.value;
      match IndexOf(st.products, ProductId, id)
      case None => SavedProduct(st, None)
      case Some(k) =>
        var p := MergeProduct(st.products[k], input);
        SavedProduct(st.(products := Map(st.products, (q: Product) => if q.id == id then p else q)), Some(p))
  }

  /** Saving the same edit twice changes nothing the second time. */
  lemma SaveProductIdempotent(st: Store, input: ProductInput, ctx: Context, ctx2: Context)
    requires !IsCreate(input.id)
    ensures var once := SaveProduct(st, input, ctx);
      SaveProduct(once.store, input, ctx2) == once
  {
    var once := SaveProduct(st, input, ctx);
    if once.product.Some? {
      var p := once.product.value;
      var k :| 0 <= k < |st.products| && st.products[k].id == input.id.value && p == MergeProduct(st.products[k], input);
      assert once.store.products[k] == p;
      ProductEditSettled(once.store, input, p, k, ctx2);
    }
  }

  /** Once every product with the edited id equals the merged record, the
      edit has nothing left to change. */
  lemma ProductEditSettled(st: Store, input: ProductInput, p: Product, k: nat, ctx: Context)
    requires !IsCreate(input.id) && p.id == input.id.value
    requires k < |st.products| && st.products[k] == p
    requires MergeProduct(p, input) == p
    requires forall m :: 0 <= m < |st.products| && st.products[m].id == input.id.value ==> st.products[m] == p
    ensures SaveProduct(st, input, ctx) == SavedProduct(st, Some(p))
  {
    var r := SaveProduct(st, input, ctx);
    var j :| 0 <= j < |st.products| && st.products[j].id == input.id.value && r.product.value == MergeProduct(st.products[j], input);
    assert r.product == Some(p);
    assert r.store.products == st.products;
  }


  /** After a save, looking the product up by its id finds what was saved,
      provided a created product's fresh id was not already taken. */
  lemma SaveProductThenFind(st: Store, input: ProductInput, ctx: Context)
    requires IsCreate(input.id) ==> forall k :: 0 <= k < |st.products| ==> st.products[k].id != MakeId("prod", ctx.now)
    ensures var r := SaveProduct(st, input, ctx);
      r.product.Some? ==>
        && IndexOf(r.store.products, ProductId, r.product.value.id).Some?
        && r.store.products[IndexOf(r.store.products, ProductId, r.product.value.id).value] == r.product.value
  {
    var r := SaveProduct(st, input, ctx);
    if r.product.Some? {
      var p := r.product.value;
      if IsCreate(input.id) {
        IndexOfIs(r.store.products, ProductId, p.id, |st.products|);
      } else {
        var k :| 0 <= k < |st.products| && st.products[k].id == input.id.value && p == MergeProduct(st.products[k], input);
        var i := IndexOf(r.store.products, ProductId, p.id);
        assert r.store.products[k].id == p.id;
        assert r.store.products[i.value] == p;
      }
    }
  }

  /** What the ingredient form submits: all seven fields. */
  datatype IngredientInput = IngredientInput(
    id: Option<string>,
    name: string,
    unit: UnitOfMeasure,
    stock: real,
    price: real,
    supplier: Option<string>,
    category: Option<string>,
    minStock: Option<real>)

  function IngredientKey(i: Ingredient): string {
    i.id
  }

  /** `{ ...existing, ...input }`: an optional field the input leaves out keeps
      its stored value. */
  function MergeIngredient(existing: Ingredient, input: IngredientInput): (r: Ingredient)
    requires input.id.Some?
    ensures r.id == input.id.value && r.name == input.name && r.unit == input.unit
    ensures r.stock == input.stock && r.price == input.price
    ensures r.supplier == (if input.supplier.Some? then input.supplier else existing.supplier)
    ensures r.category == (if input.category.Some? then input.category else existing.category)
    ensures r.minStock == (if input.minStock.Some? then input.minStock else existing.minStock)
    ensures r.status == existing.status && r.deletedAt == existing.deletedAt
  {
    Ingredient(input.id.value, input.name, input.unit, input.stock, input.price,
      if input.supplier.Some? then input.supplier else existing.supplier,
      if input.category.Some? then input.category else existing.category,
      if input.minStock.Some? then input.minStock else existing.minStock,
      existing.status, existing.deletedAt)
  }

  datatype SavedIngredient = SavedIngredient(store: Store, ingredient: Option<Ingredient>)

  /** `saveIngredient`, the same create-or-update as `saveProduct`. */
  function SaveIngredient(st: Store, input: IngredientInput, ctx: Context): (r: SavedIngredient)
    ensures r.store == st.(ingredients := r.store.ingredients)
    ensures IsCreate(input.id) ==>
      && r.ingredient == Some(Ingredient(MakeId("ing", ctx.now), input.name, input.unit, input.stock, input.price,
                                         input.supplier, input.category, input.minStock, Active, None))
      && r.store.ingredients == st.ingredients + [r.ingredient.value]
    ensures !IsCreate(input.id) ==>
      (r.ingredient.None? <==> forall k :: 0 <= k < |st.ingredients| ==> st.ingredients[k].id != input.id.value)
    ensures !IsCreate(input.id) && r.ingredient.None? ==> r.store == st
    ensures !IsCreate(input.id) && r.ingredient.Some? ==>
      && |r.store.ingredients| == |st.ingredients|
      && (forall k :: 0 <= k < |st.ingredients| ==>
            r.store.ingredients[k] == if st.ingredients[k].id == input.id.value then r.ingredient.value else st.ingredients[k])
      && (exists k :: 0 <= k < |st.ingredients| && st.ingredients[k].id == input.id.value
            && r.ingredient.value == MergeIngredient(st.ingredients[k], input))
    ensures !IsCreate(input.id) && IndexOf(st.ingredients, IngredientKey, input.id.value).Some? ==>
      var k := IndexOf(st.ingredients, IngredientKey, input.id.value).value;
      r.ingredient == Some(MergeIngredient(st.ingredients[k], input))
  {
    if IsCreate(input.id) then
      var i := Ingredient(MakeId("ing", ctx.now), input.name, input.unit, input.stock, input.price,
        input.supplier, input.category, input.minStock, Active, None);
      SavedIngredient(st.(ingredients := st.ingredients + [i]), Some(i))
    else
      var id := input.id.value;
      match IndexOf(st.ingredients, IngredientKey, id)
      case None => SavedIngredient(st, None)
      case Some(k) =>
        var i := MergeIngredient(st.ingredients[k], input);
        SavedIngredient(st.(ingredients := Map(st.ingredients, (q: Ingredient) => if q.id == id then i else q)), Some(i))
  }

  /** Saving the same ingredient edit twice changes nothing the second time. */
  lemma SaveIngredientIdempotent(st: Store, input: IngredientInput, ctx: Context, ctx2: Context)
    requires !IsCreate(input.id)
    ensures var once := SaveIngredient(st, input, ctx);
      SaveIngredient(once.store, input, ctx2) == once
  {
    var once := SaveIngredient(st, input, ctx);
    if once.ingredient.Some? {
      var i := once.ingredient.value;
      var k :| 0 <= k < |st.ingredients| && st.ingredients[k].id == input.id.value && i == MergeIngredient(st.ingredients[k], input);
      assert once.store.ingredients[k] == i;
      IngredientEditSettled(once.store, input, i, k, ctx2);
    }
  }

  /** Once every ingredient with the edited id equals the merged record, the
      edit has nothing left to change. */
  lemma IngredientEditSettled(st: Store, input: IngredientInput, i: Ingredient, k: nat, ctx: Context)
    requires !IsCreate(input.id) && i.id == input.id.value
    requires k < |st.ingredients| && st.ingredients[k] == i
    requires MergeIngredient(i, input) == i
    requires forall m :: 0 <= m < |st.ingredients| && st.ingredients[m].id == input.id.value ==> st.ingredients[m] == i
    ensures SaveIngredient(st, input, ctx) == SavedIngredient(st, Some(i))
  {
    var r := SaveIngredient(st, input, ctx);
    var j :| 0 <= j < |st.ingredients| && st.ingredients[j].id == input.id.value && r.ingredient.value == MergeIngredient(st.ingredients[j], input);
    assert r.ingredient == Some(i);
    assert r.store.ingredients == st.ingredients;
  }

}

=== FILE: collections.dfy ===
/** Sequence operations the store and the screens are built from: JavaScript's
    `filter`, `reduce`, `find`/`findIndex` and index-based removal, each with
    the property the rest of the model relies on. */
module Collections {
  import opened Options

  /** The elements of `s` that satisfy `p`, in their original order
      (`Array.prototype.filter`). */
  function Filter<T>(s: seq<T>, p: T -> bool): (r: seq<T>)
    ensures |r| <= |s|
    ensures forall i :: 0 <= i < |r| ==> r[i] in s && p(r[i])
    ensures forall i :: 0 <= i < |s| && p(s[i]) ==> s[i] in r
  {
    if |s| == 0 then []
    else (if p(s[0]) then [s[0]] else []) + Filter(s[1..], p)
  }

  /** Filtering distributes over concatenation: the relative order of the
      kept elements is the order they had in the input. */
  lemma {:induction false} FilterConcat<T>(a: seq<T>, b: seq<T>, p: T -> bool)
    ensures Filter(a + b, p) == Filter(a, p) + Filter(b, p)
  {
    if |a| == 0 {
      assert a + b == b;
    } else {
      assert (a + b)[1..] == a[1..] + b;
      FilterConcat(a[1..], b, p);
    }
  }

  /** A filter that every element passes returns its input unchanged. */
  lemma {:induction false} FilterKeepsAll<T>(s: seq<T>, p: T -> bool)
    requires forall i :: 0 <= i < |s| ==> p(s[i])
    ensures Filter(s, p) == s
  {
    if |s| > 0 {
      FilterKeepsAll(s[1..], p);
    }
  }

  /** Filtering twice, once with `p` and once with its negation, splits `s`
      into two parts that together hold every element exactly once. */
  lemma {:induction false} FilterPartition<T>(s: seq<T>, p: T -> bool, q: T -> bool)
    requires forall i :: 0 <= i < |s| ==> q(s[i]) == !p(s[i])
    ensures multiset(Filter(s, p)) + multiset(Filter(s, q)) == multiset(s)
  {
    if |s| > 0 {
      FilterPartition(s[1..], p, q);
      var x := s[0];
      assert s == [x] + s[1..];
      assert multiset(s) == multiset{x} + multiset(s[1..]);
      if p(x) {
        assert Filter(s, p) == [x] + Filter(s[1..], p);
        assert Filter(s, q) == Filter(s[1..], q);
      } else {
        assert Filter(s, p) == Filter(s[1..], p);
        assert Filter(s, q) == [x] + Filter(s[1..], q);
      }
    }
  }

  /** Replacing one element changes how many elements pass `p` by at most
      the one replaced. */
  lemma {:induction false} FilterUpdateCount<T>(s: seq<T>, k: nat, x: T, p: T -> bool)
    requires k < |s|
    ensures |Filter(s[k := x], p)| == |Filter(s, p)| - (if p(s[k]) then 1 else 0) + (if p(x) then 1 else 0)
    decreases |s|
  {
    if k > 0 {
      assert s[k := x][1..] == s[1..][k - 1 := x];
      FilterUpdateCount(s[1..], k - 1, x, p);
    } else {
      assert s[k := x][1..] == s[1..];
    }
  }

  /** An element that fails `p` makes the filtered list strictly shorter. */
  lemma {:induction false} FilterShrinks<T>(s: seq<T>, p: T -> bool, k: nat)
    requires k < |s| && !p(s[k])
    ensures |Filter(s, p)| < |s|
    decreases |s|
  {
    if k > 0 {
      FilterShrinks(s[1..], p, k - 1);
    }
  }

  /** A relation that holds between every earlier and later element still
      holds after filtering: the kept elements keep their relative order. */
  lemma HeadRelatesTail<T>(s: seq<T>, rel: (T, T) -> bool, y: T)
    requires forall i, j :: 0 <= i < j < |s| ==> rel(s[i], s[j])
    requires |s| > 0 && y in s[1..]
    ensures rel(s[0], y)
  {
    var m :| 0 <= m < |s[1..]| && s[1..][m] == y;
    assert s[m + 1] == y;
  }

  lemma {:induction false} FilterPairwise<T>(s: seq<T>, p: T -> bool, rel: (T, T) -> bool)
    requires forall i, j :: 0 <= i < j < |s| ==> rel(s[i], s[j])
    ensures forall i, j :: 0 <= i < j < |Filter(s, p)| ==> rel(Filter(s, p)[i], Filter(s, p)[j])
    decreases |s|
  {
    if |s| > 0 {
      var t := Filter(s[1..], p);
      FilterPairwise(s[1..], p, rel);
      if p(s[0]) {
        var f := Filter(s, p);
        assert f == [s[0]] + t;
        forall i, j | 0 <= i < j < |f| ensures rel(f[i], f[j]) {
          if i == 0 {
            assert f[j] == t[j - 1];
            HeadRelatesTail(s, rel, t[j - 1]);
          } else {
            assert f[i] == t[i - 1] && f[j] == t[j - 1];
          }
        }
      } else {
        assert Filter(s, p) == t;
      }
    }
  }

  /** Σ f(x) over `s`: the reference definition every total in the model is
      compared against. */
  function Sum<T>(s: seq<T>, f: T -> real): real {
    if |s| == 0 then 0.0 else f(s[0]) + Sum(s[1..], f)
  }

  lemma {:induction false} SumConcat<T>(a: seq<T>, b: seq<T>, f: T -> real)
    ensures Sum(a + b, f) == Sum(a, f) + Sum(b, f)
  {
    if |a| == 0 {
      assert a + b == b;
    } else {
      assert (a + b)[1..] == a[1..] + b;
      SumConcat(a[1..], b, f);
    }
  }

  /** Replacing one element changes the sum by the difference of its terms. */
  lemma {:induction false} SumUpdate<T>(s: seq<T>, k: nat, x: T, f: T -> real)
    requires k < |s|
    ensures Sum(s[k := x], f) == Sum(s, f) - f(s[k]) + f(x)
    decreases |s|
  {
    if k > 0 {
      assert s[k := x][1..] == s[1..][k - 1 := x];
      SumUpdate(s[1..], k - 1, x, f);
    }
  }

  /** Replacing one element by one whose term is larger by `d` adds `d` to
      the sum. */
  lemma SumBump<T>(s: seq<T>, k: nat, x: T, f: T -> real, d: real)
    requires k < |s| && f(x) == f(s[k]) + d
    ensures Sum(s[k := x], f) == Sum(s, f) + d
  {
    SumUpdate(s, k, x, f);
  }

  /** Dropping one element removes its term from the sum. */
  lemma SumDrop<T>(s: seq<T>, k: nat, f: T -> real)
    requires k < |s|
    ensures Sum(s[..k] + s[k + 1..], f) == Sum(s, f) - f(s[k])
  {
    assert s == s[..k] + s[k..];
    assert s[k..] == [s[k]] + s[k + 1..];
    SumConcat(s[..k], s[k..], f);
    SumConcat(s[..k], s[k + 1..], f);
  }

  /** `s.reduce((sum, x) => sum + f(x), acc)`: a left-to-right running total.
      It agrees with Σ. */
  function Reduce<T>(s: seq<T>, f: T -> real, acc: real): (r: real)
    ensures r == acc + Sum(s, f)
  {
    if |s| == 0 then acc else Reduce(s[1..], f, acc + f(s[0]))
  }

  /** Position of the first element whose key is `id` (`findIndex`; `find`
      returns the element at that position). */
  function IndexOf<T>(s: seq<T>, key: T -> string, id: string): (r: Option<nat>)
    ensures r.Some? ==> r.value < |s| && key(s[r.value]) == id
    ensures r.Some? ==> forall j :: 0 <= j < r.value ==> key(s[j]) != id
    ensures r.None? <==> forall j :: 0 <= j < |s| ==> key(s[j]) != id
  {
    if |s| == 0 then None
    else if key(s[0]) == id then Some(0)
    else match IndexOf(s[1..], key, id)
      case None => None
      case Some(k) => Some(k + 1)
  }

  /** The first match is the only index meeting `IndexOf`'s contract. */
  lemma IndexOfIs<T>(s: seq<T>, key: T -> string, id: string, k: nat)
    requires k < |s| && key(s[k]) == id
    requires forall j :: 0 <= j < k ==> key(s[j]) != id
    ensures IndexOf(s, key, id) == Some(k)
  {
    var r := IndexOf(s, key, id);
    assert r.Some? by { assert key(s[k]) == id; }
    assert !(r.value < k);
  }

  /** Replacing the element at the first match by another with the same
      key keeps the first match where it was. */
  lemma ReplaceKeepsIndex<T>(s: seq<T>, s1: seq<T>, key: T -> string, id: string, k: nat)
    requires IndexOf(s, key, id) == Some(k)
    requires |s1| == |s| && key(s1[k]) == id
    requires forall j :: 0 <= j < |s| && j != k ==> s1[j] == s[j]
    ensures IndexOf(s1, key, id) == Some(k)
  {
    IndexOfIs(s1, key, id, k);
  }

  /** Two replacements at the same index leave the second value there and
      everything else as it was. */
  lemma ReplaceTwice<T>(s: seq<T>, s1: seq<T>, s2: seq<T>, k: nat)
    requires |s1| == |s| && |s2| == |s| && k < |s|
    requires forall j :: 0 <= j < |s| && j != k ==> s1[j] == s[j]
    requires forall j :: 0 <= j < |s| && j != k ==> s2[j] == s1[j]
    ensures s2 == s[k := s2[k]]
  {
  }

  /** `findIndex` on a list with one more element at the end. */
  lemma IndexOfSnoc<T>(s: seq<T>, x: T, key: T -> string, id: string)
    ensures IndexOf(s + [x], key, id) ==
      if IndexOf(s, key, id).Some? then IndexOf(s, key, id)
      else if key(x) == id then Some(|s|)
      else None
  {
    var t := s + [x];
    match IndexOf(s, key, id)
    case Some(k) =>
      IndexOfIs(t, key, id, k);
    case None =>
      if key(x) == id {
        IndexOfIs(t, key, id, |s|);
      } else {
        assert forall j :: 0 <= j < |t| ==> key(t[j]) != id by {
          forall j | 0 <= j < |t| ensures key(t[j]) != id {
            if j < |s| { assert t[j] == s[j]; }
          }
        }
      }
  }

  /** No two elements share a key. */
  predicate KeysUnique<T>(s: seq<T>, key: T -> string) {
    forall i, j :: 0 <= i < j < |s| ==> key(s[i]) != key(s[j])
  }

  /** With unique keys no element occurs twice. */
  lemma {:induction false} UniqueKeysNoRepeats<T>(s: seq<T>, key: T -> string, x: T)
    requires KeysUnique(s, key)
    ensures multiset(s)[x] <= 1
    decreases |s|
  {
    if |s| > 0 {
      var rest := s[1..];
      assert s == [s[0]] + rest;
      assert KeysUnique(rest, key) by {
        forall i, j | 0 <= i < j < |rest| ensures key(rest[i]) != key(rest[j]) {
          assert rest[i] == s[i + 1] && rest[j] == s[j + 1];
        }
      }
      UniqueKeysNoRepeats(rest, key, x);
      if x == s[0] {
        forall m | 0 <= m < |rest| ensures rest[m] != x {
          assert key(s[0]) != key(s[m + 1]);
        }
        assert x !in multiset(rest);
      }
    }
  }

  /** A permutation of a list with unique keys has unique keys. */
  lemma UniqueKeysPermutation<T>(a: seq<T>, b: seq<T>, key: T -> string)
    requires multiset(a) == multiset(b)
    requires KeysUnique(b, key)
    ensures KeysUnique(a, key)
  {
    forall i, j | 0 <= i < j < |a| ensures key(a[i]) != key(a[j]) {
      UniqueKeysNoRepeats(b, key, a[i]);
      assert a == a[..j] + [a[j]] + a[j + 1..];
      assert a[i] in multiset(a[..j]);
      assert multiset(a) == multiset(a[..j]) + multiset{a[j]} + multiset(a[j + 1..]);
      assert a[i] != a[j];
      assert a[i] in multiset(b) && a[j] in multiset(b);
      var p :| 0 <= p < |b| && b[p] == a[i];
      var q :| 0 <= q < |b| && b[q] == a[j];
      assert p != q;
    }
  }

  lemma SplitAt<T>(b: seq<T>, k: nat)
    requires k < |b|
    ensures b == b[..k] + [b[k]] + b[k + 1..]
  {
  }

  lemma RemoveAtMultiset<T>(b: seq<T>, k: nat)
    requires k < |b|
    ensures multiset(b[..k] + b[k + 1..]) == multiset(b) - multiset{b[k]}
  {
    SplitAt(b, k);
  }

  /** Taking the first element off `a` and a copy of it off `b` leaves two
      permutations of each other. */
  lemma PermutationTail<T>(a: seq<T>, b: seq<T>, k: nat)
    requires multiset(a) == multiset(b) && |a| > 0 && k < |b| && b[k] == a[0]
    ensures multiset(a[1..]) == multiset(b[..k] + b[k + 1..])
  {
    RemoveAtMultiset(b, k);
    assert a == [a[0]] + a[1..];
    assert multiset(a[1..]) == multiset(a) - multiset{a[0]};
  }

  /** A permutation has the same sum. */
  lemma {:induction false} SumPermutation<T>(a: seq<T>, b: seq<T>, f: T -> real)
    requires multiset(a) == multiset(b)
    ensures Sum(a, f) == Sum(b, f)
    decreases |a|
  {
    if |a| > 0 {
      var x := a[0];
      assert x in multiset(b);
      var k :| 0 <= k < |b| && b[k] == x;
      PermutationTail(a, b, k);
      SumPermutation(a[1..], b[..k] + b[k + 1..], f);
      SumDrop(b, k, f);
    }
  }

  /** Summing a mapped list is summing the composed function. */
  lemma {:induction false} SumMap<T, U>(s: seq<T>, f: T -> U, g: U -> real, h: T -> real)
    requires forall x :: h(x) == g(f(x))
    ensures Sum(Map(s, f), g) == Sum(s, h)
    decreases |s|
  {
    if |s| > 0 {
      assert Map(s, f)[1..] == Map(s[1..], f);
      SumMap(s[1..], f, g, h);
    }
  }

  /** Pointwise implication between two lists of the same length bounds the
      number of elements each filter keeps. */
  lemma {:induction false} FilterCountMonotone<T>(a: seq<T>, b: seq<T>, p: T -> bool, q: T -> bool)
    requires |a| == |b|
    requires forall k :: 0 <= k < |a| && p(a[k]) ==> q(b[k])
    ensures |Filter(a, p)| <= |Filter(b, q)|
    decreases |a|
  {
    if |a| > 0 {
      FilterCountMonotone(a[1..], b[1..], p, q);
    }
  }

  /** A test that fails on exactly one element removes just that element. */
  lemma {:induction false} FilterDropsOne<T>(s: seq<T>, p: T -> bool, k: nat)
    requires k < |s| && !p(s[k])
    requires forall i :: 0 <= i < |s| && i != k ==> p(s[i])
    ensures Filter(s, p) == s[..k] + s[k + 1..]
    decreases |s|
  {
    if k == 0 {
      FilterKeepsAll(s[1..], p);
    } else {
      FilterDropsOne(s[1..], p, k - 1);
      assert s[..k] + s[k + 1..] == [s[0]] + (s[1..][..k - 1] + s[1..][k..]);
    }
  }

  /** Filtering twice is filtering once with both tests. */
  lemma {:induction false} FilterFilter<T>(s: seq<T>, p: T -> bool, q: T -> bool, pq: T -> bool)
    requires forall x :: pq(x) == (p(x) && q(x))
    ensures Filter(Filter(s, p), q) == Filter(s, pq)
    decreases |s|
  {
    if |s| > 0 {
      FilterFilter(s[1..], p, q, pq);
      var h := if p(s[0]) then [s[0]] else [];
      FilterConcat(h, Filter(s[1..], p), q);
    }
  }

  /** Two tests that agree on every element of `s` keep the same elements. */
  lemma {:induction false} FilterSameTest<T>(s: seq<T>, p: T -> bool, q: T -> bool)
    requires forall i :: 0 <= i < |s| ==> p(s[i]) == q(s[i])
    ensures Filter(s, p) == Filter(s, q)
    decreases |s|
  {
    if |s| > 0 {
      FilterSameTest(s[1..], p, q);
    }
  }

  /** Filtering preserves being a permutation. */
  lemma {:induction false} FilterPermutation<T>(a: seq<T>, b: seq<T>, p: T -> bool)
    requires multiset(a) == multiset(b)
    ensures multiset(Filter(a, p)) == multiset(Filter(b, p))
    decreases |a|
  {
    if |a| > 0 {
      var x := a[0];
      assert x in multiset(b);
      var k :| 0 <= k < |b| && b[k] == x;
      PermutationTail(a, b, k);
      FilterPermutation(a[1..], b[..k] + b[k + 1..], p);
      FilterAround(b, k, p);
    }
  }

  /** Filtering `b` keeps what filtering `b` without element `k` keeps,
      plus element `k` if it passes. */
  lemma FilterAround<T>(b: seq<T>, k: nat, p: T -> bool)
    requires k < |b|
    ensures multiset(Filter(b, p)) == multiset(Filter(b[..k] + b[k + 1..], p)) + multiset(Filter([b[k]], p))
  {
    FilterSplit(b, k, p);
    MultisetMiddle(Filter(b[..k], p), Filter([b[k]], p), Filter(b[k + 1..], p));
  }

  lemma FilterSplit<T>(b: seq<T>, k: nat, p: T -> bool)
    requires k < |b|
    ensures Filter(b, p) == Filter(b[..k], p) + Filter([b[k]], p) + Filter(b[k + 1..], p)
    ensures Filter(b[..k] + b[k + 1..], p) == Filter(b[..k], p) + Filter(b[k + 1..], p)
  {
    var left, x, right := b[..k], b[k], b[k + 1..];
    SplitAt(b, k);
    FilterConcat(left + [x], right, p);
    FilterConcat(left, [x], p);
    FilterConcat(left, right, p);
  }

  lemma MultisetMiddle<T>(a: seq<T>, b: seq<T>, c: seq<T>)
    ensures multiset(a + b + c) == multiset(a + c) + multiset(b)
  {
  }

  /** Mapping preserves being a permutation: sorting before or after a map
      yields the same elements. */
  lemma {:induction false} MapPermutation<T, U>(a: seq<T>, b: seq<T>, f: T -> U)
    requires multiset(a) == multiset(b)
    ensures multiset(Map(a, f)) == multiset(Map(b, f))
    decreases |a|
  {
    if |a| > 0 {
      var x := a[0];
      assert x in multiset(b);
      var k :| 0 <= k < |b| && b[k] == x;
      PermutationTail(a, b, k);
      MapPermutation(a[1..], b[..k] + b[k + 1..], f);
      MapCons(a, f);
      MapAround(b, k, f);
    }
  }

  lemma MapCons<T, U>(a: seq<T>, f: T -> U)
    requires |a| > 0
    ensures multiset(Map(a, f)) == multiset{f(a[0])} + multiset(Map(a[1..], f))
  {
    MapTail(a, f);
    assert Map(a, f) == [f(a[0])] + Map(a[1..], f);
  }

  /** Mapping `b` gives what mapping `b` without element `k` gives, plus the
      image of element `k`. */
  lemma MapAround<T, U>(b: seq<T>, k: nat, f: T -> U)
    requires k < |b|
    ensures multiset(Map(b, f)) == multiset(Map(b[..k] + b[k + 1..], f)) + multiset{f(b[k])}
  {
    var left, x, right := b[..k], b[k], b[k + 1..];
    SplitAt(b, k);
    MapConcat(left + [x], right, f);
    MapConcat(left, [x], f);
    MapConcat(left, right, f);
    assert Map([x], f) == [f(x)];
    assert Map(b, f) == Map(left, f) + [f(x)] + Map(right, f);
  }

  /** A permutation holds the same elements. */
  lemma PermutationMembers<T>(a: seq<T>, b: seq<T>)
    requires multiset(a) == multiset(b)
    ensures forall i :: 0 <= i < |a| ==> a[i] in b
  {
    forall i | 0 <= i < |a| ensures a[i] in b {
      assert a[i] in multiset(b);
    }
  }

  /** `s.filter((_, i) => i !== index)`: drops the element at `index`, or
      nothing when `index` is out of range. */
  function DropIndex<T>(s: seq<T>, index: int): (r: seq<T>)
    ensures 0 <= index < |s| ==> r == s[..index] + s[index + 1..]
    ensures !(0 <= index < |s|) ==> r == s
  {
    if |s| == 0 then []
    else (if index == 0 then [] else [s[0]]) + DropIndex(s[1..], index - 1)
  }

  /** Every element satisfies `p`. */
  predicate All<T>(s: seq<T>, p: T -> bool) {
    forall i :: 0 <= i < |s| ==> p(s[i])
  }

  /** Some element satisfies `p` (`Array.prototype.some`). */
  predicate Any<T>(s: seq<T>, p: T -> bool) {
    exists i :: 0 <= i < |s| && p(s[i])
  }

  /** `s.map(f)`. */
  function Map<T, U>(s: seq<T>, f: T -> U): (r: seq<U>)
    ensures |r| == |s|
    ensures forall i :: 0 <= i < |s| ==> r[i] == f(s[i])
  {
    seq(|s|, i requires 0 <= i < |s| => f(s[i]))
  }

  /** The first `n` elements, or all of them (`slice(0, n)`). */
  function Take<T>(s: seq<T>, n: nat): (r: seq<T>)
    ensures |r| == if |s| < n then |s| else n
    ensures r <= s
  {
    if |s| <= n then s else s[..n]
  }

  /** `[...s].reverse()`. */
  function Reverse<T>(s: seq<T>): (r: seq<T>)
    ensures |r| == |s|
    ensures forall i :: 0 <= i < |s| ==> r[i] == s[|s| - 1 - i]
  {
    if |s| == 0 then [] else Reverse(s[1..]) + [s[0]]
  }

  lemma MapConcat<T, U>(a: seq<T>, b: seq<T>, f: T -> U)
    ensures Map(a + b, f) == Map(a, f) + Map(b, f)
  {
  }

  lemma MapTail<T, U>(s: seq<T>, f: T -> U)
    requires |s| > 0
    ensures Map(s, f)[0] == f(s[0]) && Map(s, f)[1..] == Map(s[1..], f)
  {
  }

  /** Mapping after filtering is filtering the mapped list with the
      corresponding test. */
  lemma {:induction false} MapFilter<T, U>(s: seq<T>, f: T -> U, p: T -> bool, q: U -> bool)
    requires forall i :: 0 <= i < |s| ==> q(f(s[i])) == p(s[i])
    ensures Map(Filter(s, p), f) == Filter(Map(s, f), q)
  {
    if |s| > 0 {
      var rest := Filter(s[1..], p);
      MapFilter(s[1..], f, p, q);
      MapTail(s, f);
      assert q(f(s[0])) == p(s[0]);
      if p(s[0]) {
        MapConcat([s[0]], rest, f);
      } else {
        assert Filter(s, p) == rest;
      }
    }
  }
}

=== FILE: grouping.dfy ===
/** Accumulating amounts into a keyed map, the way the charts total report
    costs: each contribution adds its amount to the entry for its key, and an
    entry is created, with the contribution's name, the first time its key is
    seen. The program's map is a plain JavaScript object; here it is a list of
    groups in the order keys first appear. Unlike the object, the list has no
    inherited members and does not move integer-like keys to the front. */
module Grouping {
  import opened Options
  import opened Collections
  import opened Sorting

  datatype Contribution = Contribution(key: string, name: string, amount: real)

  datatype Group = Group(key: string, name: string, total: real)

  function ContributionKey(c: Contribution): string { c.key }
  function Amount(c: Contribution): real { c.amount }
  function GroupKey(g: Group): string { g.key }
  function Total(g: Group): real { g.total }

  /** The amount a contribution adds to the group `key`. */
  function AmountFor(key: string): Contribution -> real {
    (c: Contribution) => if c.key == key then c.amount else 0.0
  }

  /** Reference definition of a group's total: Σ of the amounts with its key. */
  function KeyedTotal(cs: seq<Contribution>, key: string): real {
    Sum(cs, AmountFor(key))
  }

  /** Group `k` with `amount` added to its total. */
  function AddTo(gs: seq<Group>, k: nat, amount: real): seq<Group>
    requires k < |gs|
  {
    gs[k := gs[k].(total := gs[k].total + amount)]
  }

  /** One step: add to the existing group, or open a new one at the end. */
  function Accumulate(gs: seq<Group>, c: Contribution): seq<Group> {
    match IndexOf(gs, GroupKey, c.key)
    case None => gs + [Group(c.key, c.name, c.amount)]
    case Some(k) => AddTo(gs, k, c.amount)
  }

  /** All contributions, in order. */
  function GroupBy(cs: seq<Contribution>): seq<Group>
    decreases |cs|
  {
    if |cs| == 0 then []
    else Accumulate(GroupBy(cs[..|cs| - 1]), cs[|cs| - 1])
  }

  /** `g` is the group of its key in `cs`: the key occurs, the group is named
      after the first contribution with that key and holds the key's total. */
  predicate GroupOk(g: Group, cs: seq<Contribution>) {
    && IndexOf(cs, ContributionKey, g.key).Some?
    && g.name == cs[IndexOf(cs, ContributionKey, g.key).value].name
    && g.total == KeyedTotal(cs, g.key)
  }

  /** Every key of `cs` has a group in `gs`. */
  predicate Covers(gs: seq<Group>, cs: seq<Contribution>) {
    forall i :: 0 <= i < |cs| ==> IndexOf(gs, GroupKey, cs[i].key).Some?
  }

  /** Some group of `gs` has key `key`. */
  predicate HasGroup(gs: seq<Group>, key: string) {
    exists j :: 0 <= j < |gs| && gs[j].key == key
  }

  /** `gs` is the grouping of `cs`: one group per key that occurs, none other,
      each correct, and the grand total is preserved. */
  predicate GroupsOf(gs: seq<Group>, cs: seq<Contribution>) {
    && KeysUnique(gs, GroupKey)
    && (forall j :: 0 <= j < |gs| ==> GroupOk(gs[j], cs))
    && Covers(gs, cs)
    && Sum(gs, Total) == Sum(cs, Amount)
  }

  lemma KeyedTotalSnoc(cs: seq<Contribution>, c: Contribution, key: string)
    ensures KeyedTotal(cs + [c], key) == KeyedTotal(cs, key) + (if c.key == key then c.amount else 0.0)
  {
    SumConcat(cs, [c], AmountFor(key));
  }

  lemma {:induction false} KeyedTotalAbsent(cs: seq<Contribution>, key: string)
    requires forall i :: 0 <= i < |cs| ==> cs[i].key != key
    ensures KeyedTotal(cs, key) == 0.0
    decreases |cs|
  {
    if |cs| > 0 {
      KeyedTotalAbsent(cs[1..], key);
    }
  }

  /** A group for a key other than the new contribution's stays correct. */
  lemma GroupOkSnoc(g: Group, cs: seq<Contribution>, c: Contribution)
    requires GroupOk(g, cs) && g.key != c.key
    ensures GroupOk(g, cs + [c])
  {
    IndexOfSnoc(cs, c, ContributionKey, g.key);
    KeyedTotalSnoc(cs, c, g.key);
  }

  /** A contribution with a key not seen before opens a new group. */
  lemma AccumulateNew(gs: seq<Group>, cs: seq<Contribution>, c: Contribution)
    requires GroupsOf(gs, cs)
    requires IndexOf(gs, GroupKey, c.key).None?
    ensures GroupsOf(Accumulate(gs, c), cs + [c])
  {
    var g := Group(c.key, c.name, c.amount);
    assert Accumulate(gs, c) == gs + [g];
    AccumulateNewOk(gs, cs, c);
    AccumulateNewCovers(gs, cs, c);
    SumConcat(gs, [g], Total);
    SumConcat(cs, [c], Amount);
  }

  lemma AccumulateNewOk(gs: seq<Group>, cs: seq<Contribution>, c: Contribution)
    requires KeysUnique(gs, GroupKey)
    requires forall j :: 0 <= j < |gs| ==> GroupOk(gs[j], cs)
    requires Covers(gs, cs)
    requires IndexOf(gs, GroupKey, c.key).None?
    ensures KeysUnique(gs + [Group(c.key, c.name, c.amount)], GroupKey)
    ensures forall j :: 0 <= j < |gs| + 1 ==> GroupOk((gs + [Group(c.key, c.name, c.amount)])[j], cs + [c])
  {
    var t := cs + [c];
    var g := Group(c.key, c.name, c.amount);
    var r := gs + [g];
    NewGroupOk(gs, cs, c);
    forall j | 0 <= j < |gs| ensures GroupOk(r[j], t) {
      GroupOkSnoc(gs[j], cs, c);
    }
    assert r[|gs|] == g;
  }

  /** The group a new key opens is correct. */
  lemma NewGroupOk(gs: seq<Group>, cs: seq<Contribution>, c: Contribution)
    requires Covers(gs, cs)
    requires IndexOf(gs, GroupKey, c.key).None?
    ensures GroupOk(Group(c.key, c.name, c.amount), cs + [c])
  {
    forall i | 0 <= i < |cs| ensures cs[i].key != c.key {
      var m := IndexOf(gs, GroupKey, cs[i].key).value;
      assert gs[m].key == cs[i].key;
    }
    IndexOfSnoc(cs, c, ContributionKey, c.key);
    KeyedTotalAbsent(cs, c.key);
    KeyedTotalSnoc(cs, c, c.key);
  }

  lemma AccumulateNewCovers(gs: seq<Group>, cs: seq<Contribution>, c: Contribution)
    requires Covers(gs, cs)
    requires IndexOf(gs, GroupKey, c.key).None?
    ensures Covers(gs + [Group(c.key, c.name, c.amount)], cs + [c])
  {
    var t := cs + [c];
    var r := gs + [Group(c.key, c.name, c.amount)];
    forall i | 0 <= i < |t| ensures IndexOf(r, GroupKey, t[i].key).Some? {
      if i < |cs| {
        var k := IndexOf(gs, GroupKey, cs[i].key).value;
        assert r[k].key == t[i].key;
      } else {
        assert r[|gs|].key == t[i].key;
      }
    }
  }

  /** A contribution with a known key adds to that key's group only. */
  lemma AccumulateExisting(gs: seq<Group>, cs: seq<Contribution>, c: Contribution, k: nat)
    requires GroupsOf(gs, cs)
    requires IndexOf(gs, GroupKey, c.key) == Some(k)
    ensures GroupsOf(Accumulate(gs, c), cs + [c])
  {
    AccumulateAt(gs, c, k);
    AccumulateExistingUnique(gs, c, k);
    AccumulateExistingAllOk(gs, cs, c, k);
    AccumulateExistingCovers(gs, cs, c, k);
    AccumulateExistingSum(gs, cs, c, k);
  }

  lemma AccumulateExistingUnique(gs: seq<Group>, c: Contribution, k: nat)
    requires KeysUnique(gs, GroupKey) && k < |gs|
    ensures KeysUnique(AddTo(gs, k, c.amount), GroupKey)
  {
    var r := AddTo(gs, k, c.amount);
    assert forall j :: 0 <= j < |r| ==> r[j].key == gs[j].key;
  }

  lemma AccumulateExistingAllOk(gs: seq<Group>, cs: seq<Contribution>, c: Contribution, k: nat)
    requires KeysUnique(gs, GroupKey)
    requires forall j :: 0 <= j < |gs| ==> GroupOk(gs[j], cs)
    requires IndexOf(gs, GroupKey, c.key) == Some(k)
    ensures forall j :: 0 <= j < |gs| ==> GroupOk(AddTo(gs, k, c.amount)[j], cs + [c])
  {
    forall j | 0 <= j < |gs| ensures GroupOk(AddTo(gs, k, c.amount)[j], cs + [c]) {
      AccumulateExistingOk(gs, cs, c, k, j);
    }
  }

  lemma AccumulateExistingSum(gs: seq<Group>, cs: seq<Contribution>, c: Contribution, k: nat)
    requires k < |gs| && Sum(gs, Total) == Sum(cs, Amount)
    ensures Sum(AddTo(gs, k, c.amount), Total) == Sum(cs + [c], Amount)
  {
    var r := AddTo(gs, k, c.amount);
    SumUpdate(gs, k, r[k], Total);
    SumConcat(cs, [c], Amount);
  }

  lemma AccumulateAt(gs: seq<Group>, c: Contribution, k: nat)
    requires IndexOf(gs, GroupKey, c.key) == Some(k)
    ensures Accumulate(gs, c) == AddTo(gs, k, c.amount)
  {
  }

  /** After adding to group `k`, group `j` is still correct. */
  lemma AccumulateExistingOk(gs: seq<Group>, cs: seq<Contribution>, c: Contribution, k: nat, j: nat)
    requires KeysUnique(gs, GroupKey)
    requires j < |gs| && GroupOk(gs[j], cs)
    requires IndexOf(gs, GroupKey, c.key) == Some(k)
    ensures GroupOk(AddTo(gs, k, c.amount)[j], cs + [c])
  {
    if j != k {
      assert gs[j].key != gs[k].key;
      GroupOkSnoc(gs[j], cs, c);
    } else {
      IndexOfSnoc(cs, c, ContributionKey, c.key);
      KeyedTotalSnoc(cs, c, c.key);
    }
  }

  lemma AccumulateExistingCovers(gs: seq<Group>, cs: seq<Contribution>, c: Contribution, k: nat)
    requires Covers(gs, cs)
    requires IndexOf(gs, GroupKey, c.key) == Some(k)
    ensures Covers(AddTo(gs, k, c.amount), cs + [c])
  {
    var t := cs + [c];
    var r := AddTo(gs, k, c.amount);
    forall i | 0 <= i < |t| ensures IndexOf(r, GroupKey, t[i].key).Some? {
      if i < |cs| {
        var m := IndexOf(gs, GroupKey, cs[i].key).value;
        assert r[m].key == t[i].key;
      } else {
        assert r[k].key == t[i].key;
      }
    }
  }

  /** The grouping is correct for every list of contributions. */
  lemma {:induction false} GroupByCorrect(cs: seq<Contribution>)
    ensures GroupsOf(GroupBy(cs), cs)
    decreases |cs|
  {
    if |cs| > 0 {
      var p, c := cs[..|cs| - 1], cs[|cs| - 1];
      assert cs == p + [c];
      GroupByCorrect(p);
      var gs := GroupBy(p);
      match IndexOf(gs, GroupKey, c.key)
      case None => AccumulateNew(gs, p, c);
      case Some(k) => AccumulateExisting(gs, p, c, k);
    }
  }

  /** Larger totals first. */
  predicate LargerFirst(a: Group, b: Group) {
    a.total >= b.total
  }

  lemma LargerFirstIsPreorder()
    ensures TotalPreorder(LargerFirst)
  {
  }

  /** The groups, largest total first. Only the order is fixed: groups with
      equal totals may come in any order. */
  function Ranked(cs: seq<Contribution>): (r: seq<Group>)
    ensures multiset(r) == multiset(GroupBy(cs))
    ensures KeysUnique(r, GroupKey)
    ensures forall j :: 0 <= j < |r| ==> GroupOk(r[j], cs)
    ensures forall i :: 0 <= i < |cs| ==> HasGroup(r, cs[i].key)
    ensures Sum(r, Total) == Sum(cs, Amount)
    ensures forall i, j :: 0 <= i < j < |r| ==> r[i].total >= r[j].total
  {
    var gs := GroupBy(cs);
    GroupByCorrect(cs);
    LargerFirstIsPreorder();
    var r := Sort(gs, LargerFirst);
    UniqueKeysPermutation(r, gs, GroupKey);
    SumPermutation(r, gs, Total);
    PermutationMembers(r, gs);
    RankedCovers(cs, gs, r);
    r
  }

  lemma RankedCovers(cs: seq<Contribution>, gs: seq<Group>, r: seq<Group>)
    requires Covers(gs, cs)
    requires multiset(r) == multiset(gs)
    ensures forall i :: 0 <= i < |cs| ==> HasGroup(r, cs[i].key)
  {
    forall i | 0 <= i < |cs| ensures HasGroup(r, cs[i].key) {
      RankedCoversKey(cs[i].key, gs, r);
    }
  }

  lemma RankedCoversKey(key: string, gs: seq<Group>, r: seq<Group>)
    requires IndexOf(gs, GroupKey, key).Some?
    requires multiset(r) == multiset(gs)
    ensures HasGroup(r, key)
  {
    var m := IndexOf(gs, GroupKey, key).value;
    assert gs[m] in gs;
    assert gs[m] in multiset(r);
    var j :| 0 <= j < |r| && r[j] == gs[m];
    assert GroupKey(r[j]) == key;
  }
}

=== FILE: invariants.dfy ===
/** Order numbers. Every stored sale carries a number the counter issued, and
    no two sales share one: `addSale` takes the next counter value, the
    lifecycle transitions never rewrite a number, and purging a sale never
    moves the counter back. */
module Invariants {
  import opened Options
  import opened Types
  import opened Collections
  import opened Stores
  import opened Kinds
  import opened Lifecycle
  import opened Sales

  /** `s` is an order number for a counter value in `1..counter`. */
  predicate IssuedBy(s: string, counter: nat) {
    ParseOrderNumber(s).Some? && 1 <= ParseOrderNumber(s).value <= counter
  }

  predicate NumbersIssued(st: Store) {
    forall i :: 0 <= i < |st.sales| ==> IssuedBy(st.sales[i].orderNumber, st.lastOrderNumber)
  }

  predicate NumbersDistinct(st: Store) {
    forall i, j :: 0 <= i < j < |st.sales| ==> st.sales[i].orderNumber != st.sales[j].orderNumber
  }

  predicate OrderNumbersOk(st: Store) {
    NumbersIssued(st) && NumbersDistinct(st)
  }

  /** The empty store satisfies the invariant whatever its counter. */
  lemma NoSalesOk(st: Store)
    requires st.sales == []
    ensures OrderNumbersOk(st)
  {
  }

  /** A new sale's number is above every number already issued, so it is
      new, and the invariant carries over. */
  lemma AddSaleKeepsNumbers(st: Store, items: seq<OrderItem>, paymentMethod: PaymentMethod,
                            attendantName: Option<string>, notes: Option<string>,
                            amountReceived: Option<real>, changeGiven: Option<real>, ctx: Context)
    requires OrderNumbersOk(st)
    ensures var r := AddSale(st, items, paymentMethod, attendantName, notes, amountReceived, changeGiven, ctx);
      && (forall i :: 0 <= i < |st.sales| ==> st.sales[i].orderNumber != r.sale.orderNumber)
      && OrderNumbersOk(r.store)
  {
    var r := AddSale(st, items, paymentMethod, attendantName, notes, amountReceived, changeGiven, ctx);
    PrependedStoreOk(st, r.store, r.sale);
  }

  /** A store whose sales are `st`'s behind one sale numbered one past
      `st`'s counter, with the counter advanced, keeps the invariant. */
  lemma PrependedStoreOk(st: Store, r: Store, s: Sale)
    requires OrderNumbersOk(st)
    requires r.sales == [s] + st.sales && r.lastOrderNumber == st.lastOrderNumber + 1
    requires ParseOrderNumber(s.orderNumber) == Some(r.lastOrderNumber)
    ensures forall i :: 0 <= i < |st.sales| ==> st.sales[i].orderNumber != s.orderNumber
    ensures OrderNumbersOk(r)
  {
    PrependNewNumber(st.sales, s, st.lastOrderNumber);
  }

  /** A sale numbered one past the counter, put in front of sales whose
      numbers are issued and distinct, keeps them issued and distinct under
      the advanced counter. */
  lemma PrependNewNumber(sales: seq<Sale>, s: Sale, counter: nat)
    requires forall i :: 0 <= i < |sales| ==> IssuedBy(sales[i].orderNumber, counter)
    requires forall i, j :: 0 <= i < j < |sales| ==> sales[i].orderNumber != sales[j].orderNumber
    requires ParseOrderNumber(s.orderNumber) == Some(counter + 1)
    ensures forall i :: 0 <= i < |sales| ==> sales[i].orderNumber != s.orderNumber
    ensures var all := [s] + sales;
      && (forall i :: 0 <= i < |all| ==> IssuedBy(all[i].orderNumber, counter + 1))
      && (forall i, j :: 0 <= i < j < |all| ==> all[i].orderNumber != all[j].orderNumber)
  {
    var all := [s] + sales;
    forall i | 0 <= i < |sales| ensures sales[i].orderNumber != s.orderNumber {
      assert ParseOrderNumber(sales[i].orderNumber).value <= counter;
    }
    forall i | 0 <= i < |all| ensures IssuedBy(all[i].orderNumber, counter + 1) {
      if i > 0 {
        assert all[i] == sales[i - 1];
      }
    }
    forall i, j | 0 <= i < j < |all| ensures all[i].orderNumber != all[j].orderNumber {
      assert all[j] == sales[j - 1];
      if i > 0 {
        assert all[i] == sales[i - 1];
      }
    }
  }

  /** Equal sale records mean equal sale lists. */
  lemma SalesOfRecords(a: Store, b: Store)
    requires Records(a, SaleKind) == Records(b, SaleKind)
    ensures a.sales == b.sales
  {
    assert |a.sales| == |b.sales|;
    forall i | 0 <= i < |a.sales| ensures a.sales[i] == b.sales[i] {
      assert Records(a, SaleKind)[i] == SaleRecord(a.sales[i]);
    }
  }

  /** The sales of `r` carry the order numbers of `st`'s sales, position by
      position, under the same counter. */
  lemma SameNumbersOk(st: Store, r: Store)
    requires OrderNumbersOk(st)
    requires r.lastOrderNumber == st.lastOrderNumber && |r.sales| == |st.sales|
    requires forall i :: 0 <= i < |st.sales| ==> r.sales[i].orderNumber == st.sales[i].orderNumber
    ensures OrderNumbersOk(r)
  {
  }

  /** Records that differ at most at `k`, where the log name is kept, have
      the same log names everywhere. */
  lemma LogNamesKept(rs: seq<Record>, rs': seq<Record>, k: nat)
    requires |rs'| == |rs| && k < |rs| && rs'[k].LogName() == rs[k].LogName()
    requires forall j :: 0 <= j < |rs| && j != k ==> rs'[j] == rs[j]
    ensures forall i :: 0 <= i < |rs| ==> rs'[i].LogName() == rs[i].LogName()
  {
  }

  /** A store whose sale records carry the log names (the order numbers) of
      `st`'s, position by position, under the same counter, keeps the
      invariant. */
  lemma SameLogNamesOk(st: Store, r: Store)
    requires OrderNumbersOk(st) && r.lastOrderNumber == st.lastOrderNumber
    requires |Records(r, SaleKind)| == |Records(st, SaleKind)|
    requires forall i :: 0 <= i < |Records(st, SaleKind)| ==>
      Records(r, SaleKind)[i].LogName() == Records(st, SaleKind)[i].LogName()
    ensures OrderNumbersOk(r)
  {
    var rs, rs' := Records(st, SaleKind), Records(r, SaleKind);
    forall i | 0 <= i < |st.sales| ensures r.sales[i].orderNumber == st.sales[i].orderNumber {
      assert rs[i] == SaleRecord(st.sales[i]);
      assert rs'[i] == SaleRecord(r.sales[i]);
    }
    SameNumbersOk(st, r);
  }

  /** Soft-deleting any record keeps every order number where it was. */
  lemma SoftDeleteKeepsNumbers(st: Store, kind: Kind, id: string, ctx: Context)
    requires OrderNumbersOk(st)
    ensures OrderNumbersOk(SoftDelete(st, kind, id, ctx))
  {
    var r := SoftDelete(st, kind, id, ctx);
    if Find(st, kind, id).Some? {
      if kind == SaleKind {
        var rs, rs', k := Records(st, SaleKind), Records(r, SaleKind), Find(st, kind, id).value;
        LogNamesKept(rs, rs', k);
        SameLogNamesOk(st, r);
      } else {
        SalesOfRecords(st, r);
      }
    }
  }

  /** Restoring any record keeps every order number where it was. */
  lemma RestoreKeepsNumbers(st: Store, kind: Kind, id: string, ctx: Context)
    requires OrderNumbersOk(st)
    ensures OrderNumbersOk(Restore(st, kind, id, ctx))
  {
    var r := Restore(st, kind, id, ctx);
    if Find(st, kind, id).Some? {
      if kind == SaleKind {
        var rs, rs', k := Records(st, SaleKind), Records(r, SaleKind), Find(st, kind, id).value;
        LogNamesKept(rs, rs', k);
        SameLogNamesOk(st, r);
      } else {
        SalesOfRecords(st, r);
      }
    }
  }

  predicate DifferentNumbers(x: Record, y: Record) {
    x.LogName() != y.LogName()
  }

  /** Purging keeps a subset of the sales, in order, and leaves the counter
      alone: the numbers stay issued and distinct. */
  lemma PurgeKeepsNumbers(st: Store, kind: Kind, id: string, ctx: Context)
    requires OrderNumbersOk(st)
    ensures OrderNumbersOk(Purge(st, kind, id, ctx))
  {
    var r := Purge(st, kind, id, ctx);
    if Find(st, kind, id).Some? {
      if kind == SaleKind {
        FilteredSalesOk(st, r, id);
      } else {
        SalesOfRecords(st, r);
      }
    }
  }

  /** Keeping the sales whose id is not `id` keeps the invariant. */
  lemma FilteredSalesOk(st: Store, r: Store, id: string)
    requires OrderNumbersOk(st)
    requires Records(r, SaleKind) == Filter(Records(st, SaleKind), NotKey(id))
    requires r.lastOrderNumber == st.lastOrderNumber
    ensures OrderNumbersOk(r)
  {
    var rs, rs' := Records(st, SaleKind), Records(r, SaleKind);
    assert forall i :: 0 <= i < |rs| ==> rs[i].LogName() == st.sales[i].orderNumber;
    assert forall i :: 0 <= i < |rs'| ==> rs'[i].LogName() == r.sales[i].orderNumber;
    FilterPairwise(rs, NotKey(id), DifferentNumbers);
    forall i | 0 <= i < |r.sales| ensures IssuedBy(r.sales[i].orderNumber, r.lastOrderNumber) {
      assert rs'[i] in rs;
    }
  }
}

=== FILE: inventory_dashboard.dfy ===
/** The inventory screen's summary cards, and the low-stock test that the
    inventory cards, the stock list and the chart screen all apply. */
module InventoryDashboard {
  import opened Options
  import opened Types
  import opened Collections
  import opened Stock

  /** `minStock ?? 0`. */
  function MinStock(i: Ingredient): real {
    i.minStock.GetOr(0.0)
  }

  /** An ingredient is low when it has a positive minimum and its stock is at
      or below it. Without a minimum (or with one of zero) it never is. */
  predicate LowStock(i: Ingredient) {
    MinStock(i) > 0.0 && i.stock <= MinStock(i)
  }

  function StockValue(i: Ingredient): real {
    i.stock * i.price
  }

  datatype InventoryMetrics = InventoryMetrics(totalIngredients: nat, totalStockValue: real, lowStockItemsCount: nat)

  /** The three summary cards. */
  function Metrics(ings: seq<Ingredient>): (m: InventoryMetrics)
    ensures m.totalIngredients == |ings|
    ensures m.totalStockValue == Sum(ings, StockValue)
    ensures m.lowStockItemsCount <= m.totalIngredients
    ensures m.lowStockItemsCount == 0 <==> forall k :: 0 <= k < |ings| ==> !LowStock(ings[k])
    ensures m.lowStockItemsCount == m.totalIngredients <==> forall k :: 0 <= k < |ings| ==> LowStock(ings[k])
  {
    LowCount(ings);
    InventoryMetrics(|ings|, Reduce(ings, StockValue, 0.0), |Filter(ings, LowStock)|)
  }

  lemma LowCount(ings: seq<Ingredient>)
    ensures |Filter(ings, LowStock)| == 0 <==> forall k :: 0 <= k < |ings| ==> !LowStock(ings[k])
    ensures |Filter(ings, LowStock)| == |ings| <==> forall k :: 0 <= k < |ings| ==> LowStock(ings[k])
  {
    if forall k :: 0 <= k < |ings| ==> LowStock(ings[k]) {
      FilterKeepsAll(ings, LowStock);
    } else {
      var k :| 0 <= k < |ings| && !LowStock(ings[k]);
      FilterShrinks(ings, LowStock, k);
    }
  }

  /** The low-stock card counts one per low ingredient: an ingredient added
      at the end raises the count by one exactly when it is low. With the
      count of zero for no ingredients this fixes the count on every list. */
  lemma LowCountAppend(ings: seq<Ingredient>, x: Ingredient)
    ensures Metrics(ings + [x]).lowStockItemsCount == Metrics(ings).lowStockItemsCount + (if LowStock(x) then 1 else 0)
  {
    FilterConcat(ings, [x], LowStock);
  }

  /** The export button does something only when there are reports. */
  predicate CanExport(reports: seq<DailyUsageReport>) {
    |reports| > 0
  }

  lemma {:induction false} DemandNonNegative(ds: seq<Deduction>, id: string)
    requires forall i :: 0 <= i < |ds| ==> ds[i].amount >= 0.0
    ensures DemandOf(ds, id) >= 0.0
    decreases |ds|
  {
    if |ds| > 0 {
      DemandNonNegative(ds[1..], id);
    }
  }

  /** Taking stock out never clears a low-stock alert: every ingredient that
      was low stays low, so the alert count cannot fall. This covers a sale
      and a usage report alike, as long as no quantity is negative. */
  lemma DeductionKeepsAlerts(ings: seq<Ingredient>, ds: seq<Deduction>)
    requires forall i :: 0 <= i < |ds| ==> ds[i].amount >= 0.0
    ensures forall k :: 0 <= k < |ings| && LowStock(ings[k]) ==> LowStock(DeductAll(ings, ds)[k])
    ensures Metrics(DeductAll(ings, ds)).lowStockItemsCount >= Metrics(ings).lowStockItemsCount
  {
    var after := DeductAll(ings, ds);
    forall k | 0 <= k < |ings| ensures after[k].stock <= ings[k].stock && MinStock(after[k]) == MinStock(ings[k]) {
      DemandNonNegative(ds, ings[k].id);
    }
    FilterCountMonotone(ings, after, LowStock, LowStock);
  }
}

=== FILE: lifecycle.dfy ===
/** Soft-delete, restore and permanent delete ("purge"), the transitions the
    program repeats for products, sales, receipts, ingredients and usage
    reports. Each finds the first record with the given id; an unknown id
    changes nothing and logs nothing, and no transition looks at the record's
    current status. */
module Lifecycle {
  import opened Options
  import opened Types
  import opened Collections
  import opened Stores
  import opened Kinds

  /** The collections of the other kinds and the order counter are untouched. */
  ghost predicate OthersUnchanged(st: Store, r: Store, kind: Kind) {
    && (forall k :: k != kind ==> Records(r, k) == Records(st, k))
    && r.lastOrderNumber == st.lastOrderNumber
  }

  lemma AppendLogKeepsRecordsAll(st: Store, ctx: Context, action: LogAction, itemType: string, itemId: string, itemName: string)
    ensures forall k :: Records(AppendLogEntry(st, ctx, action, itemType, itemId, itemName), k) == Records(st, k)
    ensures AppendLogEntry(st, ctx, action, itemType, itemId, itemName).lastOrderNumber == st.lastOrderNumber
  {
    forall k {
      AppendLogKeepsRecords(st, ctx, action, itemType, itemId, itemName, k);
    }
  }

  function Find(st: Store, kind: Kind, id: string): Option<nat> {
    IndexOf(Records(st, kind), KeyOf, id)
  }

  /** `softDelete<Kind>(id)`. */
  function SoftDelete(st: Store, kind: Kind, id: string, ctx: Context): (r: Store)
    ensures Find(st, kind, id).None? ==> r == st
    ensures Find(st, kind, id).Some? ==>
      var rs, rs', k := Records(st, kind), Records(r, kind), Find(st, kind, id).value;
      && |rs'| == |rs|
      && rs'[k] == rs[k].MarkDeleted(ctx.now)
      && (forall j :: 0 <= j < |rs| && j != k ==> rs'[j] == rs[j])
      && r.logs == [LogEntryFor(ctx, SoftDeleted, ItemType(kind), id, rs[k].LogName())] + st.logs
      && OthersUnchanged(st, r, kind)
  {
    var rs := Records(st, kind);
    match IndexOf(rs, KeyOf, id)
    case None => st
    case Some(k) =>
      var marked := rs[k := rs[k].MarkDeleted(ctx.now)];
      var st' := WithRecords(st, kind, marked);
      AppendLogKeepsRecordsAll(st', ctx, SoftDeleted, ItemType(kind), id, rs[k].LogName());
      AppendLogEntry(st', ctx, SoftDeleted, ItemType(kind), id, rs[k].LogName())
  }

  /** `restore<Kind>(id)`. */
  function Restore(st: Store, kind: Kind, id: string, ctx: Context): (r: Store)
    ensures Find(st, kind, id).None? ==> r == st
    ensures Find(st, kind, id).Some? ==>
      var rs, rs', k := Records(st, kind), Records(r, kind), Find(st, kind, id).value;
      && |rs'| == |rs|
      && rs'[k] == rs[k].MarkRestored()
      && (forall j :: 0 <= j < |rs| && j != k ==> rs'[j] == rs[j])
      && r.logs == [LogEntryFor(ctx, Restored, ItemType(kind), id, rs[k].LogName())] + st.logs
      && OthersUnchanged(st, r, kind)
  {
    var rs := Records(st, kind);
    match IndexOf(rs, KeyOf, id)
    case None => st
    case Some(k) =>
      var marked := rs[k := rs[k].MarkRestored()];
      var st' := WithRecords(st, kind, marked);
      RestoreIdempotent(rs[k]);
      AppendLogKeepsRecordsAll(st', ctx, Restored, ItemType(kind), id, rs[k].LogName());
      AppendLogEntry(st', ctx, Restored, ItemType(kind), id, rs[k].LogName())
  }

  /** The receipt collection after purging record `id` of `kind`: purging a
      sale removes the receipt stored under its id. */
  function ReceiptsAfterPurge(st: Store, kind: Kind, id: string): seq<Record> {
    if kind == SaleKind || kind == ReceiptKind then Filter(Records(st, ReceiptKind), NotKey(id))
    else Records(st, ReceiptKind)
  }

  /** `permanentlyDelete<Kind>(id)`: every record with that id leaves the
      collection; purging a sale also removes the receipt stored under it. */
  function Purge(st: Store, kind: Kind, id: string, ctx: Context): (r: Store)
    ensures Find(st, kind, id).None? ==> r == st
    ensures Find(st, kind, id).Some? ==>
      var rs, k := Records(st, kind), Find(st, kind, id).value;
      && Records(r, kind) == Filter(rs, NotKey(id))
      && Records(r, ReceiptKind) == ReceiptsAfterPurge(st, kind, id)
      && r.logs == [LogEntryFor(ctx, PermanentlyDeleted, ItemType(kind), id, rs[k].LogName())] + st.logs
      && (forall k' :: k' != kind && k' != ReceiptKind ==> Records(r, k') == Records(st, k'))
      && r.lastOrderNumber == st.lastOrderNumber
  {
    var rs := Records(st, kind);
    match IndexOf(rs, KeyOf, id)
    case None => st
    case Some(k) =>
      FilterKeepsKind(rs, kind, NotKey(id));
      var kept := WithRecords(st, kind, Filter(rs, NotKey(id)));
      var cleaned := if kind == SaleKind then PurgeReceipt(st, kept, id) else kept;
      AppendLogKeepsRecordsAll(cleaned, ctx, PermanentlyDeleted, ItemType(kind), id, rs[k].LogName());
      AppendLogEntry(cleaned, ctx, PermanentlyDeleted, ItemType(kind), id, rs[k].LogName())
  }

  /** `localStorage.removeItem(`receipt_${saleId}`)` while purging a sale. */
  function PurgeReceipt(st: Store, kept: Store, id: string): (r: Store)
    requires Records(kept, ReceiptKind) == Records(st, ReceiptKind)
    ensures Records(r, ReceiptKind) == Filter(Records(st, ReceiptKind), NotKey(id))
    ensures forall k :: k != ReceiptKind ==> Records(r, k) == Records(kept, k)
    ensures r.logs == kept.logs && r.lastOrderNumber == kept.lastOrderNumber
  {
    FilterKeepsKind(Records(st, ReceiptKind), ReceiptKind, NotKey(id));
    WithRecords(kept, ReceiptKind, Filter(Records(st, ReceiptKind), NotKey(id)))
  }

  /** After soft-deleting record `id`, `id` still addresses the same position. */
  lemma SoftDeleteKeepsPosition(st: Store, kind: Kind, id: string, ctx: Context)
    requires Find(st, kind, id).Some?
    ensures Find(SoftDelete(st, kind, id, ctx), kind, id) == Find(st, kind, id)
    ensures Records(SoftDelete(st, kind, id, ctx), kind)[Find(st, kind, id).value].LogName()
         == Records(st, kind)[Find(st, kind, id).value].LogName()
  {
    var k := Find(st, kind, id).value;
    ReplaceKeepsIndex(Records(st, kind), Records(SoftDelete(st, kind, id, ctx), kind), KeyOf, id, k);
  }

  /** Restoring a record right after soft-deleting it gives it back with
      status `active`, no `deletedAt` and every other field as it was. */
  lemma SoftDeleteThenRestore(st: Store, kind: Kind, id: string, c1: Context, c2: Context)
    requires Find(st, kind, id).Some?
    ensures
      var k := Find(st, kind, id).value;
      var rs := Records(st, kind);
      Records(Restore(SoftDelete(st, kind, id, c1), kind, id, c2), kind) == rs[k := rs[k].MarkRestored()]
  {
    var k := Find(st, kind, id).value;
    var s1 := SoftDelete(st, kind, id, c1);
    SoftDeleteKeepsPosition(st, kind, id, c1);
    ReplaceTwice(Records(st, kind), Records(s1, kind), Records(Restore(s1, kind, id, c2), kind), k);
  }

  /** A record that was active comes back exactly as it was; a product that
      was `inactive` comes back `active`. */
  lemma SoftDeleteThenRestoreActive(st: Store, kind: Kind, id: string, c1: Context, c2: Context)
    requires Find(st, kind, id).Some?
    requires var k := Find(st, kind, id).value; Records(st, kind)[k].MarkRestored() == Records(st, kind)[k]
    ensures Records(Restore(SoftDelete(st, kind, id, c1), kind, id, c2), kind) == Records(st, kind)
  {
    SoftDeleteThenRestore(st, kind, id, c1, c2);
  }

  /** Soft-delete followed by restore logs a `deleted` and then a `restored`
      entry naming the record. */
  lemma SoftDeleteThenRestoreLog(st: Store, kind: Kind, id: string, c1: Context, c2: Context)
    requires Find(st, kind, id).Some?
    ensures
      var name := Records(st, kind)[Find(st, kind, id).value].LogName();
      Restore(SoftDelete(st, kind, id, c1), kind, id, c2).logs
        == [LogEntryFor(c2, Restored, ItemType(kind), id, name),
            LogEntryFor(c1, SoftDeleted, ItemType(kind), id, name)] + st.logs
  {
    SoftDeleteKeepsPosition(st, kind, id, c1);
  }

  /** Soft-delete followed by restore touches no other collection and not
      the order counter. */
  lemma SoftDeleteThenRestoreOthers(st: Store, kind: Kind, id: string, c1: Context, c2: Context)
    ensures OthersUnchanged(st, Restore(SoftDelete(st, kind, id, c1), kind, id, c2), kind)
  {
    var s1 := SoftDelete(st, kind, id, c1);
    OthersUnchangedTrans(st, s1, Restore(s1, kind, id, c2), kind);
  }

  lemma OthersUnchangedTrans(a: Store, b: Store, c: Store, kind: Kind)
    requires OthersUnchanged(a, b, kind) && OthersUnchanged(b, c, kind)
    ensures OthersUnchanged(a, c, kind)
  {
  }

  /** Purging after soft-deleting leaves no record with that id in its
      collection, and the newest log entry is the `permanently_deleted` one
      for that id. */
  lemma SoftDeleteThenPurge(st: Store, kind: Kind, id: string, c1: Context, c2: Context)
    requires Find(st, kind, id).Some?
    ensures
      var r := Purge(SoftDelete(st, kind, id, c1), kind, id, c2);
      && (forall x :: x in Records(r, kind) ==> x.Key() != id)
      && |r.logs| == |st.logs| + 2
      && r.logs[0].action == PermanentlyDeleted
      && r.logs[0].itemId == id
      && r.logs[1].action == SoftDeleted
  {
    SoftDeleteKeepsPosition(st, kind, id, c1);
  }
}

=== FILE: options.dfy ===
/** Optional values: the model of JavaScript's `undefined`/`null` for optional
    fields, and of failed lookups (`Array.prototype.find` returning `undefined`). */
module Options {

  datatype Option<T> = None | Some(value: T) {

    /** The value, or `default` when absent (JavaScript's `x ?? default`). */
    function GetOr(default: T): T {
      match this
      case Some(v) => v
      case None => default
    }
  }
}

=== FILE: order_slip.dfy ===
/** The order slip: the cash details printed under the total (each line's
    subtotal is `Sales.Subtotal`), and the payment-receipt panel, which
    checks a picked file, saves it under the sale and moves a saved one to
    the recycle bin. */
module OrderSlip {
  import opened Options
  import opened Types
  import opened Collections
  import opened Stores
  import opened Kinds
  import opened Lifecycle
  import opened ReceiptStore
  import opened Sales
  import opened RegisterSale
  import opened SalesDashboard

  /** The amount received and the change are printed for a cash sale that
      has both. */
  predicate ShowsCashDetails(sale: Sale) {
    sale.paymentMethod == Dinheiro && sale.amountReceived.Some? && sale.changeGiven.Some?
  }

  /** A cash order the till lets through prints its amount received and
      change on the slip, and they differ by exactly the printed total. */
  lemma CashSlipShowsChange(st: Store, f: RegisterForm, ctx: Context)
    requires ConsistentField(f.amount) && !SubmitDisabled(f)
    requires f.payment == Dinheiro
    ensures
      var r := HandleGenerateNote(st, GenerateNote(f).0, ctx);
      && r.Some?
      && ShowsCashDetails(r.value.sale)
      && r.value.sale.amountReceived.value - r.value.sale.changeGiven.value == r.value.sale.totalAmount
  {
    TillToStore(st, f, ctx);
  }

  /** A file picked or dropped on the panel. */
  datatype PickedFile = PickedFile(name: string, size: nat, fileType: string, data: string)

  /** 5 MB. */
  const MaxReceiptBytes: nat := 5 * 1024 * 1024

  const AllowedTypes: seq<string> := ["image/jpeg", "image/png", "application/pdf"]

  const TooLargeMessage: string := "Arquivo muito grande. Limite de 5MB."
  const BadTypeMessage: string := "Formato inválido. Use JPG, PNG ou PDF."
  const UploadFailedMessage: string := "Falha no upload. Tente novamente."

  /** An image is previewed as itself, anything else as a PDF icon. */
  datatype Preview = ImagePreview | PdfPreview

  function PreviewFor(fileType: string): Preview {
    if "image/" <= fileType then ImagePreview else PdfPreview
  }

  /** The panel's state: the file waiting to be saved, its preview and the
      error line. */
  datatype Panel = Panel(file: Option<PickedFile>, preview: Option<Preview>, error: string)

  const EmptyPanel: Panel := Panel(None, None, "")

  /** A file the panel accepts: at most 5 MB and of an allowed type. */
  predicate Acceptable(f: PickedFile) {
    f.size <= MaxReceiptBytes && f.fileType in AllowedTypes
  }

  /** `handleFileChange`: no file changes nothing; the size is checked before
      the type; an accepted file replaces the waiting one with its preview. */
  function HandleFileChange(p: Panel, picked: Option<PickedFile>): (r: Panel)
    ensures picked.None? ==> r == p
    ensures picked.Some? && picked.value.size > MaxReceiptBytes ==> r == p.(error := TooLargeMessage)
    ensures picked.Some? && picked.value.size <= MaxReceiptBytes && picked.value.fileType !in AllowedTypes ==>
      r == p.(error := BadTypeMessage)
    ensures picked.Some? && Acceptable(picked.value) ==>
      r == Panel(picked, Some(PreviewFor(picked.value.fileType)), "")
  {
    match picked
    case None => p
    case Some(f) =>
      if f.size > MaxReceiptBytes then p.(error := TooLargeMessage)
      else if f.fileType !in AllowedTypes then p.(error := BadTypeMessage)
      else Panel(Some(f), Some(PreviewFor(f.fileType)), "")
  }

  /** The panel's invariant: a waiting file is acceptable and shown with its
      preview; without one there is no preview. */
  predicate PanelOk(p: Panel) {
    && (p.file.Some? ==> Acceptable(p.file.value) && p.preview == Some(PreviewFor(p.file.value.fileType)))
    && (p.file.None? ==> p.preview.None?)
  }

  /** Only JPEG and PNG files get an image preview; a PDF gets the icon. */
  lemma PreviewOfAllowed(f: PickedFile)
    requires Acceptable(f)
    ensures PreviewFor(f.fileType) == ImagePreview <==> f.fileType == "image/jpeg" || f.fileType == "image/png"
  {
    assert "image/" <= "image/jpeg" && "image/" <= "image/png";
    assert !("image/" <= "application/pdf") by {
      assert "application/pdf"[0] != "image/"[0];
    }
  }

  /** Picking files never lets a too large or disallowed file wait for
      upload. */
  lemma FileChangeKeepsPanelOk(p: Panel, picked: Option<PickedFile>)
    requires PanelOk(p)
    ensures PanelOk(HandleFileChange(p, picked))
  {
  }

  /** `handleSave`: nothing to save does nothing; otherwise the receipt is
      written under the sale's id and the panel clears. `readFailed` stands
      for the browser failing to read the file, which leaves the store as it
      was and shows the upload error. */
  function HandleSave(st: Store, p: Panel, saleId: string, readFailed: bool, ctx: Context): (r: (Store, Panel))
    ensures p.file.None? ==> r == (st, p)
    ensures p.file.Some? && readFailed ==> r == (st, p.(error := UploadFailedMessage))
    ensures p.file.Some? && !readFailed ==>
      && r.1 == EmptyPanel
      && r.0 == st.(receipts := r.0.receipts)
      && GetReceipt(r.0, saleId) == Some(Receipt(saleId, p.file.value.name, p.file.value.fileType, p.file.value.data, ctx.now, Active, None))
      && HasReceipt(r.0, saleId)
      && (forall other :: other != saleId ==> StoredReceipt(r.0, other) == StoredReceipt(st, other))
  {
    match p.file
    case None => (st, p)
    case Some(f) =>
      if readFailed then (st, p.(error := UploadFailedMessage))
      else (SaveReceipt(st, saleId, f.name, f.fileType, f.data, ctx).store, EmptyPanel)
  }

  /** A saved receipt is always one the panel accepted: on an ok panel, the
      stored file is at most 5 MB and of an allowed type. */
  lemma SavedReceiptAcceptable(st: Store, p: Panel, saleId: string, ctx: Context)
    requires PanelOk(p) && p.file.Some?
    ensures
      var r := HandleSave(st, p, saleId, false, ctx);
      && GetReceipt(r.0, saleId).Some?
      && GetReceipt(r.0, saleId).value.fileType in AllowedTypes
      && PanelOk(r.1)
  {
  }

  /** The receipt collection as records has the same first match as the
      receipts by sale id. */
  lemma FindReceipt(st: Store, saleId: string)
    ensures Find(st, ReceiptKind, saleId) == IndexOf(st.receipts, ReceiptKey, saleId)
  {
    var rs := Records(st, ReceiptKind);
    assert forall j :: 0 <= j < |rs| ==> rs[j].Key() == st.receipts[j].saleId;
    match IndexOf(st.receipts, ReceiptKey, saleId)
    case Some(k) => IndexOfIs(rs, KeyOf, saleId, k);
    case None =>
  }

  /** `handleRemoveSaved`: after the browser's confirmation the sale's
      receipt goes to the recycle bin and the sale no longer shows one. */
  function HandleRemoveSaved(st: Store, saleId: string, confirmed: bool, ctx: Context): (r: Store)
    ensures !confirmed ==> r == st
    ensures confirmed ==> !HasReceipt(r, saleId) && GetReceipt(r, saleId).None?
    ensures confirmed && StoredReceipt(st, saleId).Some? ==>
      && StoredReceipt(r, saleId).Some?
      && StoredReceipt(r, saleId).value == StoredReceipt(st, saleId).value.(status := Deleted, deletedAt := Some(ctx.now))
  {
    if !confirmed then st
    else
      var r := SoftDelete(st, ReceiptKind, saleId, ctx);
      RemoveHidesReceipt(st, saleId, ctx);
      r
  }

  lemma RemoveHidesReceipt(st: Store, saleId: string, ctx: Context)
    ensures
      var r := SoftDelete(st, ReceiptKind, saleId, ctx);
      && GetReceipt(r, saleId).None?
      && (StoredReceipt(st, saleId).Some? ==>
            && StoredReceipt(r, saleId).Some?
            && StoredReceipt(r, saleId).value == StoredReceipt(st, saleId).value.(status := Deleted, deletedAt := Some(ctx.now)))
  {
    var r := SoftDelete(st, ReceiptKind, saleId, ctx);
    FindReceipt(st, saleId);
    FindReceipt(r, saleId);
    match IndexOf(st.receipts, ReceiptKey, saleId)
    case None =>
    case Some(k) =>
      var rs' := Records(r, ReceiptKind);
      assert rs'[k] == ReceiptRecord(r.receipts[k]);
      assert forall j :: 0 <= j < |r.receipts| && j != k ==> r.receipts[j] == st.receipts[j] by {
        forall j | 0 <= j < |r.receipts| && j != k ensures r.receipts[j] == st.receipts[j] {
          assert rs'[j] == ReceiptRecord(r.receipts[j]);
        }
      }
      IndexOfIs(r.receipts, ReceiptKey, saleId, k);
  }
}

=== FILE: product_form.dfy ===
/** The product manager: the create/edit form with its recipe editor, and
    the delete button that moves a product to the recycle bin. */
module ProductManager {
  import opened Options
  import opened Types
  import opened Collections
  import opened Stores
  import opened Kinds
  import opened Lifecycle
  import opened Views
  import opened Catalog

  /** The form's state: the product fields, and the "add ingredient" row
      (`newQuantity` is `Number(text)`, `None` for `NaN`). */
  datatype ProductForm = ProductForm(
    name: string,
    price: real,
    category: Category,
    status: ProductStatus,
    recipe: seq<RecipeItem>,
    newIngredientId: string,
    newQuantity: Option<real>)

  /** The form opened on `product`, or blank for a new one. A deleted
      product would open as active; the status list offers only active and
      inactive. */
  function OpenForm(product: Option<Product>): (f: ProductForm)
    ensures f.status != ProductDeleted
    ensures f.newIngredientId == "" && f.newQuantity == Some(0.0)
    ensures product.None? ==> f.name == "" && f.price == 0.0 && f.category == Lanche && f.status == ProductActive && f.recipe == []
    ensures product.Some? ==>
      && f.name == product.value.name && f.price == product.value.price && f.category == product.value.category
      && (product.value.status != ProductDeleted ==> f.status == product.value.status)
      && (product.value.status == ProductDeleted ==> f.status == ProductActive)
      && f.recipe == product.value.recipe.GetOr([])
  {
    match product
    case None => ProductForm("", 0.0, Lanche, ProductActive, [], "", Some(0.0))
    case Some(p) =>
      ProductForm(p.name, p.price, p.category, if p.status == ProductDeleted then ProductActive else p.status,
                  p.recipe.GetOr([]), "", Some(0.0))
  }

  /** The "add ingredient" fields hold something the button accepts. */
  predicate CanAddItem(f: ProductForm) {
    f.newIngredientId != "" && f.newQuantity.Some? && f.newQuantity.value > 0.0
  }

  /** The "add ingredient" button: appends the line and clears the fields,
      or does nothing when no ingredient is chosen or the quantity is not
      above zero. */
  function AddRecipeItem(f: ProductForm): (r: ProductForm)
    ensures CanAddItem(f) ==>
      && r.recipe == f.recipe + [RecipeItem(f.newIngredientId, f.newQuantity.value)]
      && r.newIngredientId == "" && r.newQuantity == Some(0.0)
      && r.name == f.name && r.price == f.price && r.category == f.category && r.status == f.status
    ensures !CanAddItem(f) ==> r == f
  {
    if CanAddItem(f) then
      f.(recipe := f.recipe + [RecipeItem(f.newIngredientId, f.newQuantity.value)], newIngredientId := "", newQuantity := Some(0.0))
    else f
  }

  /** The trash button of recipe line `index`. */
  function RemoveRecipeItem(f: ProductForm, index: int): (r: ProductForm)
    ensures r.(recipe := f.recipe) == f
    ensures 0 <= index < |f.recipe| ==> |r.recipe| == |f.recipe| - 1 && r.recipe == f.recipe[..index] + f.recipe[index + 1..]
    ensures !(0 <= index < |f.recipe|) ==> r == f
  {
    f.(recipe := DropIndex(f.recipe, index))
  }

  /** Some line of `recipe` uses ingredient `id`. */
  predicate InRecipe(recipe: seq<RecipeItem>, id: string) {
    exists k :: 0 <= k < |recipe| && recipe[k].ingredientId == id
  }

  /** The ingredients offered in the "add ingredient" list: those the
      recipe does not use yet. */
  function AvailableIngredients(ings: seq<Ingredient>, recipe: seq<RecipeItem>): (r: seq<Ingredient>)
    ensures forall i :: 0 <= i < |r| ==> r[i] in ings && !InRecipe(recipe, r[i].id)
    ensures forall i :: 0 <= i < |ings| && !InRecipe(recipe, ings[i].id) ==> ings[i] in r
  {
    Filter(ings, (ing: Ingredient) => !Any(recipe, (item: RecipeItem) => item.ingredientId == ing.id))
  }

  /** Picking an entry of the "add ingredient" list. */
  function ChooseIngredient(f: ProductForm, ing: Ingredient): (r: ProductForm)
    ensures r.newIngredientId == ing.id
    ensures r.(newIngredientId := f.newIngredientId) == f
  {
    f.(newIngredientId := ing.id)
  }

  /** A recipe as the editor builds it: every line names an ingredient, has
      a positive quantity, and no ingredient appears twice. */
  predicate RecipeOk(recipe: seq<RecipeItem>) {
    && (forall k :: 0 <= k < |recipe| ==> recipe[k].ingredientId != "" && recipe[k].quantity > 0.0)
    && (forall i, j :: 0 <= i < j < |recipe| ==> recipe[i].ingredientId != recipe[j].ingredientId)
  }

  /** The editor's invariant: the recipe is well formed and the ingredient
      waiting to be added is not in it. */
  predicate FormOk(f: ProductForm) {
    RecipeOk(f.recipe) && !InRecipe(f.recipe, f.newIngredientId)
  }

  /** The form opens in a good state on a product whose recipe is well
      formed (and on a new product). */
  lemma OpenFormOk(product: Option<Product>)
    requires product.Some? && product.value.recipe.Some? ==> RecipeOk(product.value.recipe.value)
    ensures FormOk(OpenForm(product))
  {
    var f := OpenForm(product);
    assert RecipeOk(f.recipe);
    assert forall k :: 0 <= k < |f.recipe| ==> f.recipe[k].ingredientId != f.newIngredientId;
  }

  /** Choosing from the offered ingredients keeps the invariant. */
  lemma ChooseKeepsFormOk(ings: seq<Ingredient>, f: ProductForm, ing: Ingredient)
    requires FormOk(f)
    requires ing in AvailableIngredients(ings, f.recipe)
    ensures FormOk(ChooseIngredient(f, ing))
  {
  }

  /** Adding a line keeps the invariant: the recipe never gets a line
      without an ingredient, a line with a quantity of zero or less, or a
      second line for an ingredient. */
  lemma AddKeepsFormOk(f: ProductForm)
    requires FormOk(f)
    ensures FormOk(AddRecipeItem(f))
  {
    var r := AddRecipeItem(f);
    if CanAddItem(f) {
      var n := |f.recipe|;
      assert r.recipe[n].ingredientId == f.newIngredientId;
      forall i, j | 0 <= i < j < |r.recipe| ensures r.recipe[i].ingredientId != r.recipe[j].ingredientId {
        if j == n {
          assert r.recipe[i] == f.recipe[i];
        }
      }
      forall k | 0 <= k < |r.recipe| ensures r.recipe[k].ingredientId != "" && r.recipe[k].quantity > 0.0 {
        if k < n {
          assert r.recipe[k] == f.recipe[k];
        }
      }
    }
  }

  /** Removing a line keeps the recipe well formed. The ingredient waiting
      to be added stays allowed, since removal only frees ingredients. */
  lemma RemoveKeepsFormOk(f: ProductForm, index: int)
    requires FormOk(f)
    ensures FormOk(RemoveRecipeItem(f, index))
  {
    var r := RemoveRecipeItem(f, index).recipe;
    if 0 <= index < |f.recipe| {
      assert r == f.recipe[..index] + f.recipe[index + 1..];
      assert forall k :: 0 <= k < |r| ==> r[k] == f.recipe[if k < index then k else k + 1];
      forall k | 0 <= k < |r| ensures r[k].ingredientId != f.newIngredientId {
        assert r[k] in f.recipe;
      }
    }
  }

  /** What the form submits: the id of the product being edited (none for
      a new product), the fields, and the recipe as edited. */
  function SubmitInput(f: ProductForm, product: Option<Product>): (input: ProductInput)
    ensures input.id.Some? <==> product.Some?
    ensures product.Some? ==> input.id == Some(product.value.id)
    ensures input.name == f.name && input.price == f.price && input.category == f.category
    ensures input.status == Some(f.status) && input.recipe == Some(f.recipe)
  {
    ProductInput(if product.Some? then Some(product.value.id) else None,
                 f.name, f.price, f.category, Some(f.status), Some(f.recipe))
  }

  /** `handleSubmit`: the form's input saved to the store. */
  function HandleSubmit(st: Store, f: ProductForm, product: Option<Product>, ctx: Context): (r: SavedProduct)
    ensures r.store == st.(products := r.store.products)
    ensures product.None? || product.value.id == "" ==>
      && r.product.Some? && r.product.value.status == ProductActive
      && r.store.products == st.products + [r.product.value]
    ensures product.Some? && product.value.id != "" ==>
      (r.product.Some? <==> exists k :: 0 <= k < |st.products| && st.products[k].id == product.value.id)
    ensures r.product.Some? ==>
      && r.product.value.name == f.name && r.product.value.price == f.price
      && r.product.value.category == f.category && r.product.value.recipe == Some(f.recipe)
    ensures product.Some? && product.value.id != "" && r.product.Some? ==>
      r.product.value.id == product.value.id && r.product.value.status == f.status
  {
    SaveProduct(st, SubmitInput(f, product), ctx)
  }

  /** The browser's constraint validation of the form, checked before
      `handleSubmit` runs: the name is required; the price is required, at
      least 0 and a whole number of cents (`step="0.01"` from `min="0"`);
      and the quantity box of the "add ingredient" row, when it shows a
      number, is at least 0. */
  predicate FormValid(f: ProductForm) {
    && f.name != ""
    && f.price >= 0.0 && (f.price * 100.0).Floor as real == f.price * 100.0
    && !(f.newQuantity.Some? && f.newQuantity.value < 0.0)
  }

  /** The "save" button: nothing happens (`None`) while the browser's
      validation fails; otherwise `handleSubmit` saves, and a product saved
      from the form always has a name and a price of at least zero. */
  function SubmitForm(st: Store, f: ProductForm, product: Option<Product>, ctx: Context): (r: Option<SavedProduct>)
    ensures r.None? <==> !FormValid(f)
    ensures r.Some? ==> r.value == HandleSubmit(st, f, product, ctx)
    ensures r.Some? && r.value.product.Some? ==>
      r.value.product.value.name != "" && r.value.product.value.price >= 0.0
  {
    if FormValid(f) then Some(HandleSubmit(st, f, product, ctx)) else None
  }

  /** The blank form of a new product cannot be saved until a name is typed;
      typing a name and a price in whole cents makes it savable. */
  lemma NewFormNeedsName(name: string, cents: nat)
    ensures !FormValid(OpenForm(None))
    ensures name != "" ==> FormValid(OpenForm(None).(name := name, price := cents as real / 100.0))
  {
    var p := cents as real / 100.0;
    assert p * 100.0 == cents as real;
  }

  /** A new product is stored as `active` whatever the status list says,
      with the edited recipe, and the product listing shows it. */
  lemma NewProductListed(st: Store, f: ProductForm, ctx: Context)
    ensures
      var r := HandleSubmit(st, f, None, ctx);
      && r.product.Some?
      && r.product.value.status == ProductActive
      && r.product.value.recipe == Some(f.recipe)
      && r.product.value in GetProducts(r.store)
  {
    var r := HandleSubmit(st, f, None, ctx);
    var p := r.product.value;
    assert r.store.products[|st.products|] == p;
    assert ProductListed(p);
  }

  /** Opening a listed product with a recipe and saving without a change
      leaves the store exactly as it was, provided no other product shares
      its id. */
  lemma OpenAndSaveUnchanged(st: Store, k: nat, ctx: Context)
    requires k < |st.products|
    requires st.products[k].id != "" && st.products[k].status != ProductDeleted && st.products[k].recipe.Some?
    requires forall m :: 0 <= m < |st.products| && st.products[m].id == st.products[k].id ==> m == k
    ensures
      var p := st.products[k];
      HandleSubmit(st, OpenForm(Some(p)), Some(p), ctx) == SavedProduct(st, Some(p))
  {
    var p := st.products[k];
    var input := SubmitInput(OpenForm(Some(p)), Some(p));
    assert MergeProduct(p, input) == p;
    ProductEditSettled(st, input, p, k, ctx);
  }

  /** Opening a product saved without a recipe and saving it unchanged
      stores it with an empty recipe: the form submits `[]`, not "no
      recipe". */
  lemma OpenAndSaveFillsRecipe(st: Store, k: nat, ctx: Context)
    requires k < |st.products|
    requires st.products[k].id != "" && st.products[k].recipe.None?
    ensures
      var p := st.products[k];
      var r := HandleSubmit(st, OpenForm(Some(p)), Some(p), ctx);
      r.product.Some? && r.product.value.recipe == Some([]) && r.store.products[k].recipe == Some([])
  {
    var p := st.products[k];
    var input := SubmitInput(OpenForm(Some(p)), Some(p));
    var r := HandleSubmit(st, OpenForm(Some(p)), Some(p), ctx);
    assert st.products[k].id == input.id.value;
    var j :| 0 <= j < |st.products| && st.products[j].id == input.id.value && r.product.value == MergeProduct(st.products[j], input);
  }

  /** The delete button: the product goes to the recycle bin. */
  function ConfirmDelete(st: Store, pending: Option<Product>, ctx: Context): (r: Store)
    ensures pending.None? ==> r == st
    ensures pending.Some? && Find(st, ProductKind, pending.value.id).None? ==> r == st
    ensures pending.Some? && Find(st, ProductKind, pending.value.id).Some? ==>
      var rs, rs', k := Records(st, ProductKind), Records(r, ProductKind), Find(st, ProductKind, pending.value.id).value;
      && |rs'| == |rs| && rs'[k].IsDeleted() && rs'[k].Key() == pending.value.id
      && (forall j :: 0 <= j < |rs| && j != k ==> rs'[j] == rs[j])
      && |r.logs| == |st.logs| + 1
  {
    match pending
    case None => st
    case Some(p) => SoftDelete(st, ProductKind, p.id, ctx)
  }

  /** Deleting a listed product whose id is its own takes it off the
      product listing and puts it, unchanged but for its status and deletion
      time, in the recycle bin; no other product changes. */
  lemma DeleteMovesToBin(st: Store, k: nat, ctx: Context)
    requires k < |st.products| && st.products[k].status != ProductDeleted
    requires forall m :: 0 <= m < |st.products| && st.products[m].id == st.products[k].id ==> m == k
    ensures
      var p := st.products[k];
      var r := ConfirmDelete(st, Some(p), ctx);
      && (forall q :: q in GetProducts(r) ==> q.id != p.id)
      && |r.products| == |st.products|
      && r.products[k] == p.(status := ProductDeleted, deletedAt := Some(ctx.now))
      && ProductRecord(r.products[k]) in RecycleBin(r, ProductKind)
      && (forall m :: 0 <= m < |st.products| && m != k ==> r.products[m] == st.products[m])
  {
    var p := st.products[k];
    var r := ConfirmDelete(st, Some(p), ctx);
    var rs, rs' := Records(st, ProductKind), Records(r, ProductKind);
    assert rs[k].Key() == p.id;
    IndexOfIs(rs, KeyOf, p.id, k);
    assert Find(st, ProductKind, p.id) == Some(k);
    assert |r.products| == |rs'|;
    forall m | 0 <= m < |st.products| ensures r.products[m] == if m == k then p.(status := ProductDeleted, deletedAt := Some(ctx.now)) else st.products[m] {
      assert rs'[m] == ProductRecord(r.products[m]);
    }
    assert rs'[k] == ProductRecord(r.products[k]);
    forall q | q in GetProducts(r) ensures q.id != p.id {
      var j :| 0 <= j < |r.products| && r.products[j] == q;
    }
  }
}

=== FILE: receipts.dfy ===
/** Payment receipts. The program keeps each one under the local-storage key
    `receipt_<saleId>`, so a sale has at most one receipt and saving a new one
    replaces the old. File reading (`FileReader` to a data URI) happens before
    the model: the encoded content is a parameter. */
module ReceiptStore {
  import opened Options
  import opened Types
  import opened Collections
  import opened Stores

  function ReceiptKey(c: Receipt): string {
    c.saleId
  }

  /** No two stored receipts share a sale id: one storage key per sale. */
  predicate UniqueReceipts(receipts: seq<Receipt>) {
    forall i, j :: 0 <= i < j < |receipts| ==> receipts[i].saleId != receipts[j].saleId
  }

  /** `getFromStorage('receipt_' + saleId, null)`. */
  function StoredReceipt(st: Store, saleId: string): (r: Option<Receipt>)
    ensures r.Some? ==> r.value in st.receipts && r.value.saleId == saleId
    ensures r.None? ==> forall c :: c in st.receipts ==> c.saleId != saleId
  {
    match IndexOf(st.receipts, ReceiptKey, saleId)
    case Some(i) => Some(st.receipts[i])
    case None => None
  }

  /** `getReceipt`: the receipt of a sale, hidden once it has been soft-deleted. */
  function GetReceipt(st: Store, saleId: string): (r: Option<Receipt>)
    ensures r.Some? <==> StoredReceipt(st, saleId).Some? && StoredReceipt(st, saleId).value.status != Deleted
    ensures r.Some? ==> r == StoredReceipt(st, saleId)
    ensures r.Some? ==> r.value.status.Active?
  {
    var c := StoredReceipt(st, saleId);
    if c.Some? && !c.value.status.Deleted? then c else None
  }

  /** `hasReceipt`: a receipt is stored for the sale and is not deleted. */
  function HasReceipt(st: Store, saleId: string): (b: bool)
    ensures b <==> GetReceipt(st, saleId).Some?
  {
    var c := StoredReceipt(st, saleId);
    c.Some? && !c.value.status.Deleted?
  }

  /** The store after `saveReceipt`, and the receipt it wrote. */
  datatype SavedReceipt = SavedReceipt(store: Store, receipt: Receipt)

  /** `saveReceipt`: writes an active receipt under the sale's key, replacing
      whatever was stored there (a deleted receipt included). */
  function SaveReceipt(st: Store, saleId: string, fileName: string, fileType: string, fileData: string, ctx: Context): (r: SavedReceipt)
    ensures r.receipt == Receipt(saleId, fileName, fileType, fileData, ctx.now, Active, None)
    ensures GetReceipt(r.store, saleId) == Some(r.receipt)
    ensures forall other :: other != saleId ==> StoredReceipt(r.store, other) == StoredReceipt(st, other)
    ensures r.store == st.(receipts := r.store.receipts)
    ensures UniqueReceipts(st.receipts) ==> UniqueReceipts(r.store.receipts)
  {
    var c := Receipt(saleId, fileName, fileType, fileData, ctx.now, Active, None);
    var st' := st.(receipts := PutReceipt(st.receipts, c));
    PutReceiptFound(st.receipts, c);
    assert forall other :: other != saleId ==> StoredReceipt(st', other) == StoredReceipt(st, other) by {
      forall other | other != saleId
        ensures IndexOf(st'.receipts, ReceiptKey, other) == IndexOf(st.receipts, ReceiptKey, other)
      {
        PutReceiptElsewhere(st.receipts, c, other);
      }
    }
    SavedReceipt(st', c)
  }

  /** The receipt list after writing `c` under its key: the stored one is
      replaced in place, or `c` is appended. */
  function PutReceipt(receipts: seq<Receipt>, c: Receipt): seq<Receipt> {
    match IndexOf(receipts, ReceiptKey, c.saleId)
    case Some(k) => receipts[k := c]
    case None => receipts + [c]
  }

  /** Reading the key back finds `c`, and keys stay unique. */
  lemma PutReceiptFound(receipts: seq<Receipt>, c: Receipt)
    ensures var after := PutReceipt(receipts, c);
      && (exists k :: IndexOf(after, ReceiptKey, c.saleId) == Some(k) && k < |after| && after[k] == c)
      && (UniqueReceipts(receipts) ==> UniqueReceipts(after))
  {
    var after := PutReceipt(receipts, c);
    match IndexOf(receipts, ReceiptKey, c.saleId)
    case Some(k) =>
      IndexOfIs(after, ReceiptKey, c.saleId, k);
      if UniqueReceipts(receipts) {
        forall i, j | 0 <= i < j < |after| ensures after[i].saleId != after[j].saleId {
          if i != k && j != k {
            assert after[i] == receipts[i] && after[j] == receipts[j];
          }
        }
      }
    case None =>
      IndexOfIs(after, ReceiptKey, c.saleId, |receipts|);
      if UniqueReceipts(receipts) {
        forall i, j | 0 <= i < j < |after| ensures after[i].saleId != after[j].saleId {
          assert after[i] == receipts[i];
          if j < |receipts| {
            assert after[j] == receipts[j];
          }
        }
      }
  }

  /** Writing `c` does not move the first receipt of another sale. */
  lemma PutReceiptElsewhere(receipts: seq<Receipt>, c: Receipt, other: string)
    requires other != c.saleId
    ensures IndexOf(PutReceipt(receipts, c), ReceiptKey, other) == IndexOf(receipts, ReceiptKey, other)
  {
    IndexOfUnaffected(receipts, PutReceipt(receipts, c), c.saleId, other);
  }

  /** Replacing or appending a receipt for `saleId` does not move the first
      receipt of another sale. */
  lemma IndexOfUnaffected(before: seq<Receipt>, after: seq<Receipt>, saleId: string, other: string)
    requires other != saleId
    requires |before| <= |after|
    requires forall i :: 0 <= i < |before| && before[i].saleId != saleId ==> after[i] == before[i]
    requires forall i :: 0 <= i < |before| && before[i].saleId == saleId ==> after[i].saleId == saleId
    requires forall i :: |before| <= i < |after| ==> after[i].saleId == saleId
    ensures IndexOf(after, ReceiptKey, other) == IndexOf(before, ReceiptKey, other)
  {
    assert forall j :: 0 <= j < |after| && (j < |before| ==> before[j].saleId != other) ==> after[j].saleId != other by {
      forall j | 0 <= j < |after| && (j < |before| ==> before[j].saleId != other) ensures after[j].saleId != other {
        if j < |before| && before[j].saleId != saleId {
          assert after[j] == before[j];
        }
      }
    }
    match IndexOf(before, ReceiptKey, other)
    case Some(k) =>
      assert after[k] == before[k];
      IndexOfIs(after, ReceiptKey, other, k);
    case None =>
      assert forall j :: 0 <= j < |after| ==> ReceiptKey(after[j]) != other;
  }
}

=== FILE: recent_sales.dfy ===
/** The order history: the payment-method labels and the search box, which
    matches the order number or the attendant's name, ignoring case. */
module RecentSales {
  import opened Options
  import opened Types
  import opened Collections
  import opened Text

  /** The label shown for a payment method. */
  function PaymentLabel(m: PaymentMethod): (name: string)
    ensures name != ""
  {
    match m
    case Dinheiro => "Dinheiro"
    case Pix => "Pix"
    case Cartao => "Cartão"
  }

  /** Each method has a label of its own. */
  lemma PaymentLabelsDistinct(a: PaymentMethod, b: PaymentMethod)
    ensures PaymentLabel(a) == PaymentLabel(b) <==> a == b
  {
  }

  /** The search test for one sale: the lower-cased term occurs in the
      lower-cased order number, or in the lower-cased attendant's name when
      the sale has a non-empty one. */
  predicate Matches(s: Sale, term: string) {
    || Contains(ToLower(s.orderNumber), ToLower(term))
    || (s.attendantName.Some? && s.attendantName.value != ""
        && Contains(ToLower(s.attendantName.value), ToLower(term)))
  }

  function MatchesTerm(term: string): Sale -> bool {
    (s: Sale) => Matches(s, term)
  }

  /** The list under the search box: every sale for an empty box, otherwise
      the matching ones, in the order they were given. */
  function FilteredSales(sales: seq<Sale>, term: string): (r: seq<Sale>)
    ensures term == "" ==> r == sales
    ensures term != "" ==> r == Filter(sales, MatchesTerm(term))
    ensures forall i :: 0 <= i < |r| ==> r[i] in sales
    ensures term != "" ==> forall s :: s in r <==> s in sales && Matches(s, term)
  {
    if term == "" then sales else Filter(sales, MatchesTerm(term))
  }

  /** Lower-casing twice is lower-casing once. */
  lemma ToLowerIdempotent(s: string)
    ensures ToLower(ToLower(s)) == ToLower(s)
  {
    forall i | 0 <= i < |s| ensures LowerChar(LowerChar(s[i])) == LowerChar(s[i]) {
    }
  }

  /** The search ignores case: typing the term in capitals finds the same
      sales. */
  lemma SearchIgnoresCase(sales: seq<Sale>, term: string)
    ensures FilteredSales(sales, ToLower(term)) == FilteredSales(sales, term)
  {
    ToLowerIdempotent(term);
    FilterSameTest(sales, MatchesTerm(ToLower(term)), MatchesTerm(term));
  }

  /** Searching for a sale's own order number finds it. */
  lemma SearchFindsOwnNumber(sales: seq<Sale>, k: nat)
    requires k < |sales| && sales[k].orderNumber != ""
    ensures sales[k] in FilteredSales(sales, sales[k].orderNumber)
  {
    var t := ToLower(sales[k].orderNumber);
    assert OccursAt(t, t, 0);
    assert Matches(sales[k], sales[k].orderNumber);
  }

  lemma ToLowerConcat(a: string, b: string)
    ensures ToLower(a + b) == ToLower(a) + ToLower(b)
  {
  }

  /** A text containing `t + u` contains `t`. */
  lemma ContainsPrefix(s: string, t: string, u: string)
    requires Contains(s, t + u)
    ensures Contains(s, t)
  {
    var i :| OccursAt(s, t + u, i);
    assert s[i..i + |t|] == (t + u)[..|t|];
    assert OccursAt(s, t, i);
  }

  /** Typing more characters only narrows the list. */
  lemma TypingNarrows(sales: seq<Sale>, term: string, more: string)
    requires term != ""
    ensures forall s :: s in FilteredSales(sales, term + more) ==> s in FilteredSales(sales, term)
  {
    ToLowerConcat(term, more);
    forall s | s in sales && Matches(s, term + more) ensures Matches(s, term) {
      if Contains(ToLower(s.orderNumber), ToLower(term + more)) {
        ContainsPrefix(ToLower(s.orderNumber), ToLower(term), ToLower(more));
      } else {
        ContainsPrefix(ToLower(s.attendantName.value), ToLower(term), ToLower(more));
      }
    }
  }
}

=== FILE: records.dfy ===
/** The five kinds of record that share the soft-delete lifecycle, seen
    uniformly: a `Record` wraps a product, ingredient, sale, usage report or
    receipt, and `Records`/`WithRecords` read and replace one kind's
    collection of a store. */
module Kinds {
  import opened Options
  import opened Types
  import opened Collections
  import opened Stores

  datatype Kind = ProductKind | IngredientKind | SaleKind | ReportKind | ReceiptKind

  /** The `itemType` written to the action log (and the recycle-bin tab name). */
  function ItemType(kind: Kind): string {
    match kind
    case ProductKind => "Produto"
    case IngredientKind => "Ingrediente"
    case SaleKind => "Venda"
    case ReportKind => "Relatório"
    case ReceiptKind => "Comprovante"
  }

  datatype Record =
    | ProductRecord(product: Product)
    | IngredientRecord(ingredient: Ingredient)
    | SaleRecord(sale: Sale)
    | ReportRecord(report: DailyUsageReport)
    | ReceiptRecord(receipt: Receipt)
  {
    function Kind(): Kind {
      match this
      case ProductRecord(_) => ProductKind
      case IngredientRecord(_) => IngredientKind
      case SaleRecord(_) => SaleKind
      case ReportRecord(_) => ReportKind
      case ReceiptRecord(_) => ReceiptKind
    }

    /** The id a record is addressed by: a receipt's sale id, every other
        record's own id. */
    function Key(): string {
      match this
      case ProductRecord(p) => p.id
      case IngredientRecord(i) => i.id
      case SaleRecord(s) => s.id
      case ReportRecord(r) => r.id
      case ReceiptRecord(c) => c.saleId
    }

    predicate IsDeleted() {
      match this
      case ProductRecord(p) => p.status == ProductDeleted
      case IngredientRecord(i) => i.status == Deleted
      case SaleRecord(s) => s.status == Deleted
      case ReportRecord(r) => r.status == Deleted
      case ReceiptRecord(c) => c.status == Deleted
    }

    function DeletedAt(): Option<int> {
      match this
      case ProductRecord(p) => p.deletedAt
      case IngredientRecord(i) => i.deletedAt
      case SaleRecord(s) => s.deletedAt
      case ReportRecord(r) => r.deletedAt
      case ReceiptRecord(c) => c.deletedAt
    }

    /** The `itemName` the action log records. */
    function LogName(): string {
      match this
      case ProductRecord(p) => p.name
      case IngredientRecord(i) => i.name
      case SaleRecord(s) => s.orderNumber
      case ReportRecord(r) => "Relatório de " + r.date
      case ReceiptRecord(c) => c.fileName
    }

    /** Soft-delete of one record: status `deleted`, `deletedAt` stamped. */
    function MarkDeleted(at: int): (r: Record)
      ensures r.Kind() == Kind() && r.Key() == Key() && r.LogName() == LogName()
      ensures r.IsDeleted() && r.DeletedAt() == Some(at)
      ensures r.MarkRestored() == MarkRestored()
    {
      match this
      case ProductRecord(p) => ProductRecord(p.(status := ProductDeleted, deletedAt := Some(at)))
      case IngredientRecord(i) => IngredientRecord(i.(status := Deleted, deletedAt := Some(at)))
      case SaleRecord(s) => SaleRecord(s.(status := Deleted, deletedAt := Some(at)))
      case ReportRecord(r) => ReportRecord(r.(status := Deleted, deletedAt := Some(at)))
      case ReceiptRecord(c) => ReceiptRecord(c.(status := Deleted, deletedAt := Some(at)))
    }

    /** Restore of one record: status `active` (also for a product that was
        `inactive` before), `deletedAt` cleared. */
    function MarkRestored(): (r: Record)
      ensures r.Kind() == Kind() && r.Key() == Key() && r.LogName() == LogName()
      ensures !r.IsDeleted() && r.DeletedAt() == None
      ensures r.ProductRecord? ==> r.product.status == ProductActive
    {
      match this
      case ProductRecord(p) => ProductRecord(p.(status := ProductActive, deletedAt := None))
      case IngredientRecord(i) => IngredientRecord(i.(status := Active, deletedAt := None))
      case SaleRecord(s) => SaleRecord(s.(status := Active, deletedAt := None))
      case ReportRecord(r) => ReportRecord(r.(status := Active, deletedAt := None))
      case ReceiptRecord(c) => ReceiptRecord(c.(status := Active, deletedAt := None))
    }

    /** Equal in every field except status and `deletedAt`. */
    predicate SameContent(other: Record) {
      MarkRestored() == other.MarkRestored()
    }
  }

  lemma RestoreIdempotent(r: Record)
    ensures r.MarkRestored().MarkRestored() == r.MarkRestored()
  {
  }

  /** Appending to the log leaves every collection as it was. */
  lemma AppendLogKeepsRecords(st: Store, ctx: Context, action: LogAction, itemType: string, itemId: string, itemName: string, kind: Kind)
    ensures Records(AppendLogEntry(st, ctx, action, itemType, itemId, itemName), kind) == Records(st, kind)
  {
  }

  function KeyOf(r: Record): string {
    r.Key()
  }

  predicate IsLive(r: Record) {
    !r.IsDeleted()
  }

  predicate IsTrashed(r: Record) {
    r.IsDeleted()
  }

  /** Records whose key is not `id`. */
  function NotKey(id: string): Record -> bool {
    (r: Record) => r.Key() != id
  }

  function WrapProduct(p: Product): Record { ProductRecord(p) }
  function WrapIngredient(i: Ingredient): Record { IngredientRecord(i) }
  function WrapSale(s: Sale): Record { SaleRecord(s) }
  function WrapReport(r: DailyUsageReport): Record { ReportRecord(r) }
  function WrapReceipt(c: Receipt): Record { ReceiptRecord(c) }

  predicate OfKind(rs: seq<Record>, kind: Kind) {
    forall i :: 0 <= i < |rs| ==> rs[i].Kind() == kind
  }

  lemma FilterKeepsKind(rs: seq<Record>, kind: Kind, p: Record -> bool)
    requires OfKind(rs, kind)
    ensures OfKind(Filter(rs, p), kind)
  {
    var f := Filter(rs, p);
    forall i | 0 <= i < |f| ensures f[i].Kind() == kind {
      assert f[i] in rs;
    }
  }

  /** One kind's collection of `st`, in store order. */
  function Records(st: Store, kind: Kind): (rs: seq<Record>)
    ensures OfKind(rs, kind)
  {
    match kind
    case ProductKind => Map(st.products, WrapProduct)
    case IngredientKind => Map(st.ingredients, WrapIngredient)
    case SaleKind => Map(st.sales, WrapSale)
    case ReportKind => Map(st.reports, WrapReport)
    case ReceiptKind => Map(st.receipts, WrapReceipt)
  }

  /** `st` with one kind's collection replaced by `rs`. */
  function WithRecords(st: Store, kind: Kind, rs: seq<Record>): (r: Store)
    requires OfKind(rs, kind)
    ensures Records(r, kind) == rs
    ensures forall k :: k != kind ==> Records(r, k) == Records(st, k)
    ensures r.logs == st.logs && r.lastOrderNumber == st.lastOrderNumber
    ensures kind != ProductKind ==> r.products == st.products
    ensures kind != IngredientKind ==> r.ingredients == st.ingredients
    ensures kind != SaleKind ==> r.sales == st.sales
    ensures kind != ReportKind ==> r.reports == st.reports
    ensures kind != ReceiptKind ==> r.receipts == st.receipts
  {
    var n := |rs|;
    match kind
    case ProductKind =>
      var r := st.(products := seq(n, i requires 0 <= i < n => rs[i].product));
      assert Records(r, kind) == rs;
      r
    case IngredientKind =>
      var r := st.(ingredients := seq(n, i requires 0 <= i < n => rs[i].ingredient));
      assert Records(r, kind) == rs;
      r
    case SaleKind =>
      var r := st.(sales := seq(n, i requires 0 <= i < n => rs[i].sale));
      assert Records(r, kind) == rs;
      r
    case ReportKind =>
      var r := st.(reports := seq(n, i requires 0 <= i < n => rs[i].report));
      assert Records(r, kind) == rs;
      r
    case ReceiptKind =>
      var r := st.(receipts := seq(n, i requires 0 <= i < n => rs[i].receipt));
      assert Records(r, kind) == rs;
      r
  }
}

=== FILE: recycle_bin.dfy ===
/** The recycle-bin screen: one tab per kind listing the soft-deleted
    records, most recently deleted first, and the restore / delete-forever
    buttons, which dispatch on the entry's item-type label. */
module RecycleBinDashboard {
  import opened Options
  import opened Types
  import opened Collections
  import opened Sorting
  import opened Stores
  import opened Kinds
  import opened Lifecycle
  import opened Views

  /** A row of a tab: the record, its item-type label and the text shown. */
  datatype BinEntry = BinEntry(record: Record, itemType: string, displayName: string)

  /** The tab order of the screen. */
  const Tabs: seq<Kind> := [SaleKind, ProductKind, IngredientKind, ReportKind, ReceiptKind]

  /** Reading the item-type label back, as the screen's action tables do. */
  function KindOfItemType(itemType: string): (r: Option<Kind>)
    ensures r.Some? ==> ItemType(r.value) == itemType
  {
    if itemType == "Produto" then Some(ProductKind)
    else if itemType == "Ingrediente" then Some(IngredientKind)
    else if itemType == "Venda" then Some(SaleKind)
    else if itemType == "Relatório" then Some(ReportKind)
    else if itemType == "Comprovante" then Some(ReceiptKind)
    else None
  }

  /** The five labels are distinct, so every label leads back to its kind. */
  lemma ItemTypeRoundTrip(kind: Kind)
    ensures KindOfItemType(ItemType(kind)) == Some(kind)
  {
  }

  /** The text shown for a record. A report shows its date through the
      screen's date-time formatter, which is a parameter here. */
  function DisplayName(rec: Record, formatDate: string -> string): string {
    match rec
    case ProductRecord(p) => p.name
    case IngredientRecord(i) => i.name
    case SaleRecord(s) => s.orderNumber
    case ReportRecord(r) => "Relatório de " + formatDate(r.date)
    case ReceiptRecord(c) => c.fileName
  }

  function Entry(kind: Kind, formatDate: string -> string): Record -> BinEntry {
    (rec: Record) => BinEntry(rec, ItemType(kind), DisplayName(rec, formatDate))
  }

  function EntryRecord(e: BinEntry): Record {
    e.record
  }

  /** The deletion instant the list is ordered by; a record without one sorts
      as if deleted at instant 0. */
  function DeletedTime(e: BinEntry): int {
    e.record.DeletedAt().GetOr(0)
  }

  predicate NewerDeletionFirst(a: BinEntry, b: BinEntry) {
    DeletedTime(a) >= DeletedTime(b)
  }

  /** One tab: the kind's recycle bin, most recently deleted first. The tab
      label shows `|r|`. */
  function TabData(st: Store, kind: Kind, formatDate: string -> string): (r: seq<BinEntry>)
    ensures |r| == |RecycleBin(st, kind)|
    ensures multiset(Map(r, EntryRecord)) == multiset(RecycleBin(st, kind))
    ensures forall i :: 0 <= i < |r| ==>
      && r[i].record in Records(st, kind)
      && r[i].record.IsDeleted()
      && r[i].record.Kind() == kind
      && KindOfItemType(r[i].itemType) == Some(kind)
      && r[i].displayName == DisplayName(r[i].record, formatDate)
    ensures forall i, j :: 0 <= i < j < |r| ==> DeletedTime(r[i]) >= DeletedTime(r[j])
  {
    var bin := RecycleBin(st, kind);
    var entries := Map(bin, Entry(kind, formatDate));
    NewerDeletionFirstIsPreorder();
    var sorted := Sort(entries, NewerDeletionFirst);
    EntriesOfBin(st, kind, formatDate, sorted);
    sorted
  }

  lemma NewerDeletionFirstIsPreorder()
    ensures TotalPreorder(NewerDeletionFirst)
  {
  }

  /** Any permutation of a tab's entries holds only trashed records of the
      kind, labelled with the kind. */
  lemma EntriesOfBin(st: Store, kind: Kind, formatDate: string -> string, sorted: seq<BinEntry>)
    requires multiset(sorted) == multiset(Map(RecycleBin(st, kind), Entry(kind, formatDate)))
    ensures multiset(Map(sorted, EntryRecord)) == multiset(RecycleBin(st, kind))
    ensures forall i :: 0 <= i < |sorted| ==>
      && sorted[i].record in Records(st, kind)
      && sorted[i].record.IsDeleted()
      && sorted[i].record.Kind() == kind
      && KindOfItemType(sorted[i].itemType) == Some(kind)
      && sorted[i].displayName == DisplayName(sorted[i].record, formatDate)
  {
    EntriesRecords(st, kind, formatDate, sorted);
    EntriesMembers(st, kind, formatDate, sorted);
  }

  lemma EntriesRecords(st: Store, kind: Kind, formatDate: string -> string, sorted: seq<BinEntry>)
    requires multiset(sorted) == multiset(Map(RecycleBin(st, kind), Entry(kind, formatDate)))
    ensures multiset(Map(sorted, EntryRecord)) == multiset(RecycleBin(st, kind))
  {
    var bin := RecycleBin(st, kind);
    var entries := Map(bin, Entry(kind, formatDate));
    assert Map(entries, EntryRecord) == bin;
    MapPermutation(sorted, entries, EntryRecord);
  }

  lemma EntriesMembers(st: Store, kind: Kind, formatDate: string -> string, sorted: seq<BinEntry>)
    requires multiset(sorted) == multiset(Map(RecycleBin(st, kind), Entry(kind, formatDate)))
    ensures forall i :: 0 <= i < |sorted| ==> EntryOk(st, kind, formatDate, sorted[i])
  {
    var entries := Map(RecycleBin(st, kind), Entry(kind, formatDate));
    BinEntriesOk(st, kind, formatDate);
    forall i | 0 <= i < |sorted| ensures EntryOk(st, kind, formatDate, sorted[i]) {
      assert sorted[i] in multiset(entries);
      var k :| 0 <= k < |entries| && entries[k] == sorted[i];
    }
  }

  /** A row of the tab of `kind`: a trashed record of the kind, labelled with
      the kind and shown by its display name. */
  predicate EntryOk(st: Store, kind: Kind, formatDate: string -> string, e: BinEntry) {
    && e.record in Records(st, kind)
    && e.record.IsDeleted()
    && e.record.Kind() == kind
    && KindOfItemType(e.itemType) == Some(kind)
    && e.displayName == DisplayName(e.record, formatDate)
  }

  lemma BinEntriesOk(st: Store, kind: Kind, formatDate: string -> string)
    ensures var entries := Map(RecycleBin(st, kind), Entry(kind, formatDate));
      forall k :: 0 <= k < |entries| ==> EntryOk(st, kind, formatDate, entries[k])
  {
    var bin := RecycleBin(st, kind);
    var entries := Map(bin, Entry(kind, formatDate));
    ItemTypeRoundTrip(kind);
    forall k | 0 <= k < |entries| ensures EntryOk(st, kind, formatDate, entries[k]) {
      assert entries[k].record == bin[k];
      assert bin[k] in Records(st, kind);
    }
  }

  /** The id the buttons pass on: a receipt's sale id, otherwise the id. */
  function EntryId(e: BinEntry): string {
    e.record.Key()
  }

  /** The restore button: the restore operation of the kind the label names. */
  function HandleRestore(st: Store, e: BinEntry, ctx: Context): (r: Store)
    ensures KindOfItemType(e.itemType).None? ==> r == st
    ensures KindOfItemType(e.itemType).Some? && Find(st, KindOfItemType(e.itemType).value, EntryId(e)).None? ==> r == st
    ensures KindOfItemType(e.itemType).Some? && Find(st, KindOfItemType(e.itemType).value, EntryId(e)).Some? ==>
      var kind := KindOfItemType(e.itemType).value;
      var k := Find(st, kind, EntryId(e)).value;
      && |Records(r, kind)| == |Records(st, kind)|
      && Records(r, kind)[k].Key() == EntryId(e) && !Records(r, kind)[k].IsDeleted()
      && |r.logs| == |st.logs| + 1
  {
    match KindOfItemType(e.itemType)
    case None => st
    case Some(kind) => Restore(st, kind, EntryId(e), ctx)
  }

  /** The delete-forever button: the purge of the kind the label names. */
  function HandlePermanentDelete(st: Store, e: BinEntry, ctx: Context): (r: Store)
    ensures KindOfItemType(e.itemType).None? ==> r == st
    ensures KindOfItemType(e.itemType).Some? && Find(st, KindOfItemType(e.itemType).value, EntryId(e)).None? ==> r == st
    ensures KindOfItemType(e.itemType).Some? && Find(st, KindOfItemType(e.itemType).value, EntryId(e)).Some? ==>
      var kind := KindOfItemType(e.itemType).value;
      && (forall x :: x in Records(r, kind) ==> x.Key() != EntryId(e))
      && |Records(r, kind)| < |Records(st, kind)|
      && |r.logs| == |st.logs| + 1
  {
    match KindOfItemType(e.itemType)
    case None => st
    case Some(kind) =>
      var id := EntryId(e);
      if Find(st, kind, id).Some? then
        PurgeRecord(st, kind, Find(st, kind, id).value, ctx);
        Purge(st, kind, id, ctx)
      else Purge(st, kind, id, ctx)
  }

  datatype Action = RestoreAction | DeleteAction
  datatype Confirmation = Confirmation(action: Action, entry: BinEntry)

  /** Confirming the dialog: nothing pending changes nothing. */
  function OnConfirm(st: Store, pending: Option<Confirmation>, ctx: Context): (r: Store)
    ensures pending.None? ==> r == st
    ensures pending.Some? && pending.value.action.RestoreAction? ==> r == HandleRestore(st, pending.value.entry, ctx)
    ensures pending.Some? && pending.value.action.DeleteAction? ==> r == HandlePermanentDelete(st, pending.value.entry, ctx)
  {
    match pending
    case None => st
    case Some(Confirmation(RestoreAction, e)) => HandleRestore(st, e, ctx)
    case Some(Confirmation(DeleteAction, e)) => HandlePermanentDelete(st, e, ctx)
  }

  /** No two records of the collection share an id. */
  predicate KeysDistinct(rs: seq<Record>) {
    forall i, j :: 0 <= i < j < |rs| ==> rs[i].Key() != rs[j].Key()
  }

  /** An entry of a tab is a trashed record of the tab's kind, and its
      buttons act on that kind under the record's id. */
  lemma TabEntry(st: Store, kind: Kind, formatDate: string -> string, i: nat, ctx: Context)
    requires i < |TabData(st, kind, formatDate)|
    ensures
      var e := TabData(st, kind, formatDate)[i];
      && e.record in Records(st, kind)
      && e.record.IsDeleted()
      && HandleRestore(st, e, ctx) == Restore(st, kind, EntryId(e), ctx)
      && HandlePermanentDelete(st, e, ctx) == Purge(st, kind, EntryId(e), ctx)
  {
  }

  /** Restoring an entry of a tab brings its id back to the listing; when ids
      are distinct the entry leaves the tab, which shrinks by one, and the
      record returns with every field but its status and deletion time. */
  lemma RestoreFromTab(st: Store, kind: Kind, formatDate: string -> string, i: nat, ctx: Context)
    requires i < |TabData(st, kind, formatDate)|
    ensures
      var e := TabData(st, kind, formatDate)[i];
      var r := HandleRestore(st, e, ctx);
      && Find(r, kind, EntryId(e)).Some?
      && !Records(r, kind)[Find(r, kind, EntryId(e)).value].IsDeleted()
      && (KeysDistinct(Records(st, kind)) ==>
            && e.record.MarkRestored() in Listing(r, kind)
            && |RecycleBin(r, kind)| == |RecycleBin(st, kind)| - 1)
  {
    var e := TabData(st, kind, formatDate)[i];
    TabEntry(st, kind, formatDate, i, ctx);
    var rs := Records(st, kind);
    var m :| 0 <= m < |rs| && rs[m] == e.record;
    RestoreRecord(st, kind, m, ctx);
  }

  lemma RestoreRecord(st: Store, kind: Kind, m: nat, ctx: Context)
    requires m < |Records(st, kind)| && Records(st, kind)[m].IsDeleted()
    ensures
      var rs := Records(st, kind);
      var id := rs[m].Key();
      var r := Restore(st, kind, id, ctx);
      && Find(r, kind, id).Some?
      && !Records(r, kind)[Find(r, kind, id).value].IsDeleted()
      && (KeysDistinct(rs) ==>
            && rs[m].MarkRestored() in Listing(r, kind)
            && |RecycleBin(r, kind)| == |RecycleBin(st, kind)| - 1)
  {
    RestoreRecordFound(st, kind, m, ctx);
    if KeysDistinct(Records(st, kind)) {
      RestoreRecordLeavesBin(st, kind, m, ctx);
    }
  }

  /** After the restore the id finds the restored, live record. */
  lemma RestoreRecordFound(st: Store, kind: Kind, m: nat, ctx: Context)
    requires m < |Records(st, kind)|
    ensures
      var id := Records(st, kind)[m].Key();
      var r := Restore(st, kind, id, ctx);
      && Find(r, kind, id) == Find(st, kind, id)
      && Find(r, kind, id).Some?
      && !Records(r, kind)[Find(r, kind, id).value].IsDeleted()
  {
    var rs := Records(st, kind);
    var id := rs[m].Key();
    var k := Find(st, kind, id).value;
    var rs' := Records(Restore(st, kind, id, ctx), kind);
    assert rs' == rs[k := rs[k].MarkRestored()];
    IndexOfIs(rs', KeyOf, id, k);
  }

  /** With distinct ids the restored record is the trashed one, which leaves
      the bin for the listing. */
  lemma RestoreRecordLeavesBin(st: Store, kind: Kind, m: nat, ctx: Context)
    requires m < |Records(st, kind)| && Records(st, kind)[m].IsDeleted()
    requires KeysDistinct(Records(st, kind))
    ensures
      var rs := Records(st, kind);
      var r := Restore(st, kind, rs[m].Key(), ctx);
      && rs[m].MarkRestored() in Listing(r, kind)
      && |RecycleBin(r, kind)| == |RecycleBin(st, kind)| - 1
  {
    var rs := Records(st, kind);
    var id := rs[m].Key();
    var k := Find(st, kind, id).value;
    assert m == k;
    var rs' := Records(Restore(st, kind, id, ctx), kind);
    assert rs' == rs[k := rs[k].MarkRestored()];
    FilterUpdateCount(rs, k, rs[k].MarkRestored(), IsTrashed);
    assert IsLive(rs'[k]);
  }

  /** Deleting an entry forever leaves no record with its id in the
      collection, which gets shorter; a sale takes the receipt stored under
      its id with it; the other collections stay as they were. */
  lemma PurgeFromTab(st: Store, kind: Kind, formatDate: string -> string, i: nat, ctx: Context)
    requires i < |TabData(st, kind, formatDate)|
    ensures
      var e := TabData(st, kind, formatDate)[i];
      var r := HandlePermanentDelete(st, e, ctx);
      && (forall x :: x in Records(r, kind) ==> x.Key() != EntryId(e))
      && |Records(r, kind)| < |Records(st, kind)|
      && (kind == SaleKind ==> forall x :: x in Records(r, ReceiptKind) ==> x.Key() != EntryId(e))
      && (forall k :: k != kind && k != ReceiptKind ==> Records(r, k) == Records(st, k))
  {
    var e := TabData(st, kind, formatDate)[i];
    TabEntry(st, kind, formatDate, i, ctx);
    var rs := Records(st, kind);
    var m :| 0 <= m < |rs| && rs[m] == e.record;
    PurgeRecord(st, kind, m, ctx);
  }

  lemma PurgeRecord(st: Store, kind: Kind, m: nat, ctx: Context)
    requires m < |Records(st, kind)|
    ensures
      var rs := Records(st, kind);
      var id := rs[m].Key();
      var r := Purge(st, kind, id, ctx);
      && (forall x :: x in Records(r, kind) ==> x.Key() != id)
      && |Records(r, kind)| < |rs|
      && (kind == SaleKind ==> forall x :: x in Records(r, ReceiptKind) ==> x.Key() != id)
      && (forall k :: k != kind && k != ReceiptKind ==> Records(r, k) == Records(st, k))
  {
    var rs := Records(st, kind);
    var id := rs[m].Key();
    assert Find(st, kind, id).Some?;
    var r := Purge(st, kind, id, ctx);
    NoKeyLeft(rs, id);
    if kind == SaleKind {
      NoKeyLeft(Records(st, ReceiptKind), id);
    }
    FilterShrinks(rs, NotKey(id), m);
  }

  lemma NoKeyLeft(rs: seq<Record>, id: string)
    ensures forall x :: x in Filter(rs, NotKey(id)) ==> x.Key() != id
  {
    var kept := Filter(rs, NotKey(id));
    forall x | x in kept ensures x.Key() != id {
      var j :| 0 <= j < |kept| && kept[j] == x;
      assert NotKey(id)(x);
    }
  }
}

=== FILE: register_sale.dfy ===
/** The order being built at the till: adding products, changing quantities,
    the total, the change for a cash payment, when the "Gerar Nota" button is
    enabled and what it hands to the sale registration. */
module RegisterSale {
  import opened Options
  import opened Types
  import opened Collections
  import opened Text
  import opened Sales

  function LineProduct(item: OrderItem): string {
    item.productId
  }

  /** Each product has at most one line. */
  predicate DistinctProducts(items: seq<OrderItem>) {
    forall i, j :: 0 <= i < j < |items| ==> items[i].productId != items[j].productId
  }

  /** Every line holds at least one unit. */
  predicate PositiveQuantities(items: seq<OrderItem>) {
    forall i :: 0 <= i < |items| ==> items[i].quantity >= 1
  }

  predicate CartOk(items: seq<OrderItem>) {
    DistinctProducts(items) && PositiveQuantities(items)
  }

  /** `addToOrder`: one more unit on the product's line, or a new line of one
      unit at the product's current name and price. */
  function AddToOrder(items: seq<OrderItem>, product: Product): (r: seq<OrderItem>)
    ensures IndexOf(items, LineProduct, product.id).Some? ==>
      && |r| == |items|
      && forall i :: 0 <= i < |items| ==>
           r[i] == if items[i].productId == product.id then items[i].(quantity := items[i].quantity + 1) else items[i]
    ensures IndexOf(items, LineProduct, product.id).None? ==>
      r == items + [OrderItem(product.id, product.name, 1, product.price)]
    ensures CartOk(items) ==> CartOk(r)
  {
    if IndexOf(items, LineProduct, product.id).Some? then
      Map(items, (item: OrderItem) => if item.productId == product.id then item.(quantity := item.quantity + 1) else item)
    else
      items + [OrderItem(product.id, product.name, 1, product.price)]
  }

  /** Adding a product raises the total by one unit price: the price on the
      existing line, or the product's price for a new line. */
  lemma AddToOrderTotal(items: seq<OrderItem>, product: Product)
    requires DistinctProducts(items)
    ensures var line := IndexOf(items, LineProduct, product.id);
      SaleTotal(AddToOrder(items, product))
        == SaleTotal(items) + (if line.Some? then items[line.value].unitPrice else product.price)
  {
    var r := AddToOrder(items, product);
    match IndexOf(items, LineProduct, product.id)
    case Some(k) =>
      BumpIsUpdate(items, product, k);
      BumpTotal(items, k);
    case None =>
      var line := OrderItem(product.id, product.name, 1, product.price);
      assert r == items + [line];
      SumConcat(items, [line], Subtotal);
      assert Sum([line], Subtotal) == product.price by {
        assert [line][1..] == [];
        assert Subtotal(line) == product.price * 1.0;
      }
  }

  /** One more unit on line `k` adds its unit price to the total. */
  lemma BumpTotal(items: seq<OrderItem>, k: nat)
    requires k < |items|
    ensures Sum(items[k := items[k].(quantity := items[k].quantity + 1)], Subtotal) == Sum(items, Subtotal) + items[k].unitPrice
  {
    OneMoreUnit(items[k]);
    SumBump(items, k, items[k].(quantity := items[k].quantity + 1), Subtotal, items[k].unitPrice);
  }

  /** One more unit adds one unit price to a line's subtotal. */
  lemma OneMoreUnit(item: OrderItem)
    ensures Subtotal(item.(quantity := item.quantity + 1)) == Subtotal(item) + item.unitPrice
  {
    var q := item.quantity as real;
    calc {
      Subtotal(item.(quantity := item.quantity + 1));
      item.unitPrice * (q + 1.0);
      item.unitPrice * q + item.unitPrice * 1.0;
    }
  }

  /** With one line per product, bumping the product's line is an update at
      its index. */
  lemma BumpIsUpdate(items: seq<OrderItem>, product: Product, k: nat)
    requires DistinctProducts(items)
    requires IndexOf(items, LineProduct, product.id) == Some(k)
    ensures k < |items|
    ensures AddToOrder(items, product) == items[k := items[k].(quantity := items[k].quantity + 1)]
  {
    var r := AddToOrder(items, product);
    var u := items[k := items[k].(quantity := items[k].quantity + 1)];
    assert items[k].productId == product.id;
    forall i | 0 <= i < |items| ensures r[i] == u[i] {
      if i != k {
        assert items[i].productId != product.id by {
          assert i < k || k < i;
        }
      }
    }
  }

  function NotProduct(productId: string): OrderItem -> bool {
    (item: OrderItem) => item.productId != productId
  }

  /** `updateQuantity`: a quantity of zero or less removes the product's line,
      any other sets it. */
  function UpdateQuantity(items: seq<OrderItem>, productId: string, quantity: int): (r: seq<OrderItem>)
    ensures quantity <= 0 ==> r == Filter(items, NotProduct(productId))
    ensures quantity <= 0 ==> forall i :: 0 <= i < |r| ==> r[i].productId != productId
    ensures quantity > 0 ==>
      && |r| == |items|
      && forall i :: 0 <= i < |items| ==>
           r[i] == if items[i].productId == productId then items[i].(quantity := quantity) else items[i]
    ensures CartOk(items) ==> CartOk(r)
  {
    if quantity <= 0 then
      var r := Filter(items, NotProduct(productId));
      assert DistinctProducts(items) ==> DistinctProducts(r) by {
        if DistinctProducts(items) {
          FilterPairwise(items, NotProduct(productId), DifferentProducts);
        }
      }
      r
    else
      Map(items, (item: OrderItem) => if item.productId == productId then item.(quantity := quantity) else item)
  }

  predicate DifferentProducts(a: OrderItem, b: OrderItem) {
    a.productId != b.productId
  }

  /** Removing a line takes exactly its subtotal off the total. */
  lemma RemoveLineTotal(items: seq<OrderItem>, productId: string, k: nat)
    requires DistinctProducts(items)
    requires k < |items| && items[k].productId == productId
    ensures UpdateQuantity(items, productId, 0) == items[..k] + items[k + 1..]
    ensures SaleTotal(UpdateQuantity(items, productId, 0)) == SaleTotal(items) - Subtotal(items[k])
  {
    var p := NotProduct(productId);
    assert forall i :: 0 <= i < |items| && i != k ==> p(items[i]) by {
      forall i | 0 <= i < |items| && i != k ensures p(items[i]) {
        assert i < k || k < i;
      }
    }
    FilterDropsOne(items, p, k);
    SumDrop(items, k, Subtotal);
  }

  /** The quantity box: `parseInt(value) || 0`, so an unparsable entry counts
      as zero and removes the line. */
  function QuantityFromInput(parsed: Option<int>): (q: int)
    ensures parsed.None? ==> q == 0
    ensures parsed.Some? ==> q == parsed.value
  {
    match parsed
    case Some(n) => if n != 0 then n else 0
    case None => 0
  }

  /** The "Valor Recebido" field: its text and what `parseFloat` makes of it
      (`None` for `NaN`). `parseFloat('')` is `NaN`. */
  datatype AmountField = AmountField(text: string, parsed: Option<real>)

  /** The field is an `<input type="number">`: the browser turns text that is
      not a number into "", so the text is empty exactly when `parseFloat`
      gives `NaN`. */
  predicate ConsistentField(f: AmountField) {
    f.text == "" <==> f.parsed.None?
  }

  /** `changeGiven`: what to hand back for a cash payment that covers the
      total, zero otherwise. */
  function ChangeGiven(payment: PaymentMethod, received: Option<real>, total: real): (c: real)
    ensures c >= 0.0
    ensures c > 0.0 ==> payment == Dinheiro && received.Some? && received.value == total + c
    ensures payment == Dinheiro && received.Some? && received.value >= total ==> c == received.value - total
  {
    if payment != Dinheiro then 0.0
    else if received.Some? && received.value >= total then received.value - total
    else 0.0
  }

  /** `isCashPaymentInvalid`. A `NaN` amount compares false with `<`, so only
      the empty field or an amount below the total blocks the button. */
  predicate CashPaymentInvalid(payment: PaymentMethod, amount: AmountField, total: real)
    ensures CashPaymentInvalid(payment, amount, total) ==> payment == Dinheiro
    ensures payment == Dinheiro && ConsistentField(amount) ==>
      (CashPaymentInvalid(payment, amount, total) <==> amount.parsed.None? || amount.parsed.value < total)
  {
    payment == Dinheiro && ((amount.parsed.Some? && amount.parsed.value < total) || amount.text == "")
  }

  /** The till's state. `category == None` is the "Todos" tab. */
  datatype RegisterForm = RegisterForm(
    items: seq<OrderItem>,
    searchTerm: string,
    category: Option<Category>,
    payment: PaymentMethod,
    attendantName: string,
    notes: string,
    amount: AmountField)

  /** The `disabled` condition of "Gerar Nota". */
  predicate SubmitDisabled(f: RegisterForm)
    ensures !SubmitDisabled(f) ==> |f.items| > 0 && !IsBlank(f.attendantName)
    ensures f.payment != Dinheiro ==> (SubmitDisabled(f) <==> |f.items| == 0 || IsBlank(f.attendantName))
    ensures !SubmitDisabled(f) && f.payment == Dinheiro && ConsistentField(f.amount) ==>
      f.amount.parsed.Some? && f.amount.parsed.value >= SaleTotal(f.items)
  {
    |f.items| == 0 || IsBlank(f.attendantName) || CashPaymentInvalid(f.payment, f.amount, SaleTotal(f.items))
  }

  /** What `handleGenerateNote` passes on. */
  datatype NoteRequest = NoteRequest(
    items: seq<OrderItem>,
    payment: PaymentMethod,
    attendantName: string,
    notes: string,
    amountReceived: Option<real>,
    changeGiven: Option<real>)

  /** `handleGenerateNote`: the request, and the form cleared for the next
      order (the payment method and the attendant stay). */
  function GenerateNote(f: RegisterForm): (r: (NoteRequest, RegisterForm))
    ensures r.0.items == f.items && r.0.payment == f.payment && r.0.attendantName == f.attendantName && r.0.notes == f.notes
    ensures r.0.amountReceived.Some? <==> f.payment == Dinheiro && f.amount.parsed.Some?
    ensures r.0.amountReceived.Some? ==> r.0.amountReceived == f.amount.parsed
    ensures r.0.changeGiven.Some? <==> f.payment == Dinheiro
    ensures r.0.changeGiven.Some? ==> r.0.changeGiven.value >= 0.0
    ensures r.0.changeGiven == if f.payment == Dinheiro then Some(ChangeGiven(f.payment, f.amount.parsed, SaleTotal(f.items))) else None
    ensures f.payment == Dinheiro && f.amount.parsed.Some? && f.amount.parsed.value >= SaleTotal(f.items) ==>
      r.0.changeGiven == Some(f.amount.parsed.value - SaleTotal(f.items))
    ensures f.payment == Dinheiro && !(f.amount.parsed.Some? && f.amount.parsed.value >= SaleTotal(f.items)) ==>
      r.0.changeGiven == Some(0.0)
    ensures r.1.items == [] && r.1.notes == "" && r.1.searchTerm == "" && r.1.category == None
    ensures r.1.amount.text == "" && r.1.amount.parsed == None
    ensures r.1.payment == f.payment && r.1.attendantName == f.attendantName
  {
    var cash := f.payment == Dinheiro;
    var req := NoteRequest(f.items, f.payment, f.attendantName, f.notes,
      if cash && f.amount.parsed.Some? then f.amount.parsed else None,
      if cash then Some(ChangeGiven(f.payment, f.amount.parsed, SaleTotal(f.items))) else None);
    (req, f.(items := [], notes := "", searchTerm := "", category := None, amount := AmountField("", None)))
  }

  /** An enabled button means a non-empty order, a named attendant and, for
      cash, an amount that covers the total, so the change handed on is
      exactly the amount received minus the total. */
  lemma EnabledSubmitPaysInFull(f: RegisterForm)
    requires ConsistentField(f.amount) && !SubmitDisabled(f)
    requires f.payment == Dinheiro
    ensures var req := GenerateNote(f).0;
      && |req.items| > 0
      && req.amountReceived.Some? && req.changeGiven.Some?
      && req.amountReceived.value == SaleTotal(f.items) + req.changeGiven.value
  {
  }

  /** A cash payment whose amount field is empty never gets past the button. */
  lemma EmptyCashFieldBlocks(f: RegisterForm)
    requires f.payment == Dinheiro && f.amount.text == ""
    ensures SubmitDisabled(f)
  {
  }

  /** The product list: the chosen category (or all), then the names that
      contain the search term, ignoring case. */
  function FilteredProducts(products: seq<Product>, category: Option<Category>, searchTerm: string): (r: seq<Product>)
    ensures forall i :: 0 <= i < |r| ==> r[i] in products
    ensures forall i :: 0 <= i < |products| ==>
      (products[i] in r <== (category.None? || products[i].category == category.value)
                           && Contains(ToLower(products[i].name), ToLower(searchTerm)))
    ensures forall i :: 0 <= i < |r| ==>
      (category.None? || r[i].category == category.value) && Contains(ToLower(r[i].name), ToLower(searchTerm))
  {
    var inCategory := Filter(products, (p: Product) => category.None? || p.category == category.value);
    Filter(inCategory, (p: Product) => Contains(ToLower(p.name), ToLower(searchTerm)))
  }
}

=== FILE: report_history.dfy ===
/** The report history table: the row that is expanded, and the two search
    boxes, one on the formatted date and one on the ingredient names of the
    report's lines. */
module ReportHistoryTable {
  import opened Options
  import opened Types
  import opened Collections
  import opened Text

  /** Clicking a row: it closes if it was the expanded one, otherwise it
      becomes the expanded one (closing any other). */
  function ToggleExpand(expanded: Option<string>, id: string): (r: Option<string>)
    ensures r == Some(id) <==> expanded != Some(id)
    ensures r.None? <==> expanded == Some(id)
  {
    if expanded == Some(id) then None else Some(id)
  }

  /** Clicking the same row twice restores the previous state when no other
      row was open; when another row was open, it stays closed. */
  lemma ToggleTwice(expanded: Option<string>, id: string)
    ensures expanded.None? || expanded == Some(id) ==> ToggleExpand(ToggleExpand(expanded, id), id) == expanded
    ensures expanded.Some? && expanded != Some(id) ==> ToggleExpand(ToggleExpand(expanded, id), id).None?
  {
  }

  /** The date box's test: the lower-cased term occurs in the report date as
      the table shows it (`formatDate` is the locale's long date format). */
  predicate DateMatches(r: DailyUsageReport, term: string, formatDate: string -> string) {
    Contains(ToLower(formatDate(r.date)), ToLower(term))
  }

  /** The ingredient box's test: some line's ingredient name contains the
      lower-cased term. */
  predicate IngredientMatches(r: DailyUsageReport, term: string) {
    exists k :: 0 <= k < |r.usages| && Contains(ToLower(r.usages[k].ingredientName), ToLower(term))
  }

  function DateTest(term: string, formatDate: string -> string): DailyUsageReport -> bool {
    (r: DailyUsageReport) => DateMatches(r, term, formatDate)
  }

  function IngredientTest(term: string): DailyUsageReport -> bool {
    (r: DailyUsageReport) => IngredientMatches(r, term)
  }

  /** A report passes a box that is empty or matches it. */
  predicate Shown(r: DailyUsageReport, dateFilter: string, ingredientFilter: string, formatDate: string -> string) {
    && (dateFilter == "" || DateMatches(r, dateFilter, formatDate))
    && (ingredientFilter == "" || IngredientMatches(r, ingredientFilter))
  }

  function ShownTest(dateFilter: string, ingredientFilter: string, formatDate: string -> string): DailyUsageReport -> bool {
    (r: DailyUsageReport) => Shown(r, dateFilter, ingredientFilter, formatDate)
  }

  /** The rows of the table: first the date box narrows the list, then the
      ingredient box; an empty box does not filter. */
  function FilteredReports(reports: seq<DailyUsageReport>, dateFilter: string, ingredientFilter: string,
                           formatDate: string -> string): (r: seq<DailyUsageReport>)
    ensures dateFilter == "" && ingredientFilter == "" ==> r == reports
    ensures r == Filter(reports, ShownTest(dateFilter, ingredientFilter, formatDate))
    ensures forall x :: x in r <==> x in reports && Shown(x, dateFilter, ingredientFilter, formatDate)
  {
    var byDate := if dateFilter != "" then Filter(reports, DateTest(dateFilter, formatDate)) else reports;
    var r := if ingredientFilter != "" then Filter(byDate, IngredientTest(ingredientFilter)) else byDate;
    FilteredIsOneFilter(reports, dateFilter, ingredientFilter, formatDate);
    r
  }

  /** The two steps are one filter with both tests, so the table keeps the
      order the reports were given in. */
  lemma FilteredIsOneFilter(reports: seq<DailyUsageReport>, dateFilter: string, ingredientFilter: string,
                            formatDate: string -> string)
    ensures
      var byDate := if dateFilter != "" then Filter(reports, DateTest(dateFilter, formatDate)) else reports;
      (if ingredientFilter != "" then Filter(byDate, IngredientTest(ingredientFilter)) else byDate)
        == Filter(reports, ShownTest(dateFilter, ingredientFilter, formatDate))
  {
    var shown := ShownTest(dateFilter, ingredientFilter, formatDate);
    if dateFilter != "" && ingredientFilter != "" {
      FilterFilter(reports, DateTest(dateFilter, formatDate), IngredientTest(ingredientFilter), shown);
    } else if dateFilter != "" {
      FilterSameTest(reports, DateTest(dateFilter, formatDate), shown);
    } else if ingredientFilter != "" {
      FilterSameTest(reports, IngredientTest(ingredientFilter), shown);
    } else {
      FilterKeepsAll(reports, shown);
    }
  }

  /** Filling in the ingredient box can only remove rows. */
  lemma IngredientBoxNarrows(reports: seq<DailyUsageReport>, dateFilter: string, ingredientFilter: string,
                             formatDate: string -> string)
    ensures |FilteredReports(reports, dateFilter, ingredientFilter, formatDate)| <= |FilteredReports(reports, dateFilter, "", formatDate)|
  {
    FilterCountMonotone(reports, reports, ShownTest(dateFilter, ingredientFilter, formatDate), ShownTest(dateFilter, "", formatDate));
  }
}

=== FILE: reports.dfy ===
/** Saving a daily ingredient-usage report: each line is priced from the
    ingredient it names, the quantities come out of stock and the report is
    appended. */
module Reports {
  import opened Options
  import opened Types
  import opened Collections
  import opened Stores
  import opened Stock

  /** A line as the usage form submits it: which ingredient, how much. */
  datatype UsageInput = UsageInput(ingredientId: string, quantityUsed: real)

  /** `MOCK_INGREDIENTS_DB.find(i => i.id === id)`: the first ingredient with
      the id. Deleted ingredients are found too. */
  function FindIngredient(ings: seq<Ingredient>, id: string): (r: Option<Ingredient>)
    ensures r.Some? ==> r.value in ings && r.value.id == id
    ensures r.None? <==> forall i :: 0 <= i < |ings| ==> ings[i].id != id
    ensures r.Some? ==> exists k :: 0 <= k < |ings| && ings[k] == r.value && forall j :: 0 <= j < k ==> ings[j].id != id
  {
    match IndexOf(ings, IngredientId, id)
    case Some(k) => Some(ings[k])
    case None => None
  }

  /** Stock changes do not change which ingredient an id finds, nor its name,
      unit or price. */
  lemma FindAfterDeduction(before: seq<Ingredient>, after: seq<Ingredient>, id: string)
    requires OnlyStockChanged(before, after)
    ensures FindIngredient(after, id).Some? <==> FindIngredient(before, id).Some?
    ensures FindIngredient(after, id).Some? ==>
      FindIngredient(after, id).value == FindIngredient(before, id).value.(stock := FindIngredient(after, id).value.stock)
  {
    assert forall j :: 0 <= j < |before| ==> after[j].id == before[j].id;
    match IndexOf(before, IngredientId, id)
    case Some(k) => IndexOfIs(after, IngredientId, id, k);
    case None =>
  }

  /** The line the report stores: the ingredient's name and unit copied, the
      cost priced at the ingredient's current price. */
  function DetailLine(ing: Ingredient, u: UsageInput): IngredientUsage {
    IngredientUsage(u.ingredientId, ing.name, ing.unit, u.quantityUsed, u.quantityUsed * ing.price)
  }

  /** The `usages.map(…)` of `saveDailyReport`, up to the first line whose
      ingredient does not exist, where the program throws. The loop deducts
      stock as it goes, but deductions change only stock, so every lookup
      sees the name, unit and price it would see in `ings`
      (`FindAfterDeduction`). */
  function DetailLines(ings: seq<Ingredient>, usages: seq<UsageInput>): (r: seq<IngredientUsage>)
    ensures |r| <= |usages|
    ensures forall i :: 0 <= i < |r| ==> FindIngredient(ings, usages[i].ingredientId).Some?
    ensures |r| < |usages| ==> FindIngredient(ings, usages[|r|].ingredientId).None?
    ensures forall i :: 0 <= i < |r| ==> r[i] == DetailLine(FindIngredient(ings, usages[i].ingredientId).value, usages[i])
    decreases |usages|
  {
    if |usages| == 0 then []
    else match FindIngredient(ings, usages[0].ingredientId)
      case None => []
      case Some(ing) => [DetailLine(ing, usages[0])] + DetailLines(ings, usages[1..])
  }

  function UsageDeduction(u: UsageInput): Deduction {
    Deduction(u.ingredientId, u.quantityUsed)
  }

  function LineCost(u: IngredientUsage): real {
    u.cost
  }

  /** `saveDailyReport` either stores the report or stops at the first line
      whose ingredient is missing. On that path the stock of the lines before
      it has already been decreased in memory, and nothing is written to
      storage. */
  datatype ReportOutcome =
    | ReportSaved(store: Store, report: DailyUsageReport)
    | IngredientNotFound(store: Store, missingId: string)

  /** `saveDailyReport`. The report date is not checked against existing
      reports here; the usage form does that. */
  function SaveDailyReport(st: Store, usages: seq<UsageInput>, notes: Option<string>, date: string, ctx: Context): (r: ReportOutcome)
    ensures r.ReportSaved? <==> forall i :: 0 <= i < |usages| ==> FindIngredient(st.ingredients, usages[i].ingredientId).Some?
    ensures r.IngredientNotFound? ==> exists n ::
      && 0 <= n < |usages|
      && r.missingId == usages[n].ingredientId
      && FindIngredient(st.ingredients, r.missingId).None?
      && (forall i :: 0 <= i < n ==> FindIngredient(st.ingredients, usages[i].ingredientId).Some?)
      && r.store.ingredients == DeductAll(st.ingredients, Map(usages[..n], UsageDeduction))
    ensures r.ReportSaved? ==>
      && r.report.id == MakeId("rep", ctx.now) && r.report.date == date && r.report.notes == notes
      && r.report.status == Active && r.report.deletedAt == None
      && |r.report.usages| == |usages|
      && r.report.totalCost == Sum(r.report.usages, LineCost)
      && r.store.reports == st.reports + [r.report]
      && r.store.ingredients == DeductAll(st.ingredients, Map(usages, UsageDeduction))
    ensures r.ReportSaved? ==> forall i :: 0 <= i < |usages| ==>
      r.report.usages[i] == DetailLine(FindIngredient(st.ingredients, usages[i].ingredientId).value, usages[i])
    ensures r.ReportSaved? ==> forall k :: 0 <= k < |st.ingredients| && IsFirst(st.ingredients, k) ==>
      r.store.ingredients[k].stock == st.ingredients[k].stock - DemandOf(Map(usages, UsageDeduction), st.ingredients[k].id)
    ensures OnlyStockChanged(st.ingredients, r.store.ingredients)
    ensures r.store == st.(ingredients := r.store.ingredients, reports := r.store.reports)
    ensures r.IngredientNotFound? ==> r.store.reports == st.reports
  {
    var lines := DetailLines(st.ingredients, usages);
    var n := |lines|;
    var ings := DeductAll(st.ingredients, Map(usages[..n], UsageDeduction));
    if n < |usages| then
      IngredientNotFound(st.(ingredients := ings), usages[n].ingredientId)
    else
      assert usages[..n] == usages;
      var report := DailyUsageReport(MakeId("rep", ctx.now), date, lines, Reduce(lines, LineCost, 0.0), notes, Active, None);
      ReportSaved(st.(ingredients := ings, reports := st.reports + [report]), report)
  }
}

=== FILE: sales.dfy ===
/** Recording a sale: the order total, the next order number, the new sale at
    the head of the list and the stock its recipes consume. */
module Sales {
  import opened Options
  import opened Types
  import opened Collections
  import opened Stores
  import opened Stock

  /** `item.unitPrice * item.quantity`. */
  function Subtotal(item: OrderItem): real {
    item.unitPrice * item.quantity as real
  }

  /** `items.reduce((sum, item) => sum + item.unitPrice * item.quantity, 0)`:
      the left fold equals the plain sum of the line subtotals. */
  function SaleTotal(items: seq<OrderItem>): (r: real)
    ensures r == Sum(items, Subtotal)
  {
    Reduce(items, Subtotal, 0.0)
  }

  /** The store after `addSale`, and the sale it recorded. */
  datatype Recorded = Recorded(store: Store, sale: Sale)

  /** `addSale`. Nothing is rejected: an empty order, a product id with no
      product and a recipe line with no ingredient are all accepted; the last
      two simply deduct nothing. */
  function AddSale(st: Store, items: seq<OrderItem>, paymentMethod: PaymentMethod,
                   attendantName: Option<string>, notes: Option<string>,
                   amountReceived: Option<real>, changeGiven: Option<real>, ctx: Context): (r: Recorded)
    ensures r.sale.id == MakeId("sale", ctx.now) && r.sale.timestamp == ctx.now
    ensures r.sale.items == items && r.sale.totalAmount == Sum(items, Subtotal)
    ensures r.sale.paymentMethod == paymentMethod && r.sale.attendantName == attendantName
    ensures r.sale.notes == notes && r.sale.amountReceived == amountReceived && r.sale.changeGiven == changeGiven
    ensures r.sale.status == Active && r.sale.deletedAt == None && r.sale.hasReceipt == None
    ensures r.store.lastOrderNumber == st.lastOrderNumber + 1
    ensures r.sale.orderNumber == OrderNumber(r.store.lastOrderNumber)
    ensures ParseOrderNumber(r.sale.orderNumber) == Some(r.store.lastOrderNumber)
    ensures r.store.sales == [r.sale] + st.sales
    ensures OnlyStockChanged(st.ingredients, r.store.ingredients)
    ensures forall k :: 0 <= k < |st.ingredients| ==>
      r.store.ingredients[k].stock == st.ingredients[k].stock
        - (if IsFirst(st.ingredients, k) then ItemsDemand(st.products, items, st.ingredients[k].id) else 0.0)
    ensures r.store == st.(sales := r.store.sales, ingredients := r.store.ingredients, lastOrderNumber := r.store.lastOrderNumber)
  {
    var issued := NextOrderNumber(st);
    var sale := Sale(MakeId("sale", ctx.now), issued.orderNumber, items, SaleTotal(items), paymentMethod,
      attendantName, notes, ctx.now, None, Active, None, amountReceived, changeGiven);
    var ings := DeductItems(st.products, st.ingredients, items);
    Recorded(issued.store.(sales := [sale] + st.sales, ingredients := ings), sale)
  }
}

=== FILE: sales_dashboard.dfy ===
/** The sales screen: today's revenue and order count over the sales it
    loaded, the products it offers to the till, and the hand-off from the
    till to `addSale`. */
module SalesDashboard {
  import opened Options
  import opened Types
  import opened Collections
  import opened Stores
  import opened Stock
  import opened ReceiptStore
  import opened Views
  import opened Sales
  import opened RegisterSale

  /** The till is offered the `active` products only. */
  function OfferedProducts(products: seq<Product>): (r: seq<Product>)
    ensures forall i :: 0 <= i < |r| ==> r[i] in products && r[i].status == ProductActive
    ensures forall i :: 0 <= i < |products| && products[i].status == ProductActive ==> products[i] in r
  {
    Filter(products, (p: Product) => p.status == ProductActive)
  }

  /** The products loaded from the store and then offered: exactly the
      store's active products. Inactive ones stay in the catalogue but never
      reach the till. */
  lemma OfferedAreActive(st: Store)
    ensures forall p :: p in OfferedProducts(GetProducts(st)) <==> p in st.products && p.status == ProductActive
  {
    var listed := GetProducts(st);
    forall p | p in st.products && p.status == ProductActive ensures p in OfferedProducts(listed) {
      var k :| 0 <= k < |st.products| && st.products[k] == p;
      assert ProductListed(p);
    }
  }

  /** The sales since `midnight`, the start of the current day. */
  function TodaySales(sales: seq<Sale>, midnight: int): (r: seq<Sale>)
    ensures forall i :: 0 <= i < |r| ==> r[i] in sales && r[i].timestamp >= midnight
    ensures forall i :: 0 <= i < |sales| && sales[i].timestamp >= midnight ==> sales[i] in r
  {
    Filter(sales, (s: Sale) => s.timestamp >= midnight)
  }

  function SaleAmount(s: Sale): real {
    s.totalAmount
  }

  /** The revenue card: the running total of today's sale totals. */
  function RevenueToday(today: seq<Sale>): (r: real)
    ensures r == Sum(today, SaleAmount)
  {
    Reduce(today, SaleAmount, 0.0)
  }

  /** A sale that counts for today's cards: not deleted, from `midnight` on. */
  function LiveSince(midnight: int): Sale -> bool {
    (s: Sale) => s.status != Deleted && s.timestamp >= midnight
  }

  /** What the cards show, computed from the sales the screen loads
      (`getSales` from `start`, then today's), equals the live sales of the
      store since midnight, whenever the loading window starts no later than
      midnight. */
  lemma CardsMatchStore(st: Store, start: int, midnight: int)
    requires start <= midnight
    ensures RevenueToday(TodaySales(GetSales(st, start), midnight)) == Sum(Filter(st.sales, LiveSince(midnight)), SaleAmount)
    ensures |TodaySales(GetSales(st, start), midnight)| == |Filter(st.sales, LiveSince(midnight))|
  {
    var today := (s: Sale) => s.timestamp >= midnight;
    var loaded := GetSales(st, start);
    var window := Filter(st.sales, InWindow(start));
    FilterPermutation(loaded, Map(window, Annotate(st)), today);
    MapFilter(window, Annotate(st), today, today);
    FilterFilter(st.sales, InWindow(start), today, LiveSince(midnight));
    var live := Filter(st.sales, LiveSince(midnight));
    assert multiset(TodaySales(loaded, midnight)) == multiset(Map(live, Annotate(st)));
    SumPermutation(TodaySales(loaded, midnight), Map(live, Annotate(st)), SaleAmount);
    SumMap(live, Annotate(st), SaleAmount, SaleAmount);
    assert |TodaySales(loaded, midnight)| == |multiset(Map(live, Annotate(st)))|;
  }

  /** Recording a sale now adds one order and exactly the sale's total to
      today's cards. */
  lemma SaleRaisesCards(st: Store, items: seq<OrderItem>, paymentMethod: PaymentMethod,
                        attendantName: Option<string>, notes: Option<string>,
                        amountReceived: Option<real>, changeGiven: Option<real>, ctx: Context, midnight: int)
    requires midnight <= ctx.now
    ensures
      var after := AddSale(st, items, paymentMethod, attendantName, notes, amountReceived, changeGiven, ctx).store;
      && Sum(Filter(after.sales, LiveSince(midnight)), SaleAmount) == Sum(Filter(st.sales, LiveSince(midnight)), SaleAmount) + SaleTotal(items)
      && |Filter(after.sales, LiveSince(midnight))| == |Filter(st.sales, LiveSince(midnight))| + 1
  {
    var r := AddSale(st, items, paymentMethod, attendantName, notes, amountReceived, changeGiven, ctx);
    FilterConcat([r.sale], st.sales, LiveSince(midnight));
    SumConcat([r.sale], Filter(st.sales, LiveSince(midnight)), SaleAmount);
  }

  /** `handleGenerateNote`: an empty order is ignored; otherwise the sale is
      recorded with the attendant and notes as typed (possibly empty). */
  function HandleGenerateNote(st: Store, req: NoteRequest, ctx: Context): (r: Option<Recorded>)
    ensures r.None? <==> |req.items| == 0
    ensures r.Some? ==>
      && r.value.sale.items == req.items
      && r.value.sale.totalAmount == Sum(req.items, Subtotal)
      && r.value.sale.paymentMethod == req.payment
      && r.value.sale.attendantName == Some(req.attendantName)
      && r.value.sale.notes == Some(req.notes)
      && r.value.sale.amountReceived == req.amountReceived
      && r.value.sale.changeGiven == req.changeGiven
      && r.value.store.sales == [r.value.sale] + st.sales
  {
    if |req.items| == 0 then None
    else Some(AddSale(st, req.items, req.payment, Some(req.attendantName), Some(req.notes),
                      req.amountReceived, req.changeGiven, ctx))
  }

  /** From the till to the store: a cash order the till lets through is
      recorded with an amount received equal to its total plus the change. */
  lemma TillToStore(st: Store, f: RegisterForm, ctx: Context)
    requires ConsistentField(f.amount) && !SubmitDisabled(f)
    requires f.payment == Dinheiro
    ensures
      var r := HandleGenerateNote(st, GenerateNote(f).0, ctx);
      && r.Some?
      && r.value.sale.amountReceived.Some? && r.value.sale.changeGiven.Some?
      && r.value.sale.amountReceived.value == r.value.sale.totalAmount + r.value.sale.changeGiven.value
  {
    EnabledSubmitPaysInFull(f);
  }

  /** The export button does something only when there are sales today. */
  predicate CanExportToday(today: seq<Sale>) {
    |today| > 0
  }
}

=== FILE: seed.dfy ===
/** The catalogue and stock a fresh installation starts from, and a worked
    sale against them. */
module Seed {
  import opened Options
  import opened Types
  import opened Collections
  import opened Stores
  import opened Stock
  import opened Sales

  const BurgerRecipe: seq<RecipeItem> := [RecipeItem("ing-1", 1.0), RecipeItem("ing-2", 150.0), RecipeItem("ing-3", 30.0)]

  const ClassicBurger: Product := Product("prod-1", "X-Burger Clássico", 25.50, Lanche, ProductActive, Some(BurgerRecipe), None)

  const InitialProducts: seq<Product> := [
    ClassicBurger,
    Product("prod-2", "Batata Frita Média", 12.00, Lanche, ProductActive, None, None),
    Product("prod-3", "Refrigerante Lata", 6.00, Bebida, ProductActive, None, None),
    Product("prod-4", "Combo Clássico", 40.00, Combo, ProductActive, None, None),
    Product("prod-5", "Milkshake de Chocolate", 18.00, Sobremesa, ProductActive, None, None),
    Product("prod-6", "X-Salada Especial", 28.00, Lanche, ProductInactive, None, None)
  ]

  const InitialIngredients: seq<Ingredient> := [
    Ingredient("ing-1", "Pão de Hambúrguer", Un, 100.0, 1.50, Some("Pão Dourado"), Some("Pães"), Some(20.0), Active, None),
    Ingredient("ing-2", "Carne de Hambúrguer", G, 5000.0, 0.05, Some("Carnes Nobres"), Some("Carnes"), Some(1000.0), Active, None),
    Ingredient("ing-3", "Queijo Cheddar", G, 2000.0, 0.07, Some("Laticínios Bom Sabor"), Some("Frios"), Some(500.0), Active, None),
    Ingredient("ing-4", "Alface", Kg, 2.0, 5.00, None, Some("Vegetais"), Some(1.0), Active, None),
    Ingredient("ing-5", "Batata Congelada", Kg, 10.0, 15.00, Some("Gelados da Serra"), Some("Congelados"), Some(5.0), Active, None)
  ]

  /** Nothing sold, no reports, no receipts, no log, counter at zero. */
  const InitialStore: Store := Store(InitialProducts, InitialIngredients, [], [], [], [], 0)

  const TwoBurgers: seq<OrderItem> := [OrderItem("prod-1", "X-Burger Clássico", 2, 25.50)]

  /** A store that still looks like a fresh installation where the worked
      sale needs it: counter at zero, the classic burger first among the
      products, and bread, beef, cheddar and lettuce first among the
      ingredients with their initial stock. */
  predicate StartsLikeSeed(st: Store) {
    && st.lastOrderNumber == 0
    && |st.products| > 0 && st.products[0] == ClassicBurger
    && |st.ingredients| >= 4
    && (forall k :: 0 <= k < 4 ==> st.ingredients[k] == InitialIngredients[k])
  }

  lemma InitialStoreStartsLikeSeed()
    ensures StartsLikeSeed(InitialStore)
  {
  }

  /** Two classic burgers paid in cash: the order is `3IR001`, the total is
      51.00, the stock of bread, beef and cheddar drops by the recipe
      quantities times two and the lettuce stays. */
  lemma TwoClassicBurgers(st: Store, ctx: Context)
    requires StartsLikeSeed(st)
    ensures var r := AddSale(st, TwoBurgers, Dinheiro, Some("Ana"), None, Some(60.0), Some(9.0), ctx);
      && r.sale.orderNumber == "3IR001"
      && r.sale.totalAmount == 51.0
      && r.store.ingredients[0].stock == 98.0
      && r.store.ingredients[1].stock == 4700.0
      && r.store.ingredients[2].stock == 1940.0
      && r.store.ingredients[3].stock == 2.0
  {
    BurgerSaleNumber(st, ctx);
    TwoBurgersTotal();
    BurgerSaleStock(st, ctx);
  }

  lemma BurgerSaleNumber(st: Store, ctx: Context)
    requires st.lastOrderNumber == 0
    ensures AddSale(st, TwoBurgers, Dinheiro, Some("Ana"), None, Some(60.0), Some(9.0), ctx).sale.orderNumber == "3IR001"
  {
    OrderNumberDigits();
  }

  lemma BurgerSaleStock(st: Store, ctx: Context)
    requires StartsLikeSeed(st)
    ensures var r := AddSale(st, TwoBurgers, Dinheiro, Some("Ana"), None, Some(60.0), Some(9.0), ctx);
      && r.store.ingredients[0].stock == 98.0
      && r.store.ingredients[1].stock == 4700.0
      && r.store.ingredients[2].stock == 1940.0
      && r.store.ingredients[3].stock == 2.0
  {
    BurgerRecipeFirst(st.products);
    BurgerDemand(st.products);
    SeedIdsDistinct(st.ingredients);
    SeedStock(st.ingredients);
    BurgerStockAt(st, ctx, 0);
    BurgerStockAt(st, ctx, 1);
    BurgerStockAt(st, ctx, 2);
    BurgerStockAt(st, ctx, 3);
  }

  /** One ingredient's stock after the sale, read off the sale's contract. */
  lemma BurgerStockAt(st: Store, ctx: Context, k: nat)
    requires k < |st.ingredients| && IsFirst(st.ingredients, k)
    ensures var r := AddSale(st, TwoBurgers, Dinheiro, Some("Ana"), None, Some(60.0), Some(9.0), ctx);
      && k < |r.store.ingredients|
      && r.store.ingredients[k].stock == st.ingredients[k].stock - ItemsDemand(st.products, TwoBurgers, st.ingredients[k].id)
  {
  }

  lemma SeedStock(ings: seq<Ingredient>)
    requires |ings| >= 4 && forall k :: 0 <= k < 4 ==> ings[k] == InitialIngredients[k]
    ensures ings[0].id == "ing-1" && ings[0].stock == 100.0
    ensures ings[1].id == "ing-2" && ings[1].stock == 5000.0
    ensures ings[2].id == "ing-3" && ings[2].stock == 2000.0
    ensures ings[3].id == "ing-4" && ings[3].stock == 2.0
  {
    assert ings[0] == InitialIngredients[0] && ings[1] == InitialIngredients[1];
    assert ings[2] == InitialIngredients[2] && ings[3] == InitialIngredients[3];
  }

  lemma TwoBurgersTotal()
    ensures Sum(TwoBurgers, Subtotal) == 51.0
  {
    assert TwoBurgers[1..] == [];
    assert Subtotal(TwoBurgers[0]) == 25.50 * 2.0;
  }

  /** What two burgers ask of each ingredient when the burger's recipe is
      the one the catalogue starts with. */
  lemma BurgerDemand(products: seq<Product>)
    requires RecipeOf(products, "prod-1") == BurgerRecipe
    ensures ItemsDemand(products, TwoBurgers, "ing-1") == 2.0
    ensures ItemsDemand(products, TwoBurgers, "ing-2") == 300.0
    ensures ItemsDemand(products, TwoBurgers, "ing-3") == 60.0
    ensures ItemsDemand(products, TwoBurgers, "ing-4") == 0.0
  {
    var ds := RecipeDeductions(BurgerRecipe, 2);
    assert TwoBurgers[1..] == [];
    assert ds[1..][1..][1..] == [];
  }

  lemma BurgerRecipeFirst(products: seq<Product>)
    requires |products| > 0 && products[0] == ClassicBurger
    ensures RecipeOf(products, "prod-1") == BurgerRecipe
  {
    IndexOfIs(products, ProductId, "prod-1", 0);
  }

  lemma SeedIdsDistinct(ings: seq<Ingredient>)
    requires |ings| >= 4 && forall k :: 0 <= k < 4 ==> ings[k] == InitialIngredients[k]
    ensures IsFirst(ings, 0) && IsFirst(ings, 1) && IsFirst(ings, 2) && IsFirst(ings, 3)
  {
    assert ings[0].id == "ing-1" && ings[1].id == "ing-2" && ings[2].id == "ing-3" && ings[3].id == "ing-4";
  }

  lemma OrderNumberDigits()
    ensures OrderNumber(1) == "3IR001"
  {
  }
}

=== FILE: sorting.dfy ===
/** Sorting with a caller-chosen comparison, the model of
    `Array.prototype.sort((a, b) => …)` everywhere the program orders a list
    (newest sale first, newest report first, recycle-bin entries by deletion
    time, chart groups by cost). Only the order is specified: the relative
    position of equal elements is not. */
module Sorting {

  /** `le(a, b)` means "`a` may be listed before `b`": a total preorder. */
  ghost predicate TotalPreorder<T(!new)>(le: (T, T) -> bool) {
    && (forall a, b :: le(a, b) || le(b, a))
    && (forall a, b, c :: le(a, b) && le(b, c) ==> le(a, c))
  }

  predicate SortedBy<T>(s: seq<T>, le: (T, T) -> bool) {
    forall i, j :: 0 <= i < j < |s| ==> le(s[i], s[j])
  }

  /** Every element of `s` may come after `x`. */
  ghost predicate Bounds<T>(x: T, s: seq<T>, le: (T, T) -> bool) {
    forall j :: 0 <= j < |s| ==> le(x, s[j])
  }

  /** Inserts `x` in front of the first element it may precede. */
  function Insert<T>(x: T, s: seq<T>, le: (T, T) -> bool): (r: seq<T>)
    ensures multiset(r) == multiset(s) + multiset{x}
    ensures |r| == |s| + 1
  {
    if |s| == 0 then [x]
    else if le(x, s[0]) then [x] + s
    else
      assert s == [s[0]] + s[1..];
      [s[0]] + Insert(x, s[1..], le)
  }

  lemma {:induction false} BoundsInsert<T>(y: T, x: T, s: seq<T>, le: (T, T) -> bool)
    requires le(y, x) && Bounds(y, s, le)
    ensures Bounds(y, Insert(x, s, le), le)
  {
    if |s| > 0 && !le(x, s[0]) {
      BoundsInsert(y, x, s[1..], le);
    }
  }

  lemma {:induction false} InsertSorted<T(!new)>(x: T, s: seq<T>, le: (T, T) -> bool)
    requires TotalPreorder(le)
    requires SortedBy(s, le)
    ensures SortedBy(Insert(x, s, le), le)
  {
    if |s| == 0 {
    } else if le(x, s[0]) {
      forall j | 0 < j < |s| ensures le(x, s[j]) {
        assert le(s[0], s[j]);
      }
    } else {
      assert le(s[0], x);
      InsertSorted(x, s[1..], le);
      BoundsInsert(s[0], x, s[1..], le);
    }
  }

  /** An ordering of `s` under `le`: a sorted permutation of `s`. */
  function Sort<T(!new)>(s: seq<T>, le: (T, T) -> bool): (r: seq<T>)
    requires TotalPreorder(le)
    ensures multiset(r) == multiset(s)
    ensures |r| == |s|
    ensures SortedBy(r, le)
  {
    if |s| == 0 then []
    else
      assert s == [s[0]] + s[1..];
      var rest := Sort(s[1..], le);
      InsertSorted(s[0], rest, le);
      Insert(s[0], rest, le)
  }
}

=== FILE: stock.dfy ===
/** Stock deduction. Both a sale (through product recipes) and a daily usage
    report take quantities out of ingredient stock; each deduction hits the
    first ingredient with the given id, as `Array.prototype.find` does, and
    an id with no ingredient deducts nothing. */
module Stock {
  import opened Options
  import opened Types
  import opened Collections

  /** One `ingredient.stock -= amount` step. */
  datatype Deduction = Deduction(ingredientId: string, amount: real)

  function IngredientId(i: Ingredient): string {
    i.id
  }

  function ProductId(p: Product): string {
    p.id
  }

  /** `ings[k]` is the ingredient `find` returns for its id. */
  predicate IsFirst(ings: seq<Ingredient>, k: int)
    requires 0 <= k < |ings|
  {
    forall j :: 0 <= j < k ==> ings[j].id != ings[k].id
  }

  /** `after` differs from `before` in stock levels at most. */
  predicate OnlyStockChanged(before: seq<Ingredient>, after: seq<Ingredient>) {
    |after| == |before| && forall k :: 0 <= k < |before| ==> after[k] == before[k].(stock := after[k].stock)
  }

  lemma IsFirstKept(before: seq<Ingredient>, after: seq<Ingredient>)
    requires OnlyStockChanged(before, after)
    ensures forall k :: 0 <= k < |before| ==> (IsFirst(after, k) <==> IsFirst(before, k))
  {
    forall k | 0 <= k < |before| ensures IsFirst(after, k) <==> IsFirst(before, k) {
      assert forall j :: 0 <= j < |before| ==> after[j].id == before[j].id;
    }
  }

  /** Deducts `d.amount` from the ingredient `find` returns for `d.ingredientId`. */
  function DeductOne(ings: seq<Ingredient>, d: Deduction): (r: seq<Ingredient>)
    ensures OnlyStockChanged(ings, r)
    ensures forall k :: 0 <= k < |ings| ==>
      r[k].stock == ings[k].stock - (if IsFirst(ings, k) && ings[k].id == d.ingredientId then d.amount else 0.0)
  {
    match IndexOf(ings, IngredientId, d.ingredientId)
    case None => ings
    case Some(k) => ings[k := ings[k].(stock := ings[k].stock - d.amount)]
  }

  /** The total a list of deductions takes from ingredient `id`. */
  function DemandOf(ds: seq<Deduction>, id: string): real
    decreases |ds|
  {
    if |ds| == 0 then 0.0
    else (if ds[0].ingredientId == id then ds[0].amount else 0.0) + DemandOf(ds[1..], id)
  }

  lemma {:induction false} DemandOfConcat(a: seq<Deduction>, b: seq<Deduction>, id: string)
    ensures DemandOf(a + b, id) == DemandOf(a, id) + DemandOf(b, id)
    decreases |a|
  {
    if |a| == 0 {
      assert a + b == b;
    } else {
      assert (a + b)[1..] == a[1..] + b;
      DemandOfConcat(a[1..], b, id);
    }
  }

  /** Applies the deductions in order. Whatever the order, the first
      ingredient of every id loses exactly its total demand and no other
      field or ingredient changes. */
  function DeductAll(ings: seq<Ingredient>, ds: seq<Deduction>): (r: seq<Ingredient>)
    ensures OnlyStockChanged(ings, r)
    ensures forall k :: 0 <= k < |ings| ==>
      r[k].stock == ings[k].stock - (if IsFirst(ings, k) then DemandOf(ds, ings[k].id) else 0.0)
    decreases |ds|
  {
    if |ds| == 0 then ings
    else
      var once := DeductOne(ings, ds[0]);
      var r := DeductAll(once, ds[1..]);
      IsFirstKept(ings, once);
      assert forall k :: 0 <= k < |ings| ==> once[k].id == ings[k].id;
      r
  }

  /** The inner loop of `addSale` for one order line: each recipe line
      deducts `quantity * count`. */
  function RecipeDeductions(recipe: seq<RecipeItem>, count: int): (r: seq<Deduction>)
    ensures |r| == |recipe|
    ensures forall i :: 0 <= i < |recipe| ==>
      r[i].ingredientId == recipe[i].ingredientId && r[i].amount == recipe[i].quantity * count as real
  {
    Map(recipe, (ri: RecipeItem) => Deduction(ri.ingredientId, ri.quantity * count as real))
  }

  /** The recipe `addSale` follows for a product id: the first product with
      that id, deleted and inactive ones included, if it has a recipe. */
  function RecipeOf(products: seq<Product>, productId: string): seq<RecipeItem> {
    match IndexOf(products, ProductId, productId)
    case Some(k) => products[k].recipe.GetOr([])
    case None => []
  }

  /** Everything an order takes out of stock, line by line. */
  function OrderDeductions(products: seq<Product>, items: seq<OrderItem>): seq<Deduction>
    decreases |items|
  {
    if |items| == 0 then [] else
      RecipeDeductions(RecipeOf(products, items[0].productId), items[0].quantity)
      + OrderDeductions(products, items[1..])
  }

  /** What a whole order asks of ingredient `id`: for every line, the recipe's
      quantity of `id` times the units sold. */
  function ItemsDemand(products: seq<Product>, items: seq<OrderItem>, id: string): real
    decreases |items|
  {
    if |items| == 0 then 0.0 else
      DemandOf(RecipeDeductions(RecipeOf(products, items[0].productId), items[0].quantity), id)
      + ItemsDemand(products, items[1..], id)
  }

  lemma {:induction false} OrderDemand(products: seq<Product>, items: seq<OrderItem>, id: string)
    ensures DemandOf(OrderDeductions(products, items), id) == ItemsDemand(products, items, id)
    decreases |items|
  {
    if |items| > 0 {
      DemandOfConcat(RecipeDeductions(RecipeOf(products, items[0].productId), items[0].quantity),
        OrderDeductions(products, items[1..]), id);
      OrderDemand(products, items[1..], id);
    }
  }

  /** The stock update of `addSale`: both loops. */
  function DeductItems(products: seq<Product>, ings: seq<Ingredient>, items: seq<OrderItem>): (r: seq<Ingredient>)
    ensures OnlyStockChanged(ings, r)
    ensures forall k :: 0 <= k < |ings| ==>
      r[k].stock == ings[k].stock - (if IsFirst(ings, k) then ItemsDemand(products, items, ings[k].id) else 0.0)
  {
    var r := DeductAll(ings, OrderDeductions(products, items));
    forall k | 0 <= k < |ings|
      ensures DemandOf(OrderDeductions(products, items), ings[k].id) == ItemsDemand(products, items, ings[k].id)
    {
      OrderDemand(products, items, ings[k].id);
    }
    r
  }
}

=== FILE: store.dfy ===
/** The data-access layer's state: the five collections the program keeps in
    module-level arrays and local storage, the action log and the order-number
    counter, as one immutable value. Every operation of the model is a
    function from one `Store` to the next. */
module Stores {
  import opened Options
  import opened Types
  import opened Text

  /** Collections keep the order of the program's arrays: `find` sees the
      first record with an id, purges remove every record with it. Receipts
      are the `receipt_<saleId>` entries of the key-value medium, in key order. */
  datatype Store = Store(
    products: seq<Product>,
    ingredients: seq<Ingredient>,
    sales: seq<Sale>,
    reports: seq<DailyUsageReport>,
    receipts: seq<Receipt>,
    logs: seq<LogEntry>,
    lastOrderNumber: nat)

  /** What the program reads from the environment while it runs an operation:
      the clock (`Date.now()` and `new Date()`, one instant) and the
      `attendantName` entry of local storage. */
  datatype Context = Context(now: nat, attendantName: Option<string>)

  /** `` `${prefix}-${Date.now()}` ``: the generated ids of products,
      ingredients, sales, reports and log entries. */
  function MakeId(prefix: string, now: nat): (id: string)
    ensures |id| > |prefix| + 1 && id[..|prefix| + 1] == prefix + "-"
    ensures AllDigits(id[|prefix| + 1..])
  {
    prefix + "-" + Decimal(now)
  }

  /** Ids of one kind made at different instants differ, and the instant
      can be read back from the id. */
  lemma {:induction false} MakeIdInjective(prefix: string, a: nat, b: nat)
    ensures DigitsValue(MakeId(prefix, a)[|prefix| + 1..]) == a
    ensures MakeId(prefix, a) == MakeId(prefix, b) <==> a == b
  {
    assert MakeId(prefix, a)[|prefix| + 1..] == Decimal(a);
    assert MakeId(prefix, b)[|prefix| + 1..] == Decimal(b);
    DecimalRoundTrip(a);
    DecimalRoundTrip(b);
  }

  /** `localStorage.getItem('attendantName') || 'Sistema'`. */
  function ActingUser(attendantName: Option<string>): (user: string)
    ensures user != ""
    ensures attendantName.Some? && attendantName.value != "" ==> user == attendantName.value
    ensures attendantName.None? || attendantName.value == "" ==> user == "Sistema"
  {
    match attendantName
    case Some(name) => if name == "" then "Sistema" else name
    case None => "Sistema"
  }

  /** The entry `logAction` builds for one lifecycle transition. */
  function LogEntryFor(ctx: Context, action: LogAction, itemType: string, itemId: string, itemName: string): LogEntry {
    LogEntry(MakeId("log", ctx.now), ctx.now, action, itemType, itemId, itemName, ActingUser(ctx.attendantName))
  }

  /** `logAction`: the new entry goes in front of the log. */
  function AppendLogEntry(st: Store, ctx: Context, action: LogAction, itemType: string, itemId: string, itemName: string): (r: Store)
    ensures r.(logs := st.logs) == st
    ensures |r.logs| == |st.logs| + 1 && r.logs[1..] == st.logs
    ensures r.logs[0].action == action && r.logs[0].itemType == itemType
      && r.logs[0].itemId == itemId && r.logs[0].itemName == itemName
    ensures r.logs[0].timestamp == ctx.now && r.logs[0].user == ActingUser(ctx.attendantName)
    ensures r.logs[0].id == MakeId("log", ctx.now)
  {
    st.(logs := [LogEntryFor(ctx, action, itemType, itemId, itemName)] + st.logs)
  }

  // ---------------------------------------------------------------------------
  // Order numbers

  /** `3IR` followed by the counter, zero-padded to at least three digits. */
  function OrderNumber(counter: nat): string {
    "3IR" + PadStart(Decimal(counter), 3, '0')
  }

  /** Reads an order number back to its counter value. */
  function ParseOrderNumber(s: string): Option<nat> {
    if |s| >= 3 && s[..3] == "3IR" && AllDigits(s[3..]) then Some(DigitsValue(s[3..])) else None
  }

  /** Every order number reads back to the counter it was made from. */
  lemma OrderNumberRoundTrip(counter: nat)
    ensures ParseOrderNumber(OrderNumber(counter)) == Some(counter)
  {
    var d := Decimal(counter);
    var p := PadStart(d, 3, '0');
    var z := p[..|p| - |d|];
    assert p == z + d;
    LeadingZeros(z, d);
    DecimalRoundTrip(counter);
    assert OrderNumber(counter)[3..] == p;
  }

  /** Distinct counter values give distinct order numbers. */
  lemma OrderNumberInjective(a: nat, b: nat)
    ensures OrderNumber(a) == OrderNumber(b) <==> a == b
  {
    OrderNumberRoundTrip(a);
    OrderNumberRoundTrip(b);
  }

  /** The result of `getNextOrderNumber`: the store with the counter advanced
      and the order number issued. */
  datatype Issued = Issued(store: Store, orderNumber: string)

  /** `getNextOrderNumber`: advances the stored counter by one and formats the
      new value. The counter is kept apart from the sales, so removing sales
      never makes a number available again. */
  function NextOrderNumber(st: Store): (r: Issued)
    ensures r.store.lastOrderNumber == st.lastOrderNumber + 1
    ensures r.store == st.(lastOrderNumber := r.store.lastOrderNumber)
    ensures r.orderNumber == OrderNumber(r.store.lastOrderNumber)
    ensures ParseOrderNumber(r.orderNumber) == Some(r.store.lastOrderNumber)
    ensures |r.orderNumber| >= 6 && r.orderNumber[..3] == "3IR"
  {
    var next := st.lastOrderNumber + 1;
    OrderNumberRoundTrip(next);
    Issued(st.(lastOrderNumber := next), OrderNumber(next))
  }
}

=== FILE: text.dfy ===
/** String operations the program takes from JavaScript: decimal printing of
    counters and ids, `padStart`, `toLowerCase`, `includes`, `trim() === ''`
    and the ordering `localeCompare` induces on ISO calendar dates. */
module Text {

  predicate IsDigit(c: char) {
    '0' <= c <= '9'
  }

  predicate AllDigits(s: string) {
    forall i :: 0 <= i < |s| ==> IsDigit(s[i])
  }

  function DigitChar(d: nat): (c: char)
    requires d < 10
    ensures IsDigit(c)
  {
    ('0' as int + d) as char
  }

  function DigitValue(c: char): (d: nat)
    requires IsDigit(c)
    ensures d < 10 && DigitChar(d) == c
  {
    c as int - '0' as int
  }

  /** `n.toString()` for a non-negative integer: decimal digits, no leading zero. */
  function Decimal(n: nat): (s: string)
    ensures |s| >= 1 && AllDigits(s)
    ensures n > 0 ==> s[0] != '0'
  {
    if n < 10 then [DigitChar(n)] else Decimal(n / 10) + [DigitChar(n % 10)]
  }

  /** The value a string of decimal digits denotes (`parseInt(s, 10)`). */
  function DigitsValue(s: string): nat
    requires AllDigits(s)
  {
    if |s| == 0 then 0 else 10 * DigitsValue(s[..|s| - 1]) + DigitValue(s[|s| - 1])
  }

  /** Reading back a printed number yields the number. */
  lemma {:induction false} DecimalRoundTrip(n: nat)
    ensures DigitsValue(Decimal(n)) == n
  {
    if n >= 10 {
      var s := Decimal(n / 10) + [DigitChar(n % 10)];
      assert s[..|s| - 1] == Decimal(n / 10);
      DecimalRoundTrip(n / 10);
    }
  }

  /** Leading zeros do not change the value of a digit string. */
  lemma {:induction false} LeadingZeros(z: string, s: string)
    requires forall i :: 0 <= i < |z| ==> z[i] == '0'
    requires AllDigits(s)
    ensures AllDigits(z + s)
    ensures DigitsValue(z + s) == DigitsValue(s)
  {
    if |s| == 0 {
      LeadingZerosOnly(z);
      assert z + s == z;
    } else {
      var t := z + s;
      assert t[..|t| - 1] == z + s[..|s| - 1];
      LeadingZeros(z, s[..|s| - 1]);
    }
  }

  lemma {:induction false} LeadingZerosOnly(z: string)
    requires forall i :: 0 <= i < |z| ==> z[i] == '0'
    ensures AllDigits(z) && DigitsValue(z) == 0
  {
    if |z| > 0 {
      LeadingZerosOnly(z[..|z| - 1]);
    }
  }

  /** `s.padStart(width, c)`: `s` preceded by as many `c` as it lacks to
      reach `width` characters. */
  function PadStart(s: string, width: nat, c: char): (r: string)
    ensures |r| == if |s| < width then width else |s|
    ensures r[|r| - |s|..] == s
    ensures forall i :: 0 <= i < |r| - |s| ==> r[i] == c
  {
    if |s| < width then seq(width - |s|, _ => c) + s else s
  }

  /** `c.toLowerCase()` for ASCII and the Latin-1 capital letters (À…Þ except ×). */
  function LowerChar(c: char): char {
    if 'A' <= c <= 'Z' || ('À' <= c <= 'Þ' && c != '×') then
      (c as int + 32) as char
    else c
  }

  function ToLower(s: string): (r: string)
    ensures |r| == |s|
    ensures forall i :: 0 <= i < |s| ==> r[i] == LowerChar(s[i])
  {
    seq(|s|, i requires 0 <= i < |s| => LowerChar(s[i]))
  }

  /** `t` occurs in `s` starting at position `i`. */
  ghost predicate OccursAt(s: string, t: string, i: int) {
    0 <= i && i + |t| <= |s| && s[i..i + |t|] == t
  }

  /** `s.includes(t)`. */
  function Contains(s: string, t: string): (r: bool)
    ensures r <==> exists i :: OccursAt(s, t, i)
  {
    if t <= s then
      assert OccursAt(s, t, 0);
      true
    else if |s| == 0 then
      assert forall i :: !OccursAt(s, t, i);
      false
    else
      var r := Contains(s[1..], t);
      assert forall i :: OccursAt(s[1..], t, i) <==> OccursAt(s, t, i + 1);
      assert !OccursAt(s, t, 0);
      assert forall i :: OccursAt(s, t, i) ==> i == 0 || OccursAt(s[1..], t, i - 1);
      r
  }

  /** The characters `String.prototype.trim` removes. */
  predicate IsWhiteSpace(c: char) {
    || '\U{0009}' <= c <= '\U{000D}'
    || c == ' ' || c == '\U{00A0}' || c == '\U{1680}'
    || '\U{2000}' <= c <= '\U{200A}'
    || c == '\U{2028}' || c == '\U{2029}' || c == '\U{202F}'
    || c == '\U{205F}' || c == '\U{3000}' || c == '\U{FEFF}'
  }

  /** `s.trim() === ''`: nothing but white space. */
  predicate IsBlank(s: string) {
    forall i :: 0 <= i < |s| ==> IsWhiteSpace(s[i])
  }

  /** Code-unit lexicographic order; on equally formatted `YYYY-MM-DD` dates it
      is the order `localeCompare` gives, and chronological order. */
  predicate StrLe(a: string, b: string) {
    if |a| == 0 then true
    else if |b| == 0 then false
    else if a[0] != b[0] then a[0] < b[0]
    else StrLe(a[1..], b[1..])
  }

  lemma {:induction false} StrLeTotal(a: string, b: string)
    ensures StrLe(a, b) || StrLe(b, a)
  {
    if |a| > 0 && |b| > 0 && a[0] == b[0] {
      StrLeTotal(a[1..], b[1..]);
    }
  }

  lemma {:induction false} StrLeTransitive(a: string, b: string, c: string)
    requires StrLe(a, b) && StrLe(b, c)
    ensures StrLe(a, c)
  {
    if |a| > 0 && |b| > 0 && |c| > 0 && a[0] == b[0] && b[0] == c[0] {
      StrLeTransitive(a[1..], b[1..], c[1..]);
    }
  }
}

=== FILE: types.dfy ===
/** The records the snack-bar system stores and exchanges. Optional fields
    (`?:` in the program's type declarations) are `Option`s; instants are
    milliseconds since the epoch; money and quantities are exact reals. */
module Types {
  import opened Options

  datatype Category = Lanche | Bebida | Combo | Sobremesa

  /** Only a product can be `inactive`: kept in the catalogue, not offered for sale. */
  datatype ProductStatus = ProductActive | ProductInactive | ProductDeleted

  /** The lifecycle of sales, receipts, ingredients and usage reports. */
  datatype Status = Active | Deleted

  /** `dinheiro` (cash), `pix`, `cartao` (card). */
  datatype PaymentMethod = Dinheiro | Pix | Cartao

  datatype UnitOfMeasure = Kg | G | Un | L | Ml

  /** `deleted`, `restored`, `permanently_deleted`. */
  datatype LogAction = SoftDeleted | Restored | PermanentlyDeleted

  /** One line of a recipe: `quantity` of the ingredient consumed per unit sold. */
  datatype RecipeItem = RecipeItem(ingredientId: string, quantity: real)

  datatype Product = Product(
    id: string,
    name: string,
    price: real,
    category: Category,
    status: ProductStatus,
    recipe: Option<seq<RecipeItem>>,
    deletedAt: Option<int>)

  /** A sale line. Name and price are copied from the product when the line is
      created, so later product edits do not rewrite past sales. */
  datatype OrderItem = OrderItem(
    productId: string,
    productName: string,
    quantity: int,
    unitPrice: real)

  datatype Sale = Sale(
    id: string,
    orderNumber: string,
    items: seq<OrderItem>,
    totalAmount: real,
    paymentMethod: PaymentMethod,
    attendantName: Option<string>,
    notes: Option<string>,
    timestamp: int,
    hasReceipt: Option<bool>,
    status: Status,
    deletedAt: Option<int>,
    amountReceived: Option<real>,
    changeGiven: Option<real>)

  /** A payment receipt has no id of its own: it is stored under its sale's id. */
  datatype Receipt = Receipt(
    saleId: string,
    fileName: string,
    fileType: string,
    fileData: string,
    uploadedAt: int,
    status: Status,
    deletedAt: Option<int>)

  datatype Ingredient = Ingredient(
    id: string,
    name: string,
    unit: UnitOfMeasure,
    stock: real,
    price: real,
    supplier: Option<string>,
    category: Option<string>,
    minStock: Option<real>,
    status: Status,
    deletedAt: Option<int>)

  /** A report line, with the ingredient's name and unit copied at write time. */
  datatype IngredientUsage = IngredientUsage(
    ingredientId: string,
    ingredientName: string,
    unit: UnitOfMeasure,
    quantityUsed: real,
    cost: real)

  datatype DailyUsageReport = DailyUsageReport(
    id: string,
    date: string,
    usages: seq<IngredientUsage>,
    totalCost: real,
    notes: Option<string>,
    status: Status,
    deletedAt: Option<int>)

  datatype LogEntry = LogEntry(
    id: string,
    timestamp: int,
    action: LogAction,
    itemType: string,
    itemId: string,
    itemName: string,
    user: string)
}

=== FILE: usage_logger.dfy ===
/** The usage-report form: rows of ingredient and quantity, the check of the
    report date against the reports already listed, and the hand-off of the
    valid rows to `saveDailyReport`. */
module UsageLogger {
  import opened Options
  import opened Types
  import opened Collections
  import opened Stores
  import opened Kinds
  import opened Stock
  import opened Views
  import opened Reports
  import opened InventoryDashboard

  /** A row as typed. The quantity is `Number(value)` of the field's text,
      which is `NaN` for text that is not a number: `None` here. */
  datatype UsageRow = UsageRow(ingredientId: string, quantityUsed: Option<real>)

  /** The row the form starts with and the "add" button appends. */
  const BlankRow: UsageRow := UsageRow("", Some(0.0))

  const InitialRows: seq<UsageRow> := [BlankRow]

  /** A row that is submitted: an ingredient chosen and a quantity above zero
      (`NaN > 0` is false). */
  predicate ValidRow(u: UsageRow) {
    u.ingredientId != "" && u.quantityUsed.Some? && u.quantityUsed.value > 0.0
  }

  function ToInput(u: UsageRow): UsageInput {
    UsageInput(u.ingredientId, u.quantityUsed.GetOr(0.0))
  }

  /** `x` is the line some valid row of the form turns into. */
  predicate FromValidRow(rows: seq<UsageRow>, x: UsageInput) {
    exists k :: 0 <= k < |rows| && ValidRow(rows[k]) && x == ToInput(rows[k])
  }

  /** The rows handed to `saveDailyReport`, in form order. */
  function ValidUsages(rows: seq<UsageRow>): (r: seq<UsageInput>)
    ensures |r| <= |rows|
    ensures forall i :: 0 <= i < |r| ==> r[i].ingredientId != "" && r[i].quantityUsed > 0.0
    ensures forall i :: 0 <= i < |rows| && ValidRow(rows[i]) ==>
      UsageInput(rows[i].ingredientId, rows[i].quantityUsed.value) in r
    ensures forall i :: 0 <= i < |r| ==> FromValidRow(rows, r[i])
  {
    var kept := Filter(rows, ValidRow);
    var r := Map(kept, ToInput);
    ValidLinesFromRows(rows, kept, r);
    r
  }

  lemma ValidLinesFromRows(rows: seq<UsageRow>, kept: seq<UsageRow>, r: seq<UsageInput>)
    requires forall i :: 0 <= i < |kept| ==> kept[i] in rows && ValidRow(kept[i])
    requires forall i :: 0 <= i < |rows| && ValidRow(rows[i]) ==> rows[i] in kept
    requires |r| == |kept| && forall i :: 0 <= i < |kept| ==> r[i] == ToInput(kept[i])
    ensures forall i :: 0 <= i < |r| ==> r[i].ingredientId != "" && r[i].quantityUsed > 0.0
    ensures forall i :: 0 <= i < |rows| && ValidRow(rows[i]) ==>
      UsageInput(rows[i].ingredientId, rows[i].quantityUsed.value) in r
    ensures forall i :: 0 <= i < |r| ==> FromValidRow(rows, r[i])
  {
    forall i | 0 <= i < |r| ensures FromValidRow(rows, r[i]) {
      var k :| 0 <= k < |rows| && rows[k] == kept[i];
    }
    forall i | 0 <= i < |rows| && ValidRow(rows[i])
      ensures UsageInput(rows[i].ingredientId, rows[i].quantityUsed.value) in r
    {
      var j :| 0 <= j < |kept| && kept[j] == rows[i];
      assert r[j] == ToInput(rows[i]);
    }
  }

  /** The lines keep the form's order: a form split in two submits the
      lines of its first part, then those of its second, and a single row
      submits its own line exactly when it is valid. */
  lemma ValidUsagesConcat(a: seq<UsageRow>, b: seq<UsageRow>)
    ensures ValidUsages(a + b) == ValidUsages(a) + ValidUsages(b)
    ensures ValidUsages([]) == []
    ensures forall u :: ValidUsages([u]) == if ValidRow(u) then [ToInput(u)] else []
  {
    FilterConcat(a, b, ValidRow);
    MapConcat(Filter(a, ValidRow), Filter(b, ValidRow), ToInput);
    forall u ensures ValidUsages([u]) == if ValidRow(u) then [ToInput(u)] else [] {
      assert Filter([u], ValidRow) == if ValidRow(u) then [u] else [];
    }
  }

  /** The "add" button. */
  function AddUsageRow(rows: seq<UsageRow>): (r: seq<UsageRow>)
    ensures |r| == |rows| + 1 && r[..|rows|] == rows
    ensures r[|rows|].ingredientId == "" && !ValidRow(r[|rows|])
  {
    rows + [BlankRow]
  }

  /** The trash button of row `index`. */
  function RemoveUsageRow(rows: seq<UsageRow>, index: int): (r: seq<UsageRow>)
    ensures 0 <= index < |rows| ==> |r| == |rows| - 1 && r == rows[..index] + rows[index + 1..]
    ensures !(0 <= index < |rows|) ==> r == rows
  {
    DropIndex(rows, index)
  }

  /** Choosing an ingredient in row `index`. */
  function SetIngredient(rows: seq<UsageRow>, index: nat, id: string): (r: seq<UsageRow>)
    requires index < |rows|
    ensures |r| == |rows| && r[index].ingredientId == id && r[index].quantityUsed == rows[index].quantityUsed
    ensures forall k :: 0 <= k < |rows| && k != index ==> r[k] == rows[k]
  {
    rows[index := rows[index].(ingredientId := id)]
  }

  /** Typing a quantity in row `index`. */
  function SetQuantity(rows: seq<UsageRow>, index: nat, q: Option<real>): (r: seq<UsageRow>)
    requires index < |rows|
    ensures |r| == |rows| && r[index].quantityUsed == q && r[index].ingredientId == rows[index].ingredientId
    ensures forall k :: 0 <= k < |rows| && k != index ==> r[k] == rows[k]
  {
    rows[index := rows[index].(quantityUsed := q)]
  }

  /** A blank row adds nothing to what is submitted. */
  lemma AddRowKeepsUsages(rows: seq<UsageRow>)
    ensures ValidUsages(AddUsageRow(rows)) == ValidUsages(rows)
  {
    FilterConcat(rows, [BlankRow], ValidRow);
    assert Filter([BlankRow], ValidRow) == [];
    assert Filter(rows + [BlankRow], ValidRow) == Filter(rows, ValidRow);
  }

  /** Removing a row drops its line from what is submitted, if it had one,
      and keeps every other line in order. */
  lemma RemoveRowUsages(rows: seq<UsageRow>, index: nat)
    requires index < |rows|
    ensures ValidUsages(RemoveUsageRow(rows, index)) ==
      ValidUsages(rows[..index]) + ValidUsages(rows[index + 1..])
    ensures ValidUsages(rows) ==
      ValidUsages(rows[..index]) + (if ValidRow(rows[index]) then [ToInput(rows[index])] else []) + ValidUsages(rows[index + 1..])
  {
    var a, b, x := rows[..index], rows[index + 1..], rows[index];
    var fa, fb, h := Filter(a, ValidRow), Filter(b, ValidRow), Filter([x], ValidRow);
    assert RemoveUsageRow(rows, index) == a + b;
    FilterConcat(a, b, ValidRow);
    MapConcat(fa, fb, ToInput);
    assert rows == (a + [x]) + b;
    FilterConcat(a + [x], b, ValidRow);
    FilterConcat(a, [x], ValidRow);
    assert h == if ValidRow(x) then [x] else [];
    assert Filter(rows, ValidRow) == (fa + h) + fb;
    MapConcat(fa + h, fb, ToInput);
    MapConcat(fa, h, ToInput);
    assert Map(h, ToInput) == if ValidRow(x) then [ToInput(x)] else [];
  }

  /** Editing one row changes the number of submitted lines by at most one. */
  lemma EditRowCount(rows: seq<UsageRow>, index: nat, u: UsageRow)
    requires index < |rows|
    ensures |ValidUsages(rows[index := u])| ==
      |ValidUsages(rows)| - (if ValidRow(rows[index]) then 1 else 0) + (if ValidRow(u) then 1 else 0)
  {
    FilterUpdateCount(rows, index, u, ValidRow);
  }

  /** The ingredients no row has chosen yet: the options offered in a row's
      list besides the row's own choice. */
  function AvailableIngredients(ings: seq<Ingredient>, rows: seq<UsageRow>): (r: seq<Ingredient>)
    ensures forall i :: 0 <= i < |r| ==> r[i] in ings && forall k :: 0 <= k < |rows| ==> rows[k].ingredientId != r[i].id
    ensures forall i :: 0 <= i < |ings| && (forall k :: 0 <= k < |rows| ==> rows[k].ingredientId != ings[i].id) ==> ings[i] in r
  {
    Filter(ings, (ing: Ingredient) => !Any(rows, (u: UsageRow) => u.ingredientId == ing.id))
  }

  /** No ingredient is chosen in two rows. */
  predicate RowsDistinct(rows: seq<UsageRow>) {
    forall i, j :: 0 <= i < j < |rows| && rows[i].ingredientId != "" ==> rows[i].ingredientId != rows[j].ingredientId
  }

  /** Choosing from the offered ingredients keeps the chosen ingredients
      distinct, so a report never holds two lines for one ingredient. */
  lemma ChooseAvailableKeepsDistinct(ings: seq<Ingredient>, rows: seq<UsageRow>, index: nat, ing: Ingredient)
    requires RowsDistinct(rows) && index < |rows|
    requires ing in AvailableIngredients(ings, rows)
    ensures RowsDistinct(SetIngredient(rows, index, ing.id))
  {
    var r := SetIngredient(rows, index, ing.id);
    forall i, j | 0 <= i < j < |r| && r[i].ingredientId != "" ensures r[i].ingredientId != r[j].ingredientId {
      if i == index {
        assert rows[j].ingredientId != ing.id;
      } else if j == index {
        assert rows[i].ingredientId != ing.id;
      }
    }
  }

  /** What pressing "save" leads to. */
  datatype SubmitOutcome =
    | DuplicateDate
    | NothingToSave
    | SaveFailed(store: Store, missingId: string)
    | Saved(store: Store, report: DailyUsageReport)

  function InputId(u: UsageInput): string {
    u.ingredientId
  }

  /** `handleSubmit`: a date that already has a listed report is refused, a
      form without a valid row is refused, and otherwise the valid rows are
      saved with the notes as typed. A failing save is reported as an error. */
  function Submit(st: Store, rows: seq<UsageRow>, notes: string, date: string,
                  existingDates: seq<string>, ctx: Context): (r: SubmitOutcome)
    ensures r.DuplicateDate? <==> date in existingDates
    ensures r.NothingToSave? <==> date !in existingDates && |ValidUsages(rows)| == 0
    ensures r.SaveFailed? ==>
      && r.store.reports == st.reports
      && FindIngredient(st.ingredients, r.missingId).None?
      && r.missingId in Map(ValidUsages(rows), InputId)
    ensures r.Saved? ==>
      && r.report.date == date && r.report.notes == Some(notes)
      && r.report.status == Active
      && |r.report.usages| == |ValidUsages(rows)| > 0
      && (forall i :: 0 <= i < |r.report.usages| ==> r.report.usages[i].quantityUsed > 0.0)
      && r.report.totalCost == Sum(r.report.usages, LineCost)
      && r.store.reports == st.reports + [r.report]
      && r.store.ingredients == DeductAll(st.ingredients, Map(ValidUsages(rows), UsageDeduction))
  {
    var valid := ValidUsages(rows);
    if date in existingDates then DuplicateDate
    else if |valid| == 0 then NothingToSave
    else
      var o := SaveDailyReport(st, valid, Some(notes), date, ctx);
      SaveOutcomeFacts(st, valid, notes, date, ctx);
      match o
      case IngredientNotFound(store, missingId) => SaveFailed(store, missingId)
      case ReportSaved(store, report) => Saved(store, report)
  }

  /** The save of valid rows fails only on an id the rows name, and a saved
      report holds only positive quantities. */
  lemma SaveOutcomeFacts(st: Store, valid: seq<UsageInput>, notes: string, date: string, ctx: Context)
    requires forall i :: 0 <= i < |valid| ==> valid[i].quantityUsed > 0.0
    ensures var o := SaveDailyReport(st, valid, Some(notes), date, ctx);
      && (o.IngredientNotFound? ==> o.missingId in Map(valid, InputId))
      && (o.ReportSaved? ==> forall i :: 0 <= i < |o.report.usages| ==> o.report.usages[i].quantityUsed > 0.0)
  {
    var o := SaveDailyReport(st, valid, Some(notes), date, ctx);
    var ids := Map(valid, InputId);
    match o
    case IngredientNotFound(_, missingId) =>
      var n :| 0 <= n < |valid| && missingId == valid[n].ingredientId;
      assert ids[n] == missingId;
    case ReportSaved(_, report) =>
      forall i | 0 <= i < |report.usages| ensures report.usages[i].quantityUsed > 0.0 {
        assert report.usages[i].quantityUsed == valid[i].quantityUsed;
      }
  }

  function ReportDate(r: DailyUsageReport): string {
    r.date
  }

  /** No two live reports share a date. */
  predicate LiveDatesDistinct(reports: seq<DailyUsageReport>) {
    forall i, j :: 0 <= i < j < |reports| && reports[i].status != Deleted && reports[j].status != Deleted ==>
      reports[i].date != reports[j].date
  }

  /** Every live report's date is among the dates of the listed reports. */
  lemma LiveDateListed(st: Store, k: nat)
    requires k < |st.reports| && st.reports[k].status != Deleted
    ensures st.reports[k].date in Map(GetDailyReports(st), ReportDate)
  {
    var x := st.reports[k];
    var listed := GetDailyReports(st);
    assert x in listed;
    var j :| 0 <= j < |listed| && listed[j] == x;
    assert Map(listed, ReportDate)[j] == x.date;
  }

  /** The browser's constraint validation of the form, checked before
      `handleSubmit` runs: the date is required, every row's ingredient list
      is required, and every quantity box is required with a minimum of 0.
      The box shows `quantityUsed || ''`, so a zero or unparsable quantity
      leaves it empty; together these ask exactly that every row be valid. */
  predicate FormValid(rows: seq<UsageRow>, date: string) {
    date != "" && forall i :: 0 <= i < |rows| ==> ValidRow(rows[i])
  }

  /** A form the browser lets through submits every one of its rows. */
  lemma FormValidSubmitsEveryRow(rows: seq<UsageRow>, date: string)
    requires FormValid(rows, date)
    ensures ValidUsages(rows) == Map(rows, ToInput)
    ensures |ValidUsages(rows)| == |rows|
  {
    FilterKeepsAll(rows, ValidRow);
  }

  /** The "save" button: nothing happens (`None`) while the browser's
      validation fails; otherwise `handleSubmit` runs, and then every row
      is a line of the saved report. */
  function SubmitForm(st: Store, rows: seq<UsageRow>, notes: string, date: string,
                      existingDates: seq<string>, ctx: Context): (r: Option<SubmitOutcome>)
    ensures r.None? <==> !FormValid(rows, date)
    ensures r.Some? ==> r.value == Submit(st, rows, notes, date, existingDates, ctx)
    ensures r.Some? && r.value.Saved? ==> |r.value.report.usages| == |rows|
    ensures r.Some? && r.value.NothingToSave? ==> |rows| == 0
  {
    if FormValid(rows, date) then
      FormValidSubmitsEveryRow(rows, date);
      Some(Submit(st, rows, notes, date, existingDates, ctx))
    else None
  }

  /** With the dates of the listed reports as the form's known dates, a saved
      report never gives a second live report for a date. */
  lemma SubmitKeepsDatesDistinct(st: Store, rows: seq<UsageRow>, notes: string, date: string, ctx: Context)
    requires LiveDatesDistinct(st.reports)
    ensures
      var r := Submit(st, rows, notes, date, Map(GetDailyReports(st), ReportDate), ctx);
      r.Saved? ==> LiveDatesDistinct(r.store.reports)
  {
    var known := Map(GetDailyReports(st), ReportDate);
    var r := Submit(st, rows, notes, date, known, ctx);
    if r.Saved? {
      UnlistedDateIsFree(st, date);
      AppendKeepsDatesDistinct(st.reports, r.report);
    }
  }

  /** A date missing from the listed reports belongs to no live report. */
  lemma UnlistedDateIsFree(st: Store, date: string)
    requires date !in Map(GetDailyReports(st), ReportDate)
    ensures forall k :: 0 <= k < |st.reports| && st.reports[k].status != Deleted ==> st.reports[k].date != date
  {
    forall k | 0 <= k < |st.reports| && st.reports[k].status != Deleted ensures st.reports[k].date != date {
      LiveDateListed(st, k);
    }
  }

  lemma AppendKeepsDatesDistinct(reports: seq<DailyUsageReport>, x: DailyUsageReport)
    requires LiveDatesDistinct(reports)
    requires forall k :: 0 <= k < |reports| && reports[k].status != Deleted ==> reports[k].date != x.date
    ensures LiveDatesDistinct(reports + [x])
  {
    var rs := reports + [x];
    forall i, j | 0 <= i < j < |rs| && rs[i].status != Deleted && rs[j].status != Deleted
      ensures rs[i].date != rs[j].date
    {
      assert rs[i] == reports[i];
      if j < |reports| {
        assert rs[j] == reports[j];
      }
    }
  }

  /** Saving a report only takes stock out, so no low-stock alert clears. */
  lemma SavedReportKeepsAlerts(st: Store, rows: seq<UsageRow>, notes: string, date: string,
                               existingDates: seq<string>, ctx: Context)
    ensures
      var r := Submit(st, rows, notes, date, existingDates, ctx);
      r.Saved? ==>
        && (forall k :: 0 <= k < |st.ingredients| && LowStock(st.ingredients[k]) ==> LowStock(r.store.ingredients[k]))
        && Metrics(r.store.ingredients).lowStockItemsCount >= Metrics(st.ingredients).lowStockItemsCount
  {
    var r := Submit(st, rows, notes, date, existingDates, ctx);
    if r.Saved? {
      var ds := Map(ValidUsages(rows), UsageDeduction);
      assert r.store.ingredients == DeductAll(st.ingredients, ds);
      forall i | 0 <= i < |ds| ensures ds[i].amount >= 0.0 {
        assert ds[i] == UsageDeduction(ValidUsages(rows)[i]);
      }
      DeductionKeepsAlerts(st.ingredients, ds);
    }
  }
}

=== FILE: views.dfy ===
/** The read side of the store: the listings every screen loads, the recycle
    bin, and the ordering each getter applies. */
module Views {
  import opened Options
  import opened Types
  import opened Collections
  import opened Sorting
  import opened Text
  import opened Stores
  import opened Kinds
  import opened ReceiptStore

  /** The records of a kind that the listings show: those not soft-deleted. */
  function Listing(st: Store, kind: Kind): seq<Record> {
    Filter(Records(st, kind), IsLive)
  }

  /** The records of a kind waiting in the recycle bin. Receipts included: the
      program finds them by scanning storage for `receipt_` keys, here they are
      the store's receipt collection. */
  function RecycleBin(st: Store, kind: Kind): seq<Record> {
    Filter(Records(st, kind), IsTrashed)
  }

  /** Every record is either listed or in the recycle bin, never both, and
      neither view invents or drops one. */
  lemma ViewsPartition(st: Store, kind: Kind)
    ensures multiset(Listing(st, kind)) + multiset(RecycleBin(st, kind)) == multiset(Records(st, kind))
    ensures forall i :: 0 <= i < |Listing(st, kind)| ==> !Listing(st, kind)[i].IsDeleted()
    ensures forall i :: 0 <= i < |RecycleBin(st, kind)| ==> RecycleBin(st, kind)[i].IsDeleted()
    ensures forall i :: 0 <= i < |Records(st, kind)| ==>
      (Records(st, kind)[i] in Listing(st, kind) || Records(st, kind)[i] in RecycleBin(st, kind))
  {
    FilterPartition(Records(st, kind), IsLive, IsTrashed);
  }

  predicate ProductListed(p: Product) {
    p.status != ProductDeleted
  }

  /** `getProducts`: products that are not deleted, inactive ones included,
      in store order. */
  function GetProducts(st: Store): (r: seq<Product>)
    ensures Map(r, WrapProduct) == Listing(st, ProductKind)
    ensures forall i :: 0 <= i < |r| ==> r[i] in st.products && r[i].status != ProductDeleted
  {
    MapFilter(st.products, WrapProduct, ProductListed, IsLive);
    Filter(st.products, ProductListed)
  }

  predicate IngredientListed(i: Ingredient) {
    i.status != Deleted
  }

  predicate ByName(a: Ingredient, b: Ingredient) {
    StrLe(a.name, b.name)
  }

  lemma ByNameIsPreorder()
    ensures TotalPreorder(ByName)
  {
    forall a: Ingredient, b: Ingredient ensures ByName(a, b) || ByName(b, a) {
      StrLeTotal(a.name, b.name);
    }
    forall a: Ingredient, b: Ingredient, c: Ingredient | ByName(a, b) && ByName(b, c) ensures ByName(a, c) {
      StrLeTransitive(a.name, b.name, c.name);
    }
  }

  /** `getIngredients`: the ingredients that are not deleted, by name. */
  function GetIngredients(st: Store): (r: seq<Ingredient>)
    ensures multiset(Map(r, WrapIngredient)) == multiset(Listing(st, IngredientKind))
    ensures forall i :: 0 <= i < |r| ==> r[i] in st.ingredients && r[i].status != Deleted
    ensures forall i, j :: 0 <= i < j < |r| ==> StrLe(r[i].name, r[j].name)
  {
    var live := Filter(st.ingredients, IngredientListed);
    ByNameIsPreorder();
    var r := Sort(live, ByName);
    IngredientsListed(st, r);
    r
  }

  /** The live ingredients, listed in any order. */
  lemma IngredientsListed(st: Store, r: seq<Ingredient>)
    requires multiset(r) == multiset(Filter(st.ingredients, IngredientListed))
    requires SortedBy(r, ByName)
    ensures multiset(Map(r, WrapIngredient)) == multiset(Listing(st, IngredientKind))
    ensures forall i :: 0 <= i < |r| ==> r[i] in st.ingredients && r[i].status != Deleted
    ensures forall i, j :: 0 <= i < j < |r| ==> StrLe(r[i].name, r[j].name)
  {
    var live := Filter(st.ingredients, IngredientListed);
    assert Records(st, IngredientKind) == Map(st.ingredients, WrapIngredient);
    MapFilter(st.ingredients, WrapIngredient, IngredientListed, IsLive);
    MapPermutation(r, live, WrapIngredient);
    PermutationMembers(r, live);
    forall i, j | 0 <= i < j < |r| ensures StrLe(r[i].name, r[j].name) {
      assert ByName(r[i], r[j]);
    }
  }

  predicate ReportListed(r: DailyUsageReport) {
    r.status != Deleted
  }

  /** Later dates first; `date` is `YYYY-MM-DD`, so string order is date order. */
  predicate NewerDateFirst(a: DailyUsageReport, b: DailyUsageReport) {
    StrLe(b.date, a.date)
  }

  lemma NewerDateFirstIsPreorder()
    ensures TotalPreorder(NewerDateFirst)
  {
    forall a: DailyUsageReport, b: DailyUsageReport ensures NewerDateFirst(a, b) || NewerDateFirst(b, a) {
      StrLeTotal(a.date, b.date);
    }
    forall a: DailyUsageReport, b: DailyUsageReport, c: DailyUsageReport
      | NewerDateFirst(a, b) && NewerDateFirst(b, c) ensures NewerDateFirst(a, c)
    {
      StrLeTransitive(c.date, b.date, a.date);
    }
  }

  /** `getDailyReports`: the reports that are not deleted, latest date first. */
  function GetDailyReports(st: Store): (r: seq<DailyUsageReport>)
    ensures multiset(Map(r, WrapReport)) == multiset(Listing(st, ReportKind))
    ensures forall i :: 0 <= i < |r| ==> r[i] in st.reports && r[i].status != Deleted
    ensures forall x :: x in st.reports && x.status != Deleted ==> x in r
    ensures forall i, j :: 0 <= i < j < |r| ==> StrLe(r[j].date, r[i].date)
  {
    var live := Filter(st.reports, ReportListed);
    NewerDateFirstIsPreorder();
    var r := Sort(live, NewerDateFirst);
    ReportsListed(st, r);
    ReportsComplete(st, r);
    r
  }

  /** A permutation of the live reports holds every one of them. */
  lemma ReportsComplete(st: Store, r: seq<DailyUsageReport>)
    requires multiset(r) == multiset(Filter(st.reports, ReportListed))
    ensures forall x :: x in st.reports && x.status != Deleted ==> x in r
  {
    var live := Filter(st.reports, ReportListed);
    forall x | x in st.reports && x.status != Deleted ensures x in r {
      var k :| 0 <= k < |st.reports| && st.reports[k] == x;
      assert x in live;
      assert x in multiset(live);
    }
  }

  /** The live reports, listed in any order. */
  lemma ReportsListed(st: Store, r: seq<DailyUsageReport>)
    requires multiset(r) == multiset(Filter(st.reports, ReportListed))
    requires SortedBy(r, NewerDateFirst)
    ensures multiset(Map(r, WrapReport)) == multiset(Listing(st, ReportKind))
    ensures forall i :: 0 <= i < |r| ==> r[i] in st.reports && r[i].status != Deleted
    ensures forall i, j :: 0 <= i < j < |r| ==> StrLe(r[j].date, r[i].date)
  {
    var live := Filter(st.reports, ReportListed);
    assert Records(st, ReportKind) == Map(st.reports, WrapReport);
    MapFilter(st.reports, WrapReport, ReportListed, IsLive);
    MapPermutation(r, live, WrapReport);
    PermutationMembers(r, live);
    forall i, j | 0 <= i < j < |r| ensures StrLe(r[j].date, r[i].date) {
      assert NewerDateFirst(r[i], r[j]);
    }
  }

  /** The window test of `getSales`: on or after `start` and not deleted. */
  function InWindow(start: int): Sale -> bool {
    (s: Sale) => s.timestamp >= start && s.status != Deleted
  }

  predicate NewerFirst(a: Sale, b: Sale) {
    a.timestamp >= b.timestamp
  }

  /** The sale as `getSales` returns it: marked with whether a live receipt exists. */
  function Annotate(st: Store): Sale -> Sale {
    (s: Sale) => s.(hasReceipt := Some(HasReceipt(st, s.id)))
  }

  /** `getSales`: the sales since `start` that are not deleted, newest first,
      each marked with `hasReceipt`. The caller computes `start` from the time
      filter (midnight today, seven or thirty days back). */
  function GetSales(st: Store, start: int): (r: seq<Sale>)
    ensures multiset(r) == multiset(Map(Filter(st.sales, InWindow(start)), Annotate(st)))
    ensures forall i :: 0 <= i < |r| ==>
      && r[i].timestamp >= start && r[i].status != Deleted
      && r[i].hasReceipt == Some(HasReceipt(st, r[i].id))
      && r[i].(hasReceipt := None) in Map(st.sales, (s: Sale) => s.(hasReceipt := None))
    ensures forall i, j :: 0 <= i < j < |r| ==> r[i].timestamp >= r[j].timestamp
  {
    var window := Filter(st.sales, InWindow(start));
    var sorted := Sort(window, NewerFirst);
    SalesListed(st, start, sorted);
    Map(sorted, Annotate(st))
  }

  /** The sales of the window, in any order, marked with their receipts. */
  lemma SalesListed(st: Store, start: int, sorted: seq<Sale>)
    requires multiset(sorted) == multiset(Filter(st.sales, InWindow(start)))
    requires SortedBy(sorted, NewerFirst)
    ensures var r := Map(sorted, Annotate(st));
      && multiset(r) == multiset(Map(Filter(st.sales, InWindow(start)), Annotate(st)))
      && (forall i :: 0 <= i < |r| ==>
        && r[i].timestamp >= start && r[i].status != Deleted
        && r[i].hasReceipt == Some(HasReceipt(st, r[i].id))
        && r[i].(hasReceipt := None) in Map(st.sales, (s: Sale) => s.(hasReceipt := None)))
      && (forall i, j :: 0 <= i < j < |r| ==> r[i].timestamp >= r[j].timestamp)
  {
    var window := Filter(st.sales, InWindow(start));
    var r := Map(sorted, Annotate(st));
    MapPermutation(sorted, window, Annotate(st));
    PermutationMembers(sorted, window);
    forall i | 0 <= i < |r|
      ensures r[i].timestamp >= start && r[i].status != Deleted
      ensures r[i].(hasReceipt := None) in Map(st.sales, (s: Sale) => s.(hasReceipt := None))
    {
      var k :| 0 <= k < |st.sales| && st.sales[k] == sorted[i];
      assert Map(st.sales, (s: Sale) => s.(hasReceipt := None))[k] == r[i].(hasReceipt := None);
    }
    forall i, j | 0 <= i < j < |r| ensures r[i].timestamp >= r[j].timestamp {
      assert NewerFirst(sorted[i], sorted[j]);
    }
  }
}

=== FILE: visual_dashboard.dfy ===
/** The chart screen: stock alerts, the cost of all reports by ingredient
    category, the daily cost of the seven latest reports, and the five
    ingredients that cost the most. */
module VisualDashboard {
  import opened Options
  import opened Types
  import opened Collections
  import opened Sorting
  import opened Text
  import opened Stores
  import opened Stock
  import opened Reports
  import opened Views
  import opened Grouping
  import opened InventoryDashboard

  /** The alert list: exactly the low-stock ingredients, as many as the
      inventory screen counts. */
  function LowStockItems(ings: seq<Ingredient>): (r: seq<Ingredient>)
    ensures forall k :: 0 <= k < |r| ==> r[k] in ings && LowStock(r[k])
    ensures forall k :: 0 <= k < |ings| && LowStock(ings[k]) ==> ings[k] in r
    ensures |r| == Metrics(ings).lowStockItemsCount
  {
    Filter(ings, LowStock)
  }

  /** Every usage line of every report, report by report. */
  function UsagesOf(reports: seq<DailyUsageReport>): seq<IngredientUsage>
    decreases |reports|
  {
    if |reports| == 0 then [] else reports[0].usages + UsagesOf(reports[1..])
  }

  function ReportCost(r: DailyUsageReport): real {
    r.totalCost
  }

  function UsagesCost(r: DailyUsageReport): real {
    Sum(r.usages, LineCost)
  }

  /** Each report's total is the sum of its lines, as `saveDailyReport`
      writes it. */
  predicate ReportsConsistent(reports: seq<DailyUsageReport>) {
    forall i :: 0 <= i < |reports| ==> reports[i].totalCost == Sum(reports[i].usages, LineCost)
  }

  /** Saving a report keeps the stored reports consistent. */
  lemma SaveKeepsReportsConsistent(st: Store, usages: seq<UsageInput>, notes: Option<string>, date: string, ctx: Context)
    requires ReportsConsistent(st.reports)
    ensures ReportsConsistent(SaveDailyReport(st, usages, notes, date, ctx).store.reports)
  {
    var r := SaveDailyReport(st, usages, notes, date, ctx);
    if r.ReportSaved? {
      assert r.store.reports[|st.reports|] == r.report;
    }
  }

  lemma {:induction false} UsagesOfCost(reports: seq<DailyUsageReport>)
    ensures Sum(UsagesOf(reports), LineCost) == Sum(reports, UsagesCost)
    decreases |reports|
  {
    if |reports| > 0 {
      SumConcat(reports[0].usages, UsagesOf(reports[1..]), LineCost);
      UsagesOfCost(reports[1..]);
    }
  }

  lemma {:induction false} ConsistentTotals(reports: seq<DailyUsageReport>)
    requires ReportsConsistent(reports)
    ensures Sum(reports, UsagesCost) == Sum(reports, ReportCost)
    decreases |reports|
  {
    if |reports| > 0 {
      ConsistentTotals(reports[1..]);
    }
  }

  /** `ingredient?.category || 'Sem Categoria'`: the category of the first
      ingredient with the id; a missing ingredient, a missing category and an
      empty one all fall back to "Sem Categoria". */
  function CategoryOf(ings: seq<Ingredient>, id: string): (c: string)
    ensures c != ""
    ensures FindIngredient(ings, id).Some? && FindIngredient(ings, id).value.category.Some?
            && FindIngredient(ings, id).value.category.value != "" ==>
              c == FindIngredient(ings, id).value.category.value
    ensures FindIngredient(ings, id).None? || FindIngredient(ings, id).value.category.None?
            || FindIngredient(ings, id).value.category.value == "" ==>
              c == "Sem Categoria"
  {
    match FindIngredient(ings, id)
    case Some(ing) =>
      (match ing.category
       case Some(cat) => if cat == "" then "Sem Categoria" else cat
       case None => "Sem Categoria")
    case None => "Sem Categoria"
  }

  function CategoryContribution(ings: seq<Ingredient>): IngredientUsage -> Contribution {
    (u: IngredientUsage) => var c := CategoryOf(ings, u.ingredientId); Contribution(c, c, u.cost)
  }

  /** Some line of `us` falls in `category`. */
  predicate CategoryOccurs(ings: seq<Ingredient>, us: seq<IngredientUsage>, category: string) {
    exists i :: 0 <= i < |us| && CategoryOf(ings, us[i].ingredientId) == category
  }

  /** Reference definition of a slice: Σ of the cost of the lines whose
      ingredient falls in `category`. */
  function CategoryCost(ings: seq<Ingredient>, reports: seq<DailyUsageReport>, category: string): real {
    Sum(UsagesOf(reports), (u: IngredientUsage) => if CategoryOf(ings, u.ingredientId) == category then u.cost else 0.0)
  }

  /** The pie chart: one slice per category that occurs, each holding that
      category's cost, largest first, the slices adding up to the cost of
      every line of every report. */
  function CostByCategory(ings: seq<Ingredient>, reports: seq<DailyUsageReport>): (r: seq<Group>)
    ensures KeysUnique(r, GroupKey)
    ensures forall j :: 0 <= j < |r| ==> r[j].name == r[j].key && r[j].total == CategoryCost(ings, reports, r[j].key)
    ensures forall j :: 0 <= j < |r| ==> CategoryOccurs(ings, UsagesOf(reports), r[j].key)
    ensures forall i :: 0 <= i < |UsagesOf(reports)| ==> HasGroup(r, CategoryOf(ings, UsagesOf(reports)[i].ingredientId))
    ensures Sum(r, Total) == Sum(UsagesOf(reports), LineCost)
    ensures forall i, j :: 0 <= i < j < |r| ==> r[i].total >= r[j].total
  {
    var us := UsagesOf(reports);
    var cs := Map(us, CategoryContribution(ings));
    var r := Ranked(cs);
    CategorySlices(ings, us, cs, r);
    SumMap(us, CategoryContribution(ings), Amount, LineCost);
    r
  }

  lemma CategorySlices(ings: seq<Ingredient>, us: seq<IngredientUsage>, cs: seq<Contribution>, r: seq<Group>)
    requires cs == Map(us, CategoryContribution(ings))
    requires forall j :: 0 <= j < |r| ==> GroupOk(r[j], cs)
    requires forall i :: 0 <= i < |cs| ==> HasGroup(r, cs[i].key)
    ensures forall j :: 0 <= j < |r| ==> r[j].name == r[j].key
    ensures forall j :: 0 <= j < |r| ==>
      r[j].total == Sum(us, (u: IngredientUsage) => if CategoryOf(ings, u.ingredientId) == r[j].key then u.cost else 0.0)
    ensures forall j :: 0 <= j < |r| ==> CategoryOccurs(ings, us, r[j].key)
    ensures forall i :: 0 <= i < |us| ==> HasGroup(r, CategoryOf(ings, us[i].ingredientId))
  {
    forall j | 0 <= j < |r|
      ensures r[j].name == r[j].key
      ensures r[j].total == Sum(us, (u: IngredientUsage) => if CategoryOf(ings, u.ingredientId) == r[j].key then u.cost else 0.0)
      ensures CategoryOccurs(ings, us, r[j].key)
    {
      CategorySlice(ings, us, cs, r[j]);
    }
    forall i | 0 <= i < |us| ensures HasGroup(r, CategoryOf(ings, us[i].ingredientId)) {
      assert cs[i].key == CategoryOf(ings, us[i].ingredientId);
    }
  }

  /** One slice: named after its category, holding that category's cost. */
  lemma CategorySlice(ings: seq<Ingredient>, us: seq<IngredientUsage>, cs: seq<Contribution>, g: Group)
    requires cs == Map(us, CategoryContribution(ings))
    requires GroupOk(g, cs)
    ensures g.name == g.key
    ensures g.total == Sum(us, (u: IngredientUsage) => if CategoryOf(ings, u.ingredientId) == g.key then u.cost else 0.0)
    ensures CategoryOccurs(ings, us, g.key)
  {
    var key := g.key;
    var m := IndexOf(cs, ContributionKey, key).value;
    assert cs[m] == CategoryContribution(ings)(us[m]);
    assert CategoryOf(ings, us[m].ingredientId) == key;
    SumMap(us, CategoryContribution(ings), AmountFor(key),
      (u: IngredientUsage) => if CategoryOf(ings, u.ingredientId) == key then u.cost else 0.0);
  }

  /** The pie adds up to the sum of the report totals, whenever each report's
      total is the sum of its lines. */
  lemma PieMatchesReportTotals(ings: seq<Ingredient>, reports: seq<DailyUsageReport>)
    requires ReportsConsistent(reports)
    ensures Sum(CostByCategory(ings, reports), Total) == Sum(reports, ReportCost)
  {
    UsagesOfCost(reports);
    ConsistentTotals(reports);
  }

  /** The bar chart: the seven reports with the latest dates (fewer if
      there are fewer), oldest first. */
  function LastSevenDays(reports: seq<DailyUsageReport>): (r: seq<DailyUsageReport>)
    ensures |r| == if |reports| < 7 then |reports| else 7
    ensures forall i :: 0 <= i < |r| ==> r[i] in reports
    ensures forall i, j :: 0 <= i < j < |r| ==> StrLe(r[i].date, r[j].date)
    ensures forall x :: x in reports && x !in r ==> forall i :: 0 <= i < |r| ==> StrLe(x.date, r[i].date)
  {
    NewerDateFirstIsPreorder();
    var sorted := Sort(reports, NewerDateFirst);
    var shown := Take(sorted, 7);
    PermutationMembers(sorted, reports);
    LatestShown(reports, sorted, shown);
    var r := Reverse(shown);
    OldestFirst(shown, r);
    r
  }

  lemma LatestShown(reports: seq<DailyUsageReport>, sorted: seq<DailyUsageReport>, shown: seq<DailyUsageReport>)
    requires multiset(sorted) == multiset(reports)
    requires SortedBy(sorted, NewerDateFirst)
    requires shown == Take(sorted, 7)
    ensures SortedBy(shown, NewerDateFirst)
    ensures forall x :: x in reports ==> x in shown || forall i :: 0 <= i < |shown| ==> StrLe(x.date, shown[i].date)
  {
    forall x | x in reports ensures x in shown || forall i :: 0 <= i < |shown| ==> StrLe(x.date, shown[i].date) {
      assert x in multiset(sorted);
      var m :| 0 <= m < |sorted| && sorted[m] == x;
      if m < |shown| {
        assert shown[m] == x;
      } else {
        forall i | 0 <= i < |shown| ensures StrLe(x.date, shown[i].date) {
          assert NewerDateFirst(sorted[i], sorted[m]);
        }
      }
    }
  }

  /** Reversing the newest-first list gives the oldest-first one. */
  lemma OldestFirst(shown: seq<DailyUsageReport>, r: seq<DailyUsageReport>)
    requires SortedBy(shown, NewerDateFirst)
    requires r == Reverse(shown)
    ensures forall x :: x in r <==> x in shown
    ensures forall i, j :: 0 <= i < j < |r| ==> StrLe(r[i].date, r[j].date)
  {
    forall x ensures x in r <==> x in shown {
      if x in r {
        var i :| 0 <= i < |r| && r[i] == x;
        assert shown[|shown| - 1 - i] == x;
      }
      if x in shown {
        var i :| 0 <= i < |shown| && shown[i] == x;
        assert r[|shown| - 1 - i] == x;
      }
    }
    forall i, j | 0 <= i < j < |r| ensures StrLe(r[i].date, r[j].date) {
      assert NewerDateFirst(shown[|shown| - 1 - j], shown[|shown| - 1 - i]);
    }
  }

  function UsageId(u: IngredientUsage): string {
    u.ingredientId
  }

  function IngredientContribution(u: IngredientUsage): Contribution {
    Contribution(u.ingredientId, u.ingredientName, u.cost)
  }

  /** Reference definition of an ingredient's cost over all reports. */
  function IngredientCost(reports: seq<DailyUsageReport>, id: string): real {
    Sum(UsagesOf(reports), (u: IngredientUsage) => if u.ingredientId == id then u.cost else 0.0)
  }

  /** The ranking: at most five ingredients, most expensive first, each named
      as its first line in the reports names it and holding its total cost;
      an ingredient left out costs no more than any listed one, and when
      fewer than five are listed every ingredient used is listed. */
  function TopExpensive(reports: seq<DailyUsageReport>): (r: seq<Group>)
    ensures |r| <= 5
    ensures KeysUnique(r, GroupKey)
    ensures forall j :: 0 <= j < |r| ==> IngredientGroupOk(reports, r[j])
    ensures forall i, j :: 0 <= i < j < |r| ==> r[i].total >= r[j].total
    ensures forall i :: 0 <= i < |UsagesOf(reports)| ==>
      HasGroup(r, UsagesOf(reports)[i].ingredientId) ||
      forall j :: 0 <= j < |r| ==> IngredientCost(reports, UsagesOf(reports)[i].ingredientId) <= r[j].total
    ensures |r| < 5 ==> forall i :: 0 <= i < |UsagesOf(reports)| ==> HasGroup(r, UsagesOf(reports)[i].ingredientId)
  {
    var us := UsagesOf(reports);
    var cs := Map(us, IngredientContribution);
    var ranked := Ranked(cs);
    var r := Take(ranked, 5);
    TopGroups(reports, us, cs, ranked, r);
    r
  }

  lemma TopGroups(reports: seq<DailyUsageReport>, us: seq<IngredientUsage>, cs: seq<Contribution>, ranked: seq<Group>, r: seq<Group>)
    requires us == UsagesOf(reports)
    requires cs == Map(us, IngredientContribution)
    requires KeysUnique(ranked, GroupKey)
    requires forall j :: 0 <= j < |ranked| ==> GroupOk(ranked[j], cs)
    requires forall i :: 0 <= i < |cs| ==> HasGroup(ranked, cs[i].key)
    requires forall i, j :: 0 <= i < j < |ranked| ==> ranked[i].total >= ranked[j].total
    requires r == Take(ranked, 5)
    ensures KeysUnique(r, GroupKey)
    ensures forall j :: 0 <= j < |r| ==> IngredientGroupOk(reports, r[j])
    ensures forall i :: 0 <= i < |us| ==>
      HasGroup(r, us[i].ingredientId) ||
      forall j :: 0 <= j < |r| ==> IngredientCost(reports, us[i].ingredientId) <= r[j].total
  {
    forall j | 0 <= j < |ranked| ensures IngredientGroupOk(reports, ranked[j]) {
      IngredientGroup(reports, us, cs, ranked[j]);
    }
    forall i | 0 <= i < |us|
      ensures HasGroup(r, us[i].ingredientId) ||
        forall j :: 0 <= j < |r| ==> IngredientCost(reports, us[i].ingredientId) <= r[j].total
    {
      assert cs[i].key == us[i].ingredientId;
      LeftOutCostsLess(reports, ranked, r, us[i].ingredientId);
    }
  }

  /** A ranked ingredient that did not make the top five costs no more than
      any that did. */
  lemma LeftOutCostsLess(reports: seq<DailyUsageReport>, ranked: seq<Group>, r: seq<Group>, id: string)
    requires forall j :: 0 <= j < |ranked| ==> IngredientGroupOk(reports, ranked[j])
    requires HasGroup(ranked, id)
    requires forall i, j :: 0 <= i < j < |ranked| ==> ranked[i].total >= ranked[j].total
    requires r == Take(ranked, 5)
    ensures HasGroup(r, id) || forall j :: 0 <= j < |r| ==> IngredientCost(reports, id) <= r[j].total
  {
    var m :| 0 <= m < |ranked| && ranked[m].key == id;
    if m < |r| {
      assert r[m].key == id;
    } else {
      assert ranked[m].total == IngredientCost(reports, id);
      forall j | 0 <= j < |r| ensures IngredientCost(reports, id) <= r[j].total {
        assert r[j] == ranked[j];
      }
    }
  }

  /** `g` is the entry of its ingredient: the id occurs in the lines, `g` is
      named as its first line names it, and holds the ingredient's cost. */
  predicate IngredientGroupOk(reports: seq<DailyUsageReport>, g: Group) {
    && IndexOf(UsagesOf(reports), UsageId, g.key).Some?
    && g.name == UsagesOf(reports)[IndexOf(UsagesOf(reports), UsageId, g.key).value].ingredientName
    && g.total == IngredientCost(reports, g.key)
  }

  /** A group of the contributions is the entry of its ingredient, since a
      contribution's key is its line's ingredient id. */
  lemma IngredientGroup(reports: seq<DailyUsageReport>, us: seq<IngredientUsage>, cs: seq<Contribution>, g: Group)
    requires us == UsagesOf(reports)
    requires cs == Map(us, IngredientContribution)
    requires GroupOk(g, cs)
    ensures IngredientGroupOk(reports, g)
  {
    var m := IndexOf(cs, ContributionKey, g.key).value;
    IndexOfIs(us, UsageId, g.key, m);
    SumMap(us, IngredientContribution, AmountFor(g.key),
      (u: IngredientUsage) => if u.ingredientId == g.key then u.cost else 0.0);
  }
}
